=== FILE: README.md ===
# portal_cliente — a Dafny model of the clinic dashboard's logic

`portal_cliente` is a Next.js dashboard for a dental clinic. It reads and writes an appointment table, a CRM board of deals, a patient cache and a table of chatbot interactions. It also talks to a Chatwoot inbox and to a mock of the clinic's ERP (Clinicorp). Almost all of it is I/O wrapped in React. This project models the small pure kernels inside that code and proves what they promise:

- **ERP adapter** (`Clinicorp`, `clinicorp.dfy`): `parseDateTime`, `normalize`, the date-prefix query and the append to the in-memory table.
- **Appointment mirror** (`Mirror`, `mirror.dfy`): range filter, order, create, update and delete over the `crm_appointments` table.
- **Week calendar** (`CalendarView`, `calendar_view.dfy`): week range, hour slots, cell placement, week navigation and card labels.
- **New-appointment form** (`AppointmentForm`, `appointment_form.dfy`): request construction, submit outcomes, patient search and selection.
- **Dashboard metrics** (`DashboardMetrics`, `metrics.dfy`, on `Tally` in `tally.dfy`): rates, histograms, the escalation classifier, name and operation formatters, and the daily history.
- **CRM** (`Crm`, `Kanban`, `Patients`, `CrmPage`): deal titles, default column, stage moves, optimistic moves with revert, pagination, and the CRM page's parameters, errors and links.
- **Inbox** (`Chatwoot`, `Sidebar`): base-URL trimming, contact lookup, conversation mapping, the status whitelist and the dashboard counts; the conversation list's summary, badge, search and highlight.
- **Navigation and charts** (`LeftNav`, `Charts`): the side menu's active rule, bar scaling, column heights and the trend arrow.

Conventions:

- Every store or HTTP call is a parameter: the reply of the store (`Fault`, `Reply<T>`) or of `fetch` (`Chatwoot.Response<T>`).
- A table is a value. Each action returns the table it leaves behind.
- Time is the clinic's local wall clock in whole minutes (`LocalTime.Instant`). Dates are read with the ECMAScript date-time string format (section 21.4.1.32 of ECMA-262).
- JavaScript's `x || fallback` is `Base.Or`. A missing value and an empty string both fall back.

Helper modules: `Base` (options, replies, truthiness), `Text` (characters, search, split, decimal text), `Seqs` (filter, map, sums, sorting) and `LocalTime` (calendar arithmetic and date-text parsing).

## Model

| member | source | states |
|---|---|---|
| Clinicorp.ParseDateTime | app/lib/integrations/clinicorp.js:57-73 | no instant when the date text or the time text is empty; any instant it gives lies within the calendar day written before the date's `T` |
| Clinicorp.ParseDateTimeIgnoresTimeOfDate | app/lib/integrations/clinicorp.js:62 | two date texts that agree before their first `T` give the same result for any time text (the `T00:00Z` and `T03:00Z` spellings of a day agree) |
| Clinicorp.ParseDateTimeRoundTrip | app/lib/integrations/clinicorp.js:62-68 | a well-formed date with any suffix and an `HH:mm` time give exactly that date at that hour and minute |
| Clinicorp.Normalize | app/lib/integrations/clinicorp.js:78-99 | cancelled exactly when `Deleted` is `X`; `id` and `external_id` are both the row id's decimal text; notes default to `''`; start and end, when present, lie on the row's own date; the raw row is kept |
| Clinicorp.GetAppointments | app/lib/integrations/clinicorp.js:104-117 | the result holds exactly the normalised rows whose date text starts with the query's date part, cancelled ones included; each such row appears as often as it is stored, and the raw rows form a subsequence of the table (table order) |
| Clinicorp.NormalizeKeepsRaw | app/lib/integrations/clinicorp.js:97 | reading `raw` back from the normalised rows gives the rows themselves |
| Clinicorp.CancelledRowsAreReturned | app/lib/integrations/clinicorp.js:82-83 | a cancelled row on the queried date is returned, marked cancelled |
| Clinicorp.CreateAppointment | app/lib/integrations/clinicorp.js:122-147 | appends exactly one row and keeps every earlier row; returns that row's normalisation, scheduled, with `Novo Paciente` and `Consulta` as defaults |
| Clinicorp.NewRowTimes | app/lib/integrations/clinicorp.js:127-140 | the appended row starts on its stored day at the local time of the requested start, and ends at the midnight that opens that day (`toTime` is `00:00`) |
| Clinicorp.CreateAppointmentShiftsLateEvening | app/lib/integrations/clinicorp.js:127-129 | three hours behind UTC, a start at 22:00 on 2 February 2026 is stored exactly one day late |
| Clinicorp.CreateAppointmentLocalDate | app/lib/integrations/clinicorp.js:127-129 | with the local date stored, the appended appointment starts exactly at the requested instant |
| Clinicorp.MockDbSecondOfFebruary | app/lib/integrations/clinicorp.js:8-46 | querying 2026-02-02 on the initial table returns two appointments, although the two rows of that day differ in their date texts after the `T` |
| Clinicorp.MockDbThirdOfFebruary | app/lib/integrations/clinicorp.js:34-46 | querying 2026-02-03 returns its single row, and it is cancelled |
| LocalTime.ParseLocalParts | app/lib/integrations/clinicorp.js:67 | reading `date T time` gives the date's instant at the time's hour and minute, and nothing when either part is unreadable |
| LocalTime.ParseLocalRoundTrip | app/dashboard/agenda/CreateAppointmentModal.js:39-40 | the text `YYYY-MM-DDTHH:mm:00` of a date and a time reads back as exactly that date and time |
| LocalTime.NextDayNumber | app/dashboard/agenda/CalendarView.js:14-16 | the calendar day after a valid date has the next day number, across month, February and year ends |
| LocalTime.AtFields | app/dashboard/agenda/CalendarView.js:105 | an instant built from a date, an hour and a minute reads back that day, hour and minute |
| CalendarView.WeekStart | app/dashboard/agenda/CalendarView.js:14 | the week starts on a Sunday, on or before the current day and less than 7 days before it |
| CalendarView.WeekDays | app/dashboard/agenda/CalendarView.js:14-16 | seven consecutive days from the week's start |
| CalendarView.WeekDaysSundayToSaturday | app/dashboard/agenda/CalendarView.js:14-16 | the days run Sunday to Saturday and include the current day |
| CalendarView.TimeSlots | app/dashboard/agenda/CalendarView.js:19 | twelve slots, the i-th being hour i + 8 |
| CalendarView.TimeSlotsAreEightToNineteen | app/dashboard/agenda/CalendarView.js:19 | an hour is a slot exactly when it lies between 8 and 19 |
| CalendarView.SlotAppointments | app/dashboard/agenda/CalendarView.js:99-106 | a cell keeps exactly the rows with a start on its day and in its hour, each as often as it occurs, in input order |
| CalendarView.Grid | app/dashboard/agenda/CalendarView.js:91-127 | 7 columns of 12 cells, cell (i, j) being the slot of day start + i and hour j + 8 |
| CalendarView.PlacedIffVisible | app/dashboard/agenda/CalendarView.js:99-106 | a row appears in some cell exactly when it has a start within the week's days and hours 8 to 19, and then in the cell of its own day and hour |
| CalendarView.AtMostOneCell | app/dashboard/agenda/CalendarView.js:105 | a row appears in at most one cell |
| CalendarView.NextWeek | app/dashboard/agenda/CalendarView.js:21 | moves the current date 7 days ahead at the same time of day, and going back returns it |
| CalendarView.PrevWeek | app/dashboard/agenda/CalendarView.js:22 | moves the current date 7 days back at the same time of day |
| CalendarView.Today | app/dashboard/agenda/CalendarView.js:23 | resets to the clock's day and week |
| CalendarView.NextWeekShowsFollowingWeek | app/dashboard/agenda/CalendarView.js:21-22 | the next week's view starts 7 days later and the previous week's 7 days earlier |
| CalendarView.CardLabel | app/dashboard/agenda/CalendarView.js:118 | the title, else the patient's name, else `Sem Título` |
| CalendarView.TooltipTitle | app/dashboard/agenda/CalendarView.js:115 | the title, else `Agendamento` |
| Mirror.OrderByStart | app/actions/calendar.js:16 | a permutation of the rows: rows with a start by ascending start, then the rows without one |
| Mirror.GetAppointments | app/actions/calendar.js:6-29 | a store error gives its message; otherwise exactly the rows within the given bounds (start bound on `start_time`, end bound on `end_time`), ordered by start, each joined at read time to the patient cache row its `patient_id` names |
| Mirror.JoinedRow | app/actions/calendar.js:12-15 | a stored row in range comes back with its fields as stored and the patient its id names in the cache |
| Mirror.CreatedAppointmentShowsPatient | app/actions/calendar.js:12-15 | an appointment created for a cached patient is read back with that patient's name and phone |
| Mirror.UpdatedPatientIsRejoined | app/actions/calendar.js:12-15 | after an update changes the patient id, the next read shows the newly named patient |
| Mirror.NoBoundsReturnsAll | app/actions/calendar.js:18-19 | without bounds every row is returned |
| Mirror.EndBoundTestsEndTime | app/actions/calendar.js:19 | a row that starts before the end bound but ends after it is left out |
| Mirror.Create | app/actions/calendar.js:31-53 | a store error gives its message; otherwise one row holding the given fields as they are is appended and returned |
| Mirror.Update | app/actions/calendar.js:55-70 | a store error gives its message; otherwise only the rows with the id change, each by the patch |
| Mirror.EmptyPatchKeepsTable | app/actions/calendar.js:58-61 | an update naming no column leaves the table as it was |
| Mirror.Delete | app/actions/calendar.js:72-87 | a store error gives its message; otherwise exactly the rows with other ids remain, in order, each as often as it was stored |
| Mirror.DeleteUndoesCreate | app/actions/calendar.js:34-44 | deleting the id just created gives back the table before the create |
| AppointmentForm.Initial | app/dashboard/agenda/CreateAppointmentModal.js:9-19 | the form opens empty: no patient, no search, 09:00 to 10:00 on the given date |
| AppointmentForm.RequestTitle | app/dashboard/agenda/CreateAppointmentModal.js:44 | the typed title, else `Consulta - ` and the selected patient's name, else `Agendamento` |
| AppointmentForm.ComposeLocalOnDate | app/dashboard/agenda/CreateAppointmentModal.js:39-40 | a time composed with the date field lies on the date the field names |
| AppointmentForm.BuildRequest | app/dashboard/agenda/CreateAppointmentModal.js:39-48 | a request exists exactly when both times can be read; it carries the title rule, the selected patient's id or none, the notes, and a start and end on the same day |
| AppointmentForm.BuildRequestFromInputs | app/dashboard/agenda/CreateAppointmentModal.js:39-46 | a well-formed date and two `HH:mm` times give a start and an end at exactly those times on that date |
| AppointmentForm.Submit | app/dashboard/agenda/CreateAppointmentModal.js:33-60 | loading while the request runs; when a time cannot be read nothing is sent and the form stays loading; otherwise loading ends, an error alerts `Erro ao criar: …` and keeps the form, and success closes it and clears title, patient and notes |
| AppointmentForm.SubmitSuccess | app/dashboard/agenda/CreateAppointmentModal.js:52-57 | a successful submit appends one row with the request's title and keeps date and times |
| AppointmentForm.SearchReturned | app/dashboard/agenda/CreateAppointmentModal.js:25-26 | the reply replaces the list unconditionally, with the contacts or `[]` on an error; nothing else changes |
| AppointmentForm.Search | app/dashboard/agenda/CreateAppointmentModal.js:22-31 | the term captured when the timer fires decides: at most one character leaves the form alone; otherwise the list becomes exactly the first page of the listing for that term (all matching, at most 20), or `[]` on a store error |
| AppointmentForm.SelectPatient | app/dashboard/agenda/CreateAppointmentModal.js:78-101 | a result can be picked only from the shown dropdown; picking sets the patient and clears the term and the list; the search box and the dropdown disappear, and no reply that lands next brings the dropdown back |
| AppointmentForm.ClearSelection | app/dashboard/agenda/CreateAppointmentModal.js:81 | the clear button, present only while the modal is open with a patient selected, unsets the patient and brings the search box back, with nothing else changed |
| AppointmentForm.SelectThenClear | app/dashboard/agenda/CreateAppointmentModal.js:81-101 | picking and then clearing leaves an empty search box with no list and no dropdown |
| AppointmentForm.LateReplyRefillsList | app/dashboard/agenda/CreateAppointmentModal.js:22-31 | a reply to a search fired before the pick still refills the list; it stays hidden while the patient is selected and right after the clear button, and once the patient is cleared and a term of two characters is typed the stale list is shown |
| DashboardMetrics.Percent | app/actions/dashboard.js:69-71 | 0 when the denominator is 0; otherwise the exact share times 100, within 0 and 100 for a part of the whole |
| DashboardMetrics.Operational | app/actions/dashboard.js:36-111 | the total is today's count; the confirmation rate is the percentage of successful rows among today's rows (0 without rows); occupancy is the successful rows over a capacity of 20, as a percentage; the variation is today's change over yesterday's count as a percentage (0 without yesterday), positive exactly when today beats yesterday; the cancellation rate is cancellations over creations plus cancellations (0 when both are 0); both rates within 0 and 100 |
| DashboardMetrics.OccupancyCanExceedHundred | app/actions/dashboard.js:74 | 21 confirmed appointments give an occupancy of 105 |
| DashboardMetrics.CancellationRateShare | app/actions/dashboard.js:83-86 | the cancellation rate is cancellations over creations plus cancellations, times 100 |
| DashboardMetrics.AIPerformanceOf | app/actions/dashboard.js:199-222 | the automation rate is the percentage of automated rows among all rows (0 without rows), within 0 and 100; escalations are the number of escalated rows, never more than the rows |
| DashboardMetrics.AutomatedAndEscalatedOverlap | app/actions/dashboard.js:208-222 | one interaction can count as automated and as escalated at once |
| DashboardMetrics.ActivePatients | app/actions/dashboard.js:132 | the set of non-empty patient ids of the rows |
| DashboardMetrics.ActivePatientsBound | app/actions/dashboard.js:132 | there are no more active patients than rows |
| DashboardMetrics.DailySummaryOf | app/actions/dashboard.js:362-392 | nothing on a store error; otherwise the row count, the number of distinct non-empty patient ids (at most the row count), and the percentage of successful rows, within 0 and 100 |
| DashboardMetrics.TreatmentHistogram | app/actions/dashboard.js:290-327 | one entry per category (`Não especificado` for a missing one), every row's category present, no category twice, each entry holding its positive number of rows; totals add up to the rows, by descending total |
| DashboardMetrics.FormatProfessionalName | app/actions/dashboard.js:347-354 | `silvana`, `petrus` and `elder` in any case map to their titles; any other id is kept; a missing id is `Não especificado` |
| DashboardMetrics.ProfessionalHistogram | app/actions/dashboard.js:277-323 | exactly the dentist tally with each key replaced by its formatted name, as a multiset: one entry per distinct raw key, holding its formatted name and its positive count, so case variants stay apart; totals add up to the rows, by descending total |
| DashboardMetrics.CaseVariantsListedTwice | app/actions/dashboard.js:277-280 | two different raw dentist keys with the same display name and the same count give the same entry twice |
| DashboardMetrics.CaseVariantsShareDisplayName | app/actions/dashboard.js:353 | `ELDER` and `elder` display alike, although they are counted as separate keys |
| DashboardMetrics.Classify | app/actions/dashboard.js:310-317 | the first of complexo, elder, horário or especial, emergência or urgente that the lower-cased message contains decides the reason; otherwise `Outros` |
| DashboardMetrics.ReasonCountsAddUp | app/actions/dashboard.js:310-317 | every escalation lands in exactly one bucket, so the five counts add up to the escalations |
| DashboardMetrics.EscalationReasons | app/actions/dashboard.js:302-331 | the five buckets, as a permutation, by descending total, adding up to the escalations |
| DashboardMetrics.EveryReasonListed | app/actions/dashboard.js:302-308 | every reason's bucket is present with its count |
| DashboardMetrics.FormatOperationType | app/actions/dashboard.js:423-426 | `Interação Genérica` without a type; otherwise a text as long as the type |
| DashboardMetrics.WordsPointwise | app/actions/dashboard.js:425 | each `_` becomes a space, each character opening a word is upper-cased, and every other character is kept |
| DashboardMetrics.History | app/actions/dashboard.js:428-465 | `[]` on a store error; one point per distinct day text, every row's day present, no day twice; each point holds the number of rows of its day, at least one, and no active users; the counts add up to the rows; readable dates ascend |
| Tally.Tally | app/actions/dashboard.js:277-281 | distinct keys, exactly the keys of the rows, each with its number of occurrences |
| Tally.Histogram | app/actions/dashboard.js:324-327 | the tally by descending total: every key present once, with its positive count, as many entries as distinct keys, adding up to the rows |
| Kanban.Bucket | app/dashboard/crm/KanbanBoard.js:14 | exactly the deals of the column, in input order, each as often as it occurs |
| Kanban.DealsByColumn | app/dashboard/crm/KanbanBoard.js:13-16 | one bucket per column, in column order |
| Kanban.UnknownColumnShownNowhere | app/dashboard/crm/KanbanBoard.js:13-16 | a deal whose column is not on the board appears in no bucket |
| Kanban.KnownColumnShownThere | app/dashboard/crm/KanbanBoard.js:13-16 | a deal appears in the bucket of its column |
| Kanban.ShownOnce | app/dashboard/crm/KanbanBoard.js:13-16 | with distinct column ids, a deal appears in at most one bucket |
| Kanban.RenderColumn | app/dashboard/crm/KanbanBoard.js:48-100 | the cards are exactly the column's bucket, each deal as often as it occurs; the header count is the number of cards; `Vazio` shows exactly when there are none |
| Kanban.CardTitle | app/dashboard/crm/KanbanBoard.js:64 | the title, else `Sem Título`; never blank |
| Kanban.MoveTargets | app/dashboard/crm/KanbanBoard.js:80-81 | every other column, in board order, each as often as it occurs |
| Kanban.MoveTargetsCount | app/dashboard/crm/KanbanBoard.js:80-81 | with distinct ids, one button fewer than there are columns |
| Kanban.MoveOptimistic | app/dashboard/crm/KanbanBoard.js:23-25 | only the moved deal changes, and only its column |
| Kanban.OptimisticMatchesStore | app/dashboard/crm/KanbanBoard.js:23-27 | the optimistic board equals the store after a successful `updateDealStage` |
| Kanban.HandleStatusChange | app/dashboard/crm/KanbanBoard.js:18-36 | during the move the board is moved and the deal spins; on an error the alert shows and the board is restored exactly; afterwards nothing spins |
| Kanban.MoveLifecycle | app/dashboard/crm/KanbanBoard.js:19-35 | only the moved card spins during the move, none after it, and a failed move leaves the board as it was |
| Kanban.MovedCardChangesColumn | app/dashboard/crm/KanbanBoard.js:13-31 | after a successful move the card shows in the target column and in no other |
| Crm.GetColumns | app/actions/crm.js:6-20 | a store error gives its message; otherwise every column once, by ascending position |
| Crm.DealTitle | app/actions/crm.js:42 | the deal's title, else the joined patient's name, else `Novo Negócio`; never empty |
| Crm.GetDeals | app/actions/crm.js:22-46 | a store error gives its message; otherwise every deal once with its display title built from the deal and the cache row its `patient_id` names at read time, by position, every title non-empty |
| Crm.GetDealsKeepsDeals | app/actions/crm.js:40-43 | each stored deal comes back with only its title filled in |
| Crm.UntitledDealShowsPatientName | app/actions/crm.js:28-31 | an untitled deal whose patient id names a cached patient with a name is shown under that name |
| Crm.UpdateDealStage | app/actions/crm.js:48-63 | a store error gives its message; otherwise only the deals with the id change, and only their column |
| Crm.MoveBackRestores | app/actions/crm.js:51-54 | moving a deal and moving it back restores the table |
| Crm.FirstColumn | app/actions/crm.js:72-79 | a column of lowest position |
| Crm.TargetColumn | app/actions/crm.js:68-80 | a given column id is used as it is; otherwise the lowest-position column, and the id stays unset when that lookup fails or finds none |
| Crm.CreateDeal | app/actions/crm.js:65-99 | a store error gives its message; otherwise one deal with the given title, patient and target column is appended |
| Crm.CreateDealDefaultsToFirstStage | app/actions/crm.js:70-80 | without a column id the deal lands in the board's first column |
| Patients.LastRow | app/actions/patients.js:8-9 | a page spans exactly 20 rows, and the next page starts right after it |
| Patients.RowOnOnePage | app/actions/patients.js:8-9 | every row index lies on exactly one page |
| Patients.TotalPages | app/actions/patients.js:33 | the fewest pages of 20 that hold the count; 0 exactly when the count is 0 |
| Patients.TotalPagesFewest | app/actions/patients.js:33 | no smaller number of pages holds the count |
| Patients.OrderByRecent | app/actions/patients.js:14 | a permutation with rows of no update date first, then by descending update date |
| Patients.Listing | app/actions/patients.js:11-19 | exactly the contacts matching the search, most recent first |
| Patients.EmptyQueryListsAll | app/actions/patients.js:17-19 | an empty search lists every contact |
| Patients.PageOf | app/actions/patients.js:15 | at most 20 rows: the listing's rows from `from` up to `to` that exist |
| Patients.PagesArePrefix | app/actions/patients.js:8-9 | the first k pages are the first 20 k rows of the listing, with no gap and no repeat |
| Patients.AllPagesCoverListing | app/actions/patients.js:33 | the pages up to `total_pages` together are the whole listing |
| Patients.JoinPatient | app/actions/calendar.js:14 | the embedded `cache_pacientes(nome, telefone)`: present exactly when the id is set and names a cached row, and then that row's name and phone |
| Patients.JoinFindsPatient | app/actions/crm.js:30 | with unique cache ids, the join by a cached contact's id yields that contact's name and phone |
| Patients.GetPatients | app/actions/patients.js:5-36 | a store error gives its message; otherwise exactly the requested page of the listing (`PageOf(Listing(table, query), page)`), with the page, the count of matches and the page total echoed |
| CrmPage.SkipSpaces | app/dashboard/crm/page.js:10 | the longest suffix not starting with a space; everything removed is white space |
| CrmPage.LeadingDigits | app/dashboard/crm/page.js:10 | the longest prefix of digits of the radix |
| CrmPage.ParseInt | app/dashboard/crm/page.js:10 | `NaN` for a blank text; a negative result only after a leading `-` |
| CrmPage.ParseIntDecimal | app/dashboard/crm/page.js:10 | an optional sign, decimal digits and a non-digit rest read as the signed value of the digits |
| CrmPage.ParseIntRoundTrip | app/dashboard/crm/page.js:10 | the decimal text of any integer reads back as that integer |
| CrmPage.HexPrefix | app/dashboard/crm/page.js:10 | `0x10` reads as 16 |
| CrmPage.PageParam | app/dashboard/crm/page.js:10 | 1 without a `page` parameter; otherwise the parameter read as an integer |
| CrmPage.ViewParam | app/dashboard/crm/page.js:11 | the `view` parameter when given, else `kanban` |
| CrmPage.BranchesAgreeOnlyForKnownViews | app/dashboard/crm/page.js:18-70 | fetching and rendering disagree for every view other than `list` and `kanban` |
| CrmPage.ErrorText | app/dashboard/crm/page.js:21 | the message of a failed reply with a non-empty message |
| CrmPage.BoardError | app/dashboard/crm/page.js:34-35 | the deals' error wins over the columns' error |
| CrmPage.ValueOr | app/dashboard/crm/page.js:29-32 | a missing list is `[]` |
| CrmPage.Render | app/dashboard/crm/page.js:9-150 | the page and view parameters, the error of the branch fetched, the board exactly when the view is `kanban`, the table's contacts, `Anterior` exactly when the page is above 1, and `Próxima` to the next page |
| CrmPage.Table | app/dashboard/crm/page.js:131-145 | previous link exactly when the page is above 1, targeting page - 1; next link to page + 1, or to `NaN` |
| CrmPage.NextThenPreviousReturns | app/dashboard/crm/page.js:136-142 | following `Próxima` and then `Anterior` leads back to the same page |
| Chatwoot.TrimTrailingSlashes | app/actions/chatwoot.js:8 | a prefix of the address that does not end in `/`, with only slashes removed |
| Chatwoot.TrimIdempotent | app/actions/chatwoot.js:8 | trimming twice is trimming once |
| Chatwoot.TrimIgnoresAddedSlashes | app/actions/chatwoot.js:8 | any number of added trailing slashes makes no difference |
| Chatwoot.ContactByEmail | app/actions/chatwoot.js:10-43 | the first hit exactly when the settings are there, the search succeeds and its payload is non-empty; nothing otherwise |
| Chatwoot.ContactName | app/actions/chatwoot.js:51 | the text of the address before its first `@` |
| Chatwoot.ContactNameOfAddress | app/actions/chatwoot.js:51 | the name of `local@domain` is `local` |
| Chatwoot.CreateRequest | app/actions/chatwoot.js:45-58 | a request exactly when the settings are there, carrying the address and its name |
| Chatwoot.CreateContact | app/actions/chatwoot.js:45-74 | the created contact exactly when the settings are there and the request returns one |
| Chatwoot.GetConversations | app/actions/chatwoot.js:76-104 | the searched contact, else a created one, else the `not found` error; then the conversations of that contact, `[]` when the payload is missing, and an error when the request fails |
| Chatwoot.SearchHitSkipsCreation | app/actions/chatwoot.js:79-82 | when the search finds the contact, the creation's outcome does not matter |
| Chatwoot.GetMessages | app/actions/chatwoot.js:106-140 | an empty id fails before any request; a 404 gives its fixed message and `[]`; other failures give the status text; success gives the payload or `[]` |
| Chatwoot.EmptyIdMakesNoRequest | app/actions/chatwoot.js:107 | with an empty id the response does not matter |
| Chatwoot.ToConversation | app/actions/chatwoot.js:166-174 | id, status, activity, inbox and last message are copied; labels default to `[]` and the contact to `Desconhecido` |
| Chatwoot.ToConversationFaithful | app/actions/chatwoot.js:166-174 | a conversation with labels and a sender is mapped without loss |
| Chatwoot.ConversationsUrl | app/actions/chatwoot.js:146-149 | the inbox query is added exactly when the inbox id is truthy |
| Chatwoot.GetAllConversations | app/actions/chatwoot.js:142-182 | the settings error, the thrown message or the status text on failure; otherwise one mapped conversation per payload item, in order |
| Chatwoot.Call | app/actions/chatwoot.js:184-205 | the settings error, the thrown message, or the action's fixed failure text; otherwise the body |
| Chatwoot.ListCall | app/actions/chatwoot.js:345-366 | as `Call`, with a missing payload read as `[]` |
| Chatwoot.GetContacts | app/actions/chatwoot.js:269-293 | as `Call`; the contacts default to `[]` and the count is passed on |
| Chatwoot.UpdateConversationStatus | app/actions/chatwoot.js:319-344 | the settings error, then `Invalid status` for any status outside open, resolved, pending and snoozed, and only then the request |
| Chatwoot.InvalidStatusMakesNoRequest | app/actions/chatwoot.js:322-323 | for a status outside the whitelist the response does not matter |
| Chatwoot.DashboardMetrics | app/actions/chatwoot.js:295-317 | open plus closed is the total and closed is never negative; the recent ones are the first min(5, n); a failed read counts as zero |
| Chatwoot.ClosedCountsNonOpen | app/actions/chatwoot.js:305-308 | closed counts exactly the conversations that are not open |
| Sidebar.StatusPhrase | app/dashboard/conversations/Sidebar.js:10-14 | a phrase exactly for `open`, `snoozed` and `resolved` |
| Sidebar.Summary | app/dashboard/conversations/Sidebar.js:9-22 | `agendamento` before `financeiro` before `urgente`; without those labels the status phrase, else `Sem resumo` |
| Sidebar.LabelsOutrankStatus | app/dashboard/conversations/Sidebar.js:17-19 | with a summary label, the status does not change the summary |
| Sidebar.StatusSpeaksOnlyWithoutLabels | app/dashboard/conversations/Sidebar.js:21 | a status phrase or `Sem resumo` appears only without summary labels |
| Sidebar.BadgeText | app/dashboard/conversations/Sidebar.js:75 | `Aberto` for an open conversation, otherwise the raw status |
| Sidebar.BadgeTone | app/dashboard/conversations/Sidebar.js:71-73 | green exactly when open; red exactly when not open and labelled `urgente` |
| Sidebar.Initial | app/dashboard/conversations/Sidebar.js:47 | one letter: the name's first, else `U` |
| Sidebar.DisplayName | app/dashboard/conversations/Sidebar.js:58 | the name, else `Sem nome`; never empty |
| Sidebar.Filtered | app/dashboard/conversations/Sidebar.js:90-93 | exactly the conversations whose name holds the term ignoring case, or whose id's digits hold it, in order, each as often as it occurs |
| Sidebar.EmptyTermKeepsAll | app/dashboard/conversations/Sidebar.js:90-93 | an empty search keeps the list as it is |
| Sidebar.FoundById | app/dashboard/conversations/Sidebar.js:92 | searching a conversation's id finds it |
| Sidebar.ActiveIdUnique | app/dashboard/conversations/Sidebar.js:126 | one path highlights the conversations of one id only |
| Sidebar.RenderList | app/dashboard/conversations/Sidebar.js:122-134 | one item per kept conversation; `Nenhuma conversa encontrada` exactly when none; an item is active exactly when the path is its link |
| Sidebar.AtMostOneActive | app/dashboard/conversations/Sidebar.js:126 | all highlighted items show the same conversation id |
| Sidebar.HrefInjective | app/dashboard/conversations/Sidebar.js:126 | distinct ids have distinct links |
| LeftNav.RenderItem | app/dashboard/LeftNav.js:62-86 | active by equality for an exact entry and by character prefix otherwise; a badge exactly when the entry has one |
| LeftNav.Render | app/dashboard/LeftNav.js:62 | every entry of the menu, in order |
| LeftNav.AtMostOneActive | app/dashboard/LeftNav.js:10-67 | no path highlights two entries of the menu |
| LeftNav.HomeActivatesOverviewOnly | app/dashboard/LeftNav.js:14-17 | `/dashboard` highlights Visão Geral and nothing else |
| LeftNav.CharacterPrefix | app/dashboard/LeftNav.js:67 | `/dashboard/crmX` highlights Kanban, as `/dashboard/crm/42` does |
| LeftNav.OnlyWhatsAppBadge | app/dashboard/LeftNav.js:82-86 | only the WhatsApp entry shows a badge, `Hoje`, whatever the path |
| Charts.MaxValue | app/dashboard/components/HorizontalBarChart.js:16 | the largest value of the data, taken by some item |
| Charts.BarPercent | app/dashboard/components/HorizontalBarChart.js:50 | value over max times 100 when max is positive, else 0; within 0 and 100 for values up to max; 100 at max |
| Charts.RenderBars | app/dashboard/components/HorizontalBarChart.js:6-51 | the placeholder exactly for missing or empty data; otherwise one bar per item in order, with its label and value, colour i mod 5 |
| Charts.BarsWithinTrack | app/dashboard/components/HorizontalBarChart.js:49-51 | with non-negative values every bar is within 0 and 100, and a positive maximum fills one |
| Charts.ScaleOf | app/dashboard/components/DashboardCharts.js:5 | the largest total, but at least 10 |
| Charts.Height | app/dashboard/components/DashboardCharts.js:18 | total over scale times 100; within 0 and 100 when the total is at most the scale |
| Charts.RenderColumns | app/dashboard/components/DashboardCharts.js:11-18 | the placeholder exactly for no data; otherwise one height per day, each within 0 and 100 |
| Charts.ColumnsMonotone | app/dashboard/components/DashboardCharts.js:17-18 | a day with more interactions never gets a lower column |
| Charts.DirectionOf | app/dashboard/components/MetricCardWithTrend.js:13-14 | up, down or neutral, exactly by the sign of the variation |
| Charts.TrendOf | app/dashboard/components/MetricCardWithTrend.js:36-49 | a trend exactly when the variation is a number, with its direction and a non-negative size |
| Charts.TrendRecoversVariation | app/dashboard/components/MetricCardWithTrend.js:39-49 | the arrow and the size together give back the variation |
| Charts.DisplayValue | app/dashboard/components/MetricCardWithTrend.js:17 | the value followed by `%` for the percentage format, the value otherwise |
| Charts.DisplayValueKeepsText | app/dashboard/components/MetricCardWithTrend.js:17 | the value's text is kept in front, and at most a `%` follows |

## Left out

- Network and store I/O: Supabase queries, Chatwoot `fetch` calls, URLs and headers, `revalidatePath`, `router.refresh`, `alert` timing, console logging and auth. Each reply is a parameter.
- Time zones and daylight saving: one local wall clock is used throughout. Seconds and milliseconds are dropped, because every text the code builds ends in `:00`.
- The clock and `Date.now()` ids: they are parameters (`now`, `newId`). The debounce delay of the patient search and the mock's `setTimeout` waits are not modelled.
- Floating-point rounding: `Math.round(x * 100 * 10) / 10` and `toFixed` are not modelled. Rates and chart values are exact reals.
- Unicode case mapping: `toLowerCase` and `toUpperCase` are modelled on ASCII letters only.
- CrmPage.ParseIntRoundTrip: the page number is an unbounded integer, while JavaScript holds it in a double. From 2^53 `parseInt` no longer returns every integer exactly (`"9007199254740993"` reads as 9007199254740992), so the round trip holds only for magnitudes below 2^53.
- CrmPage.NextThenPreviousReturns: for the same reason the page links are exact only below 2^53. From 10^21 the template `${page + 1}` prints exponent notation (`1e+21`), which `parseInt` reads back as 1. The model's `NumberText` always prints plain digits.
- Mirror.Patch: an update names only the columns the form edits (patient, title, start, end, notes). `updateAppointment` passes its `updates` object to the store unchecked, so it could also write `id` or any other column; Mirror.Apply keeps the id only because the patch cannot name it. No caller of `updateAppointment` is part of this model.
- CrmPage.SkipSpaces: `parseInt`'s white space: space, tab, line feed, vertical tab, form feed, carriage return, no-break space and the byte-order mark are skipped; the other Unicode space separators are not.
- JavaScript object-key quirks: the code looks values up in plain objects. Keys such as `constructor` would hit `Object.prototype`, and integer-like keys reorder `Object.entries`. Both are not modelled.
- The hard-coded placeholders of `getAIPerformanceMetrics` (average response time, Dr. Elder deviations, fixed variations) are constants, not logic.
- `getPatientMetrics` is not modelled: its new-versus-returning split issues one store query per row.
- `removeConversationLabel` is not modelled: its first request has no effect on the result, and its second is a plain call.
- `getInboxes`, `sendMessage`, `sendMessageWithAttachment`, `getAllLabels`, `getConversationLabels` and `addConversationLabels` are covered only as instances of `Chatwoot.Call` and `Chatwoot.ListCall` (settings check, request, fixed failure text). Their bodies and form data are not modelled.
- AppointmentForm.SearchRuns: the term length is counted in characters, not in UTF-16 code units as JavaScript's `.length` counts it, so a single character outside the Basic Multilingual Plane counts as one here and two in the browser.
- Sidebar.Initial: the first character is a whole character, not the first UTF-16 code unit that `name[0]` gives; for a name starting outside the Basic Multilingual Plane the browser shows half a surrogate pair.
- AppointmentForm.Submit: the branch where a time cannot be read is unreachable from the browser, because the date and time inputs are `required` (app/dashboard/agenda/CreateAppointmentModal.js:133-158); the model keeps it for completeness.
- Crm.GetDeals: the deals are handed out without the embedded `patient` object that the store returns alongside them. The board never reads it, so the model uses the joined patient only for the title.
- `ContactListActions` is left out: it is only a prompt and alert flow. It passes `contactId` where `createDeal` reads `patientId`, so a deal created from it has no patient.
- PostgREST matching: `ilike` with `%` wildcards and the `or` filter syntax are read as plain containment ignoring case (`Patients.Matches`), with no escaping of `%`, `_` or `,` in the term.
- Patients.PageOf: a page below 1 gives a negative range, which the store rejects or reads in its own way; the model takes it as empty.
- Query strings: repeated `page` or `view` parameters (arrays) are not modelled.
- DashboardMetrics.History: only dates that can be read are promised to ascend. `new Date` of an unreadable day text is `NaN`, and the comparator then leaves the order to the engine.
- Kanban: two overlapping moves racing on the same board are not modelled; the model runs one move at a time. The card's value display (`toFixed(2)`) and its creation date are left out, and the deal `position` is taken as present.
- Chatwoot.GetAllConversations: a reply without `data.data` throws a `TypeError` in the code, whose message is the engine's. The model reads the missing payload as `[]`.
- Chatwoot.ContactByEmail: a payload whose first element is `null` is read as a hit.
- Charts.TrendOf: a `NaN` variation has type `number` and would show an arrow-less `NaN%`; the model has no `NaN` reals.
- The conversation list's activity time, the weekly chart's `DD/MM` date label and the agenda's `toLocaleTimeString` texts are presentation only.
- The 404 text of `getMessages` is kept exactly as written, including its broken encoding (`Conversa nÃ£o encontrada (404)`).

## Findings

| source | as written | input that shows it | evidently intended | confidence | as-written member | corrected member |
|---|---|---|---|---|---|---|
| app/lib/integrations/clinicorp.js:127-129 | the stored date is the UTC calendar date of the start (`toISOString`), while the stored time is its local time of day | a start at 22:00 local time on 2026-02-02 in a zone three hours behind UTC is stored as 2026-02-03 at 22:00, one day late | store the local date together with the local time, so the appointment starts at the requested instant | not executed | Clinicorp.CreateAppointment (shown by Clinicorp.CreateAppointmentShiftsLateEvening) | Clinicorp.CreateAppointmentLocalDate |

=== FILE: appointment_form.dfy ===
/**
 * The "new appointment" modal (`CreateAppointmentModal`): its form state,
 * the request `handleSubmit` builds from it, what the form looks like while
 * and after the request runs, and the patient search.
 */
module AppointmentForm {
  import opened Base
  import opened Text
  import opened LocalTime
  import Mirror
  import opened Patients

  /**
   * The modal's state. `date`, `startTime` and `endTime` are the texts of
   * the date and time inputs; `open` is the parent's `isModalOpen`.
   */
  datatype Form = Form(
    open: bool,
    loading: bool,
    searchTerm: string,
    patients: seq<Contact>,
    selected: Option<Contact>,
    title: string,
    date: string,
    startTime: string,
    endTime: string,
    notes: string)

  /** The state the modal starts in; `todayUtc` is today's UTC date text. */
  function Initial(todayUtc: string): (f: Form)
    ensures f.open && !f.loading && f.selected.None? && f.searchTerm == "" && f.patients == []
    ensures f.title == "" && f.notes == "" && f.date == todayUtc
    ensures f.startTime == "09:00" && f.endTime == "10:00"
  {
    Form(true, false, "", [], None, "", todayUtc, "09:00", "10:00", "")
  }

  // ---------------------------------------------------------------------------
  // The request
  // ---------------------------------------------------------------------------

  /** A missing name interpolates into a template as `null`. */
  function NameText(nome: Option<string>): string {
    if nome.Some? then nome.value else "null"
  }

  /** `title || (selectedPatient ? 'Consulta - ' + nome : 'Agendamento')`. */
  function RequestTitle(f: Form): (t: string)
    ensures f.title != "" ==> t == f.title
    ensures f.title == "" && f.selected.Some? ==> t == "Consulta - " + NameText(f.selected.value.nome)
    ensures f.title == "" && f.selected.None? ==> t == "Agendamento"
  {
    if f.title != "" then f.title
    else if f.selected.Some? then "Consulta - " + NameText(f.selected.value.nome)
    else "Agendamento"
  }

  /** `new Date(date + 'T' + time + ':00')`. */
  function ComposeLocal(date: string, time: string): Option<Instant> {
    ParseLocal(date + "T" + time + ":00")
  }

  /** Both times are read on the calendar day the date field names. */
  lemma ComposeLocalOnDate(date: string, time: string)
    ensures ComposeLocal(date, time).Some? ==>
              DatePartOf(date).Some? && WithinDate(ComposeLocal(date, time).value, DatePartOf(date).value)
  {
    assert date + "T" + time + ":00" == date + ['T'] + (time + ":00");
    BeforeFirstPrefix(date, 'T', time + ":00");
  }

  /**
   * The arguments `handleSubmit` passes to `createAppointment`, or `None`
   * when a time cannot be read: `toISOString` then throws and nothing is
   * sent.
   */
  function BuildRequest(f: Form): (r: Option<Mirror.NewAppointment>)
    ensures r.Some? <==> ComposeLocal(f.date, f.startTime).Some? && ComposeLocal(f.date, f.endTime).Some?
    ensures r.Some? ==> r.value.title == Some(RequestTitle(f))
    ensures r.Some? ==> r.value.patientId == (if f.selected.Some? then Some(f.selected.value.id) else None)
    ensures r.Some? ==> r.value.notes == Some(f.notes)
    ensures r.Some? ==> (r.value.startTime.Some? && r.value.endTime.Some? && DatePartOf(f.date).Some?
                         && WithinDate(r.value.startTime.value, DatePartOf(f.date).value)
                         && WithinDate(r.value.endTime.value, DatePartOf(f.date).value))
  {
    var start := ComposeLocal(f.date, f.startTime);
    var end := ComposeLocal(f.date, f.endTime);
    ComposeLocalOnDate(f.date, f.startTime);
    ComposeLocalOnDate(f.date, f.endTime);
    if start.None? || end.None? then None
    else
      var patientId := if f.selected.Some? then Some(f.selected.value.id) else None;
      Some(Mirror.NewAppointment(patientId, Some(RequestTitle(f)), start, end, Some(f.notes)))
  }

  /** A date and times as the inputs yield them are sent as exactly that date and those times. */
  lemma BuildRequestFromInputs(f: Form, d: Date, sh: nat, sm: nat, eh: nat, em: nat)
    requires 0 <= d.year <= 9999 && ValidDate(d)
    requires sh < 24 && sm < 60 && eh < 24 && em < 60
    requires f.date == FormatDate(d) && f.startTime == FormatTime(sh, sm) && f.endTime == FormatTime(eh, em)
    ensures BuildRequest(f).Some?
    ensures BuildRequest(f).value.startTime == Some(At(d, sh, sm))
    ensures BuildRequest(f).value.endTime == Some(At(d, eh, em))
  {
    ParseLocalRoundTrip(d, sh, sm);
    ParseLocalRoundTrip(d, eh, em);
  }

  // ---------------------------------------------------------------------------
  // Submitting
  // ---------------------------------------------------------------------------

  /**
   * What one submit shows: the form while the request runs, the form after
   * it, the alert raised (if any), and the table of appointments after it.
   */
  datatype Submission = Submission(during: Form, after: Form, alert: Option<string>, table: seq<Mirror.Row>)

  /**
   * `handleSubmit`. `fault` is the outcome of the insert and `newId` the id
   * the store would assign. An empty error message is falsy and is taken for
   * success. When a time cannot be read the handler throws before its last
   * line, so `loading` stays on.
   */
  function Submit(f: Form, table: seq<Mirror.Row>, newId: nat, fault: Fault): (s: Submission)
    requires Mirror.FreshId(table, newId)
    ensures s.during == f.(loading := true)
    ensures BuildRequest(f).None? ==> s.after == s.during && s.alert.None? && s.table == table
    ensures BuildRequest(f).Some? ==> !s.after.loading
    ensures BuildRequest(f).Some? && Truthy(fault) ==>
              s.after == f.(loading := false) && s.alert == Some("Erro ao criar: " + fault.value) && s.table == table
    ensures BuildRequest(f).Some? && !Truthy(fault) ==>
              s.after == f.(loading := false, open := false, title := "", selected := None, notes := "") && s.alert.None?
  {
    var during := f.(loading := true);
    var request := BuildRequest(f);
    if request.None? then Submission(during, during, None, table)
    else
      match Mirror.Create(table, request.value, newId, fault)
      case Failed(message) =>
        if message != "" then Submission(during, f.(loading := false), Some("Erro ao criar: " + message), table)
        else Submission(during, f.(loading := false, open := false, title := "", selected := None, notes := ""), None, table)
      case Ok((table', _)) =>
        Submission(during, f.(loading := false, open := false, title := "", selected := None, notes := ""), None, table')
  }

  /**
   * A successful submit appends the one appointment the form describes and
   * keeps the date and times for the next entry.
   */
  lemma SubmitSuccess(f: Form, table: seq<Mirror.Row>, newId: nat)
    requires Mirror.FreshId(table, newId)
    requires BuildRequest(f).Some?
    ensures var s := Submit(f, table, newId, None);
            |s.table| == |table| + 1 && s.table[..|table|] == table
            && s.table[|table|].title == Some(RequestTitle(f))
            && s.after.date == f.date && s.after.startTime == f.startTime && s.after.endTime == f.endTime
  {
    var s := Submit(f, table, newId, None);
    var r := Mirror.Create(table, BuildRequest(f).value, newId, None);
    assert s.table == r.value.0 == table + [r.value.1];
  }

  // ---------------------------------------------------------------------------
  // Patient search
  // ---------------------------------------------------------------------------

  /**
   * The debounced search runs only for terms of two or more characters. The
   * term is the one captured when the timer fires, before `getPatients` is
   * awaited.
   */
  predicate SearchRuns(term: string) {
    |term| > 1
  }

  /**
   * `getPatients` returning: `contacts` is its reply (`None` for an error
   * reply), and `setPatients(contacts || [])` replaces the list whatever the
   * form holds by then.
   */
  function SearchReturned(f: Form, contacts: Option<seq<Contact>>): (r: Form)
    ensures contacts.Some? ==> r.patients == contacts.value
    ensures contacts.None? ==> r.patients == []
    ensures r.(patients := f.patients) == f
  {
    f.(patients := contacts.GetOr([]))
  }

  /** The contacts of a `getPatients` reply; an error reply has none. */
  function ContactsOf(reply: Reply<PatientPage>): Option<seq<Contact>> {
    if reply.Ok? then Some(reply.value.contacts) else None
  }

  /**
   * One debounced search: `term` was captured when the timer fired. A term
   * of at most one character leaves the form alone; otherwise the first
   * page of `getPatients(1, term)` becomes the list. Every patient offered
   * matches the captured term, and at most one page of them is offered.
   */
  function Search(f: Form, term: string, table: seq<Contact>, fault: Fault): (r: Form)
    ensures !SearchRuns(term) ==> r == f
    ensures r.(patients := f.patients) == f
    ensures SearchRuns(term) ==> |r.patients| <= PageSize
    ensures SearchRuns(term) ==> forall c :: c in r.patients ==> c in table && Matches(c, term)
    ensures SearchRuns(term) && fault.Some? ==> r.patients == []
    ensures SearchRuns(term) && fault.None? ==> r.patients == PageOf(Listing(table, term), 1)
  {
    if SearchRuns(term) then SearchReturned(f, ContactsOf(GetPatients(table, 1, term, fault))) else f
  }

  /**
   * The search box is rendered only while the modal is open (a closed modal
   * renders nothing) and no patient is selected; with a patient selected
   * the form shows the patient's name and a clear button instead.
   */
  predicate SearchBoxShown(f: Form) {
    f.open && f.selected.None?
  }

  /** Typing into the search box, which exists only while no patient is selected. */
  function TypeTerm(f: Form, term: string): (r: Form)
    requires SearchBoxShown(f)
    ensures r.searchTerm == term
    ensures r.(searchTerm := f.searchTerm) == f
    ensures SearchBoxShown(r)
  {
    f.(searchTerm := term)
  }

  /**
   * The result list is shown when the search box is, the list is non-empty
   * and the term is long enough.
   */
  predicate DropdownShown(f: Form) {
    SearchBoxShown(f) && |f.patients| > 0 && |f.searchTerm| > 1
  }

  /** Picking a result selects it and clears the term and the list. */
  function SelectPatient(f: Form, p: Contact): (r: Form)
    requires DropdownShown(f) && p in f.patients
    ensures r.selected == Some(p) && r.searchTerm == "" && r.patients == []
    ensures r.(selected := f.selected, searchTerm := f.searchTerm, patients := f.patients) == f
    ensures !SearchBoxShown(r) && !DropdownShown(r)
    ensures forall cs :: !DropdownShown(SearchReturned(r, cs))
  {
    f.(selected := Some(p), searchTerm := "", patients := [])
  }

  /** The clear button next to the selected patient: the search box comes back. */
  function ClearSelection(f: Form): (r: Form)
    requires f.open && f.selected.Some?
    ensures r.selected.None? && SearchBoxShown(r)
    ensures r.(selected := f.selected) == f
  {
    f.(selected := None)
  }

  /** Selecting and then clearing leaves an empty search box with no list, whatever was typed before. */
  lemma SelectThenClear(f: Form, p: Contact)
    requires DropdownShown(f) && p in f.patients
    ensures ClearSelection(SelectPatient(f, p)) == f.(searchTerm := "", patients := [])
    ensures !DropdownShown(ClearSelection(SelectPatient(f, p)))
  {
  }

  /**
   * A reply to a search fired before the patient was picked still lands:
   * it refills the list, hidden while the patient stays selected and after
   * a clear while the term is empty; once the patient is cleared and a term
   * of two characters is typed, before the next search fires, the stale
   * list is shown.
   */
  lemma LateReplyRefillsList(f: Form, p: Contact, cs: seq<Contact>, term: string)
    requires DropdownShown(f) && p in f.patients && |cs| > 0 && SearchRuns(term)
    ensures SearchReturned(SelectPatient(f, p), Some(cs)).patients == cs
    ensures !DropdownShown(SearchReturned(SelectPatient(f, p), Some(cs)))
    ensures !DropdownShown(ClearSelection(SearchReturned(SelectPatient(f, p), Some(cs))))
    ensures DropdownShown(TypeTerm(ClearSelection(SearchReturned(SelectPatient(f, p), Some(cs))), term))
    ensures TypeTerm(ClearSelection(SearchReturned(SelectPatient(f, p), Some(cs))), term).patients == cs
  {
  }
}

=== FILE: base.dfy ===
/**
 * Small wrappers shared by every module: optional values, the `{error}` /
 * success shape of the server actions, and JavaScript's `a || b` fallback on
 * values that may be missing or empty.
 */
module Base {

  /** A value that may be absent (`undefined` / `null` in the source). */
  datatype Option<+T> = None | Some(value: T) {

    function GetOr(default: T): T {
      match this
      case Some(v) => v
      case None => default
    }
  }

  /**
   * The reply of a server action: either its payload, or `{ error: message }`,
   * which carries no success flag and no payload.
   */
  datatype Reply<+T> = Ok(value: T) | Failed(message: string)

  /** JavaScript truthiness of a possibly missing string: present and non-empty. */
  predicate Truthy(s: Option<string>) {
    s.Some? && s.value != ""
  }

  /** `s || fallback` for a possibly missing string. */
  function Or(s: Option<string>, fallback: string): (r: string)
    ensures Truthy(s) ==> r == s.value
    ensures !Truthy(s) ==> r == fallback
  {
    if Truthy(s) then s.value else fallback
  }

  /**
   * The outcome of a store (or HTTP) call whose payload is not modelled:
   * `None` when it succeeded, `Some(message)` when it reported an error.
   */
  type Fault = Option<string>
}

=== FILE: calendar_view.dfy ===
/**
 * The agenda's week grid (`CalendarView`): the visible week, its hour slots,
 * which appointment goes in which cell, week navigation and card labels.
 * Days are day numbers of the local calendar (see `LocalTime`).
 */
module CalendarView {
  import opened Base
  import opened LocalTime
  import opened Mirror
  import Seqs

  // ---------------------------------------------------------------------------
  // The visible week
  // ---------------------------------------------------------------------------

  /** `startOfWeek(current, { weekStartsOn: 0 })`, as a day number. */
  function WeekStart(current: Instant): (d: int)
    ensures Weekday(d) == 0
    ensures d <= DayOf(current) < d + 7
  {
    var today := DayOf(current);
    today - Weekday(today)
  }

  /** `eachDayOfInterval` from the week's start to its end. */
  function WeekDays(current: Instant): (days: seq<int>)
    ensures |days| == 7
    ensures forall i :: 0 <= i < 7 ==> days[i] == WeekStart(current) + i
  {
    var start := WeekStart(current);
    seq(7, i => start + i)
  }

  /** The days of the visible week are the seven days of the week holding `current`, from Sunday. */
  lemma WeekDaysSundayToSaturday(current: Instant)
    ensures forall i :: 0 <= i < 7 ==> Weekday(WeekDays(current)[i]) == i
    ensures DayOf(current) in WeekDays(current)
  {
    var days := WeekDays(current);
    var s := WeekStart(current);
    forall i | 0 <= i < 7 ensures Weekday(days[i]) == i {
      WeekdayAdvance(s, i);
    }
    assert days[DayOf(current) - s] == DayOf(current);
  }

  /** Moving forward `k` days within the week advances the weekday by `k`. */
  lemma WeekdayAdvance(d: int, k: int)
    requires Weekday(d) == 0 && 0 <= k < 7
    ensures Weekday(d + k) == k
  {
    var q := (d + 4) / 7;
    assert d + 4 == 7 * q;
    assert d + k + 4 == 7 * q + k;
  }

  /** `Array.from({ length: 12 }, (_, i) => i + 8)`: the hours 8 to 19. */
  function TimeSlots(): (hours: seq<nat>)
    ensures |hours| == 12
    ensures forall i :: 0 <= i < 12 ==> hours[i] == i + 8
  {
    seq(12, i => i + 8)
  }

  lemma TimeSlotsAreEightToNineteen(h: nat)
    ensures h in TimeSlots() <==> 8 <= h <= 19
  {
    if 8 <= h <= 19 {
      assert TimeSlots()[h - 8] == h;
    }
  }

  // ---------------------------------------------------------------------------
  // Placement
  // ---------------------------------------------------------------------------

  /**
   * The slot filter: a row with a start goes in the cell of its local day
   * and its local hour. Minutes, the end and anything else are not looked at.
   */
  predicate InSlot(row: Appointment, day: int, hour: nat) {
    row.startTime.Some? && DayOf(row.startTime.value) == day && HourOf(row.startTime.value) == hour
  }

  function InSlotOf(day: int, hour: nat): Appointment -> bool {
    row => InSlot(row, day, hour)
  }

  /** `appointments.filter(...)` for one cell. */
  function SlotAppointments(rows: seq<Appointment>, day: int, hour: nat): (r: seq<Appointment>)
    ensures forall row :: row in r <==> row in rows && InSlot(row, day, hour)
    ensures Seqs.IsSubsequence(r, rows)
    ensures forall row :: multiset(r)[row] == if InSlot(row, day, hour) then multiset(rows)[row] else 0
  {
    var r := Seqs.Filter(InSlotOf(day, hour), rows);
    forall row ensures multiset(r)[row] == if InSlot(row, day, hour) then multiset(rows)[row] else 0 {
      Seqs.FilterMultiset(InSlotOf(day, hour), rows, row);
    }
    r
  }

  /** The rendered grid: one column per day, one cell per hour slot. */
  function Grid(rows: seq<Appointment>, current: Instant): (g: seq<seq<seq<Appointment>>>)
    ensures |g| == 7
    ensures forall i :: 0 <= i < 7 ==> |g[i]| == 12
    ensures forall i, j :: 0 <= i < 7 && 0 <= j < 12 ==> g[i][j] == SlotAppointments(rows, WeekStart(current) + i, j + 8)
  {
    var days := WeekDays(current);
    var hours := TimeSlots();
    seq(7, i requires 0 <= i < 7 => seq(12, j requires 0 <= j < 12 => SlotAppointments(rows, days[i], hours[j])))
  }

  /** The start of a row falls within the week and hours the grid shows. */
  predicate Visible(row: Appointment, current: Instant) {
    row.startTime.Some?
    && WeekStart(current) <= DayOf(row.startTime.value) < WeekStart(current) + 7
    && 8 <= HourOf(row.startTime.value) <= 19
  }

  /**
   * A row is in some cell of the grid exactly when its start is visible, and
   * then it is in the cell of its own day and hour.
   */
  lemma PlacedIffVisible(rows: seq<Appointment>, current: Instant, row: Appointment)
    requires row in rows
    ensures (exists i, j :: 0 <= i < 7 && 0 <= j < 12 && row in Grid(rows, current)[i][j]) <==> Visible(row, current)
    ensures Visible(row, current) ==>
              row in Grid(rows, current)[DayOf(row.startTime.value) - WeekStart(current)][HourOf(row.startTime.value) - 8]
  {
    var g := Grid(rows, current);
    if Visible(row, current) {
      var i := DayOf(row.startTime.value) - WeekStart(current);
      var j := HourOf(row.startTime.value) - 8;
      assert row in g[i][j];
    }
  }

  /** No row is drawn in two cells. */
  lemma AtMostOneCell(rows: seq<Appointment>, current: Instant, row: Appointment, i: int, j: int, i': int, j': int)
    requires 0 <= i < 7 && 0 <= j < 12 && 0 <= i' < 7 && 0 <= j' < 12
    requires row in Grid(rows, current)[i][j] && row in Grid(rows, current)[i'][j']
    ensures i == i' && j == j'
  {
    var g := Grid(rows, current);
    assert InSlot(row, WeekStart(current) + i, j + 8);
    assert InSlot(row, WeekStart(current) + i', j' + 8);
  }

  // ---------------------------------------------------------------------------
  // Navigation
  // ---------------------------------------------------------------------------

  const MinutesPerWeek: int := 7 * MinutesPerDay

  /** `addWeeks(currentDate, 1)`. */
  function NextWeek(current: Instant): (r: Instant)
    ensures DayOf(r) == DayOf(current) + 7
    ensures HourOf(r) == HourOf(current) && MinuteOf(r) == MinuteOf(current)
    ensures PrevWeek(r) == current
  {
    ShiftByWeek(current, 1);
    current + MinutesPerWeek
  }

  /** `subWeeks(currentDate, 1)`. */
  function PrevWeek(current: Instant): (r: Instant)
    ensures DayOf(r) == DayOf(current) - 7
    ensures HourOf(r) == HourOf(current) && MinuteOf(r) == MinuteOf(current)
    ensures current == r + MinutesPerWeek
  {
    ShiftByWeek(current, -1);
    current - MinutesPerWeek
  }

  /** `today`: back to the clock's reading. */
  function Today(now: Instant): (r: Instant)
    ensures DayOf(r) == DayOf(now) && WeekStart(r) == WeekStart(now)
  {
    now
  }

  lemma ShiftByWeek(t: Instant, k: int)
    ensures DayOf(t + k * MinutesPerWeek) == DayOf(t) + 7 * k
    ensures HourOf(t + k * MinutesPerWeek) == HourOf(t)
    ensures MinuteOf(t + k * MinutesPerWeek) == MinuteOf(t)
  {
    var u := t + k * MinutesPerWeek;
    var r := t % MinutesPerDay;
    assert t == DayOf(t) * MinutesPerDay + r;
    assert u == (DayOf(t) + 7 * k) * MinutesPerDay + r;
    assert u % 60 == t % 60 by {
      assert u == t + (k * 168) * 60;
    }
  }

  /** A week forward shows the next seven days. */
  lemma NextWeekShowsFollowingWeek(current: Instant)
    ensures WeekStart(NextWeek(current)) == WeekStart(current) + 7
    ensures WeekStart(PrevWeek(current)) == WeekStart(current) - 7
  {
    var d := DayOf(current);
    WeekdayShift(d, 1);
    WeekdayShift(d, -1);
  }

  lemma WeekdayShift(d: int, k: int)
    ensures Weekday(d + 7 * k) == Weekday(d)
  {
    var q := (d + 4) / 7;
    assert d + 4 == 7 * q + Weekday(d);
    assert d + 7 * k + 4 == 7 * (q + k) + Weekday(d);
  }

  // ---------------------------------------------------------------------------
  // Card text
  // ---------------------------------------------------------------------------

  /**
   * The card's heading: `title || (patient ? patient.nome : 'Sem Título')`.
   * With a patient joined, the patient's name is shown even when it is
   * missing; `None` renders as nothing.
   */
  function CardLabel(row: Appointment): (heading: Option<string>)
    ensures Truthy(row.title) ==> heading == row.title
    ensures !Truthy(row.title) && row.patient.Some? ==> heading == row.patient.value.nome
    ensures !Truthy(row.title) && row.patient.None? ==> heading == Some("Sem Título")
  {
    if Truthy(row.title) then row.title
    else if row.patient.Some? then row.patient.value.nome
    else Some("Sem Título")
  }

  /** The card's tooltip heading: `title || 'Agendamento'`. */
  function TooltipTitle(row: Appointment): (r: string)
    ensures Truthy(row.title) ==> r == row.title.value
    ensures !Truthy(row.title) ==> r == "Agendamento"
  {
    Or(row.title, "Agendamento")
  }
}

=== FILE: charts.dfy ===
/**
 * The dashboard's chart components: the horizontal bars of a distribution
 * (`HorizontalBarChart`), the weekly interaction columns (`DashboardCharts`)
 * and the metric card with its trend arrow (`MetricCardWithTrend`). Numbers
 * are exact reals; the rendering of decimals is left to the browser.
 */
module Charts {
  import opened Base

  // ---------------------------------------------------------------------------
  // Horizontal bars
  // ---------------------------------------------------------------------------

  /** One `{ label, value }` item of the chart's `data`; `label` is a reserved word in Dafny. */
  datatype Datum = Datum(labelText: string, value: real)

  /** `Math.max(...data.map(d => d.value))` over a non-empty list. */
  function MaxValue(data: seq<Datum>): (m: real)
    requires data != []
    ensures forall d :: d in data ==> d.value <= m
    ensures exists d :: d in data && d.value == m
  {
    if |data| == 1 then data[0].value
    else
      var rest := MaxValue(data[1..]);
      if data[0].value >= rest then data[0].value else rest
  }

  /** `colors`: the bar colours, cycled by index. */
  const Palette: seq<string> := ["bg-blue-500", "bg-gray-500", "bg-pink-500", "bg-orange-500", "bg-cyan-500"]

  /** The share of the largest value a bar shows, in percent; 0 when the largest is not positive. */
  function BarPercent(value: real, max: real): (p: real)
    ensures max > 0.0 ==> p * max == value * 100.0
    ensures max <= 0.0 ==> p == 0.0
    ensures max > 0.0 && 0.0 <= value <= max ==> 0.0 <= p <= 100.0
    ensures max > 0.0 && value == max ==> p == 100.0
  {
    if max > 0.0 then value / max * 100.0 else 0.0
  }

  datatype Bar = Bar(labelText: string, value: real, percent: real, color: string)

  /** What the chart shows: the placeholder `Sem dados disponíveis`, or one bar per item. */
  datatype BarChart = NoBarData | Bars(bars: seq<Bar>)

  function RenderBars(data: Option<seq<Datum>>): (c: BarChart)
    ensures c.NoBarData? <==> data.None? || data.value == []
    ensures c.Bars? ==> |c.bars| == |data.value|
    ensures c.Bars? ==> forall i :: 0 <= i < |c.bars| ==>
              c.bars[i].labelText == data.value[i].labelText && c.bars[i].value == data.value[i].value
              && c.bars[i].color == Palette[i % 5]
              && c.bars[i].percent == BarPercent(data.value[i].value, MaxValue(data.value))
  {
    if data.None? || data.value == [] then NoBarData
    else
      var max := MaxValue(data.value);
      Bars(seq(|data.value|, i requires 0 <= i < |data.value| =>
        Bar(data.value[i].labelText, data.value[i].value, BarPercent(data.value[i].value, max), Palette[i % 5])))
  }

  /** With non-negative values every bar is within the track, and a largest positive value fills it. */
  lemma BarsWithinTrack(data: seq<Datum>)
    requires data != []
    requires forall d :: d in data ==> d.value >= 0.0
    ensures forall b :: b in RenderBars(Some(data)).bars ==> 0.0 <= b.percent <= 100.0
    ensures MaxValue(data) > 0.0 ==> exists b :: b in RenderBars(Some(data)).bars && b.percent == 100.0
  {
    var bars := RenderBars(Some(data)).bars;
    var max := MaxValue(data);
    forall b | b in bars ensures 0.0 <= b.percent <= 100.0 {
      var i :| 0 <= i < |bars| && bars[i] == b;
      assert data[i] in data;
    }
    if max > 0.0 {
      var d :| d in data && d.value == max;
      var i :| 0 <= i < |data| && data[i] == d;
      assert bars[i].percent == 100.0;
    }
  }

  // ---------------------------------------------------------------------------
  // Weekly columns
  // ---------------------------------------------------------------------------

  datatype DayTotal = DayTotal(date: string, total: nat)

  /** `Math.max(...totals, 10)`. */
  function ScaleOf(data: seq<DayTotal>): (m: nat)
    ensures m >= 10
    ensures forall d :: d in data ==> d.total <= m
    ensures m == 10 || exists d :: d in data && d.total == m
  {
    if data == [] then 10
    else
      var rest := ScaleOf(data[1..]);
      if data[0].total > rest then data[0].total else rest
  }

  /** A column's height in percent of the scale. */
  function Height(total: nat, scale: nat): (h: real)
    requires scale > 0
    ensures h * (scale as real) == (total as real) * 100.0
    ensures total <= scale ==> 0.0 <= h <= 100.0
  {
    var t, s := total as real, scale as real;
    assert t / s * s == t;
    assert total <= scale ==> t / s <= 1.0;
    t / s * 100.0
  }

  /** A larger total never gets a lower column on the same scale. */
  lemma HeightMonotone(a: nat, b: nat, scale: nat)
    requires scale > 0 && a <= b
    ensures Height(a, scale) <= Height(b, scale)
  {
    var s := scale as real;
    assert (a as real) / s <= (b as real) / s;
  }

  /** What the chart shows: the placeholder `Sem dados para exibir`, or one column height per day. */
  datatype ColumnChart = NoColumnData | Columns(heights: seq<real>)

  function RenderColumns(data: seq<DayTotal>): (c: ColumnChart)
    ensures c.NoColumnData? <==> data == []
    ensures c.Columns? ==> |c.heights| == |data|
    ensures c.Columns? ==> forall i :: 0 <= i < |data| ==> c.heights[i] == Height(data[i].total, ScaleOf(data))
    ensures c.Columns? ==> forall i :: 0 <= i < |data| ==> 0.0 <= c.heights[i] <= 100.0
  {
    if data == [] then NoColumnData
    else
      var scale := ScaleOf(data);
      var heights := seq(|data|, i requires 0 <= i < |data| => Height(data[i].total, scale));
      assert forall i :: 0 <= i < |data| ==> 0.0 <= heights[i] <= 100.0 by {
        forall i | 0 <= i < |data| ensures 0.0 <= heights[i] <= 100.0 {
          assert data[i] in data;
        }
      }
      Columns(heights)
  }

  /** A day with more interactions never gets a lower column. */
  lemma ColumnsMonotone(data: seq<DayTotal>, i: int, j: int)
    requires 0 <= i < |data| && 0 <= j < |data| && data[i].total <= data[j].total
    ensures RenderColumns(data).heights[i] <= RenderColumns(data).heights[j]
  {
    HeightMonotone(data[i].total, data[j].total, ScaleOf(data));
  }

  // ---------------------------------------------------------------------------
  // Metric card with trend
  // ---------------------------------------------------------------------------

  datatype Direction = Up | Down | Neutral

  /** `isPositive` / `isNegative`, and neither. */
  function DirectionOf(variation: real): (d: Direction)
    ensures d == Up <==> variation > 0.0
    ensures d == Down <==> variation < 0.0
    ensures d == Neutral <==> variation == 0.0
  {
    if variation > 0.0 then Up else if variation < 0.0 then Down else Neutral
  }

  /** The trend block: an arrow (none when neutral) and the size of the change. */
  datatype Trend = Trend(direction: Direction, magnitude: real)

  function Abs(x: real): real { if x < 0.0 then -x else x }

  /** Present only when the variation is a number. */
  function TrendOf(variation: Option<real>): (t: Option<Trend>)
    ensures t.Some? <==> variation.Some?
    ensures t.Some? ==> t.value.magnitude >= 0.0 && t.value.direction == DirectionOf(variation.value)
  {
    if variation.Some? then Some(Trend(DirectionOf(variation.value), Abs(variation.value))) else None
  }

  /** The arrow and the magnitude together give back the variation. */
  lemma TrendRecoversVariation(v: real)
    ensures var t := TrendOf(Some(v)).value;
            v == (match t.direction case Up => t.magnitude case Down => -t.magnitude case Neutral => 0.0)
  {
  }

  /** `format === 'percentage' ? `${value}%` : value`, over the value's text. */
  function DisplayValue(value: string, format: string): (s: string)
    ensures format == "percentage" ==> s == value + "%"
    ensures format != "percentage" ==> s == value
  {
    if format == "percentage" then value + "%" else value
  }

  /** The percentage form only appends the sign: the value's text is kept in front. */
  lemma DisplayValueKeepsText(value: string, format: string)
    ensures DisplayValue(value, format)[..|value|] == value
    ensures |DisplayValue(value, format)| - |value| == (if format == "percentage" then 1 else 0)
  {
  }
}

=== FILE: chatwoot.dfy ===
/**
 * The Chatwoot server actions (`app/actions/chatwoot.js`). Every action
 * first checks the deployment's settings, then makes one HTTP request whose
 * outcome is a parameter (`Response`), and turns it into the `{ error }` or
 * payload reply the pages read.
 */
module Chatwoot {
  import opened Base
  import opened Text
  import Seqs

  // ---------------------------------------------------------------------------
  // Settings
  // ---------------------------------------------------------------------------

  /** `CHATWOOT_API_URL`, `CHATWOOT_API_ACCESS_TOKEN` and `CHATWOOT_ACCOUNT_ID`. */
  datatype Env = Env(apiUrl: Option<string>, token: Option<string>, accountId: Option<string>)

  /** `s.replace(/\/+$/, '')`: the run of slashes at the end removed. */
  function TrimTrailingSlashes(s: string): (r: string)
    ensures StartsWith(s, r)
    ensures r == [] || r[|r| - 1] != '/'
    ensures forall i :: |r| <= i < |s| ==> s[i] == '/'
  {
    if s != [] && s[|s| - 1] == '/' then TrimTrailingSlashes(s[..|s| - 1]) else s
  }

  function Slashes(n: nat): (r: string)
    ensures |r| == n
    ensures forall i :: 0 <= i < n ==> r[i] == '/'
  {
    seq(n, i => '/')
  }

  /** Trimming twice trims nothing more. */
  lemma TrimIdempotent(s: string)
    ensures TrimTrailingSlashes(TrimTrailingSlashes(s)) == TrimTrailingSlashes(s)
  {
  }

  /** Slashes added at the end are all removed again, and nothing before them is. */
  lemma {:induction false} TrimIgnoresAddedSlashes(s: string, n: nat)
    ensures TrimTrailingSlashes(s + Slashes(n)) == TrimTrailingSlashes(s)
  {
    if n > 0 {
      var t := s + Slashes(n);
      assert t[..|t| - 1] == s + Slashes(n - 1);
      TrimIgnoresAddedSlashes(s, n - 1);
    } else {
      assert s + Slashes(0) == s;
    }
  }

  /** `BASE_URL`: missing when the URL setting is missing. */
  function BaseUrl(env: Env): Option<string> {
    if env.apiUrl.Some? then Some(TrimTrailingSlashes(env.apiUrl.value)) else None
  }

  /** `BASE_URL && CHATWOOT_API_ACCESS_TOKEN`: a URL of slashes only counts as missing. */
  predicate Configured(env: Env) {
    Truthy(BaseUrl(env)) && Truthy(env.token)
  }

  /** `CHATWOOT_ACCOUNT_ID || '1'`. */
  function AccountId(env: Env): string {
    Or(env.accountId, "1")
  }

  const EnvMissing: string := "Chatwoot env vars missing"

  /** How an HTTP request ended: a thrown error, a non-2xx status, or a parsed body. */
  datatype Response<T> = Thrown(message: string) | NotOk(status: nat, statusText: string) | Received(body: T)

  // ---------------------------------------------------------------------------
  // Contacts
  // ---------------------------------------------------------------------------

  /** A Chatwoot contact. */
  datatype ChatContact = ChatContact(id: nat, email: Option<string>, name: Option<string>)

  /**
   * `getContactByEmail(email)`: the first hit of the search, and nothing when
   * the settings are missing, the request fails, or the payload is missing or empty.
   */
  function ContactByEmail(env: Env, search: Response<Option<seq<ChatContact>>>): (r: Option<ChatContact>)
    ensures r.Some? <==> Configured(env) && search.Received? && search.body.Some? && search.body.value != []
    ensures r.Some? ==> r.value == search.body.value[0]
  {
    if !Configured(env) then None
    else match search
      case Received(Some(hits)) => if hits != [] then Some(hits[0]) else None
      case _ => None
  }

  /** `email.split('@')[0]`: the name a new contact is given. */
  function ContactName(email: string): (name: string)
    ensures '@' !in name
    ensures StartsWith(email, name)
    ensures |name| < |email| ==> email[|name|] == '@'
  {
    BeforeFirst(email, '@')
  }

  /** An address `local@domain` gives its local part as the name. */
  lemma ContactNameOfAddress(local: string, domain: string)
    requires '@' !in local
    ensures ContactName(local + "@" + domain) == local
  {
    BeforeFirstConcat(local, '@', domain);
  }

  /** The body of `POST /contacts`. */
  datatype NewContact = NewContact(email: string, name: string)

  /** The request `createContact(email)` sends; none without settings. */
  function CreateRequest(env: Env, email: string): (r: Option<NewContact>)
    ensures r.Some? <==> Configured(env)
    ensures r.Some? ==> r.value.email == email && r.value.name == ContactName(email)
  {
    if Configured(env) then Some(NewContact(email, ContactName(email))) else None
  }

  /**
   * `createContact(email)`: the created contact (`data.payload.contact`), or
   * nothing when the settings are missing, the request fails, or the reply has
   * no contact.
   */
  function CreateContact(env: Env, email: string, created: Response<Option<ChatContact>>): (r: Option<ChatContact>)
    ensures r.Some? <==> Configured(env) && created.Received? && created.body.Some?
    ensures r.Some? ==> r.value == created.body.value
  {
    if !Configured(env) then None
    else match created
      case Received(Some(c)) => Some(c)
      case _ => None
  }

  /** A conversation as the Chatwoot API returns it; `None` is a missing field. */
  datatype RawConversation = RawConversation(
    id: nat,
    status: string,
    lastActivityAt: int,
    inboxId: nat,
    labels: Option<seq<string>>,
    sender: Option<Sender>,
    lastMessage: Option<string>)

  /** The contact shown for a conversation. */
  datatype Sender = Sender(name: Option<string>, thumbnail: Option<string>)

  /** The conversations of one contact, with the contact they were read for. */
  datatype ContactConversations = ContactConversations(contactId: nat, conversations: seq<RawConversation>)

  const NoContact: string := "Contact not found or Chatwoot unavailable"

  /**
   * `getConversations(email)`: the contact found by e-mail, or else a newly
   * created one, and that contact's conversations.
   */
  function GetConversations(
    env: Env, email: string,
    search: Response<Option<seq<ChatContact>>>,
    created: Response<Option<ChatContact>>,
    fetched: Response<Option<seq<RawConversation>>>): (r: Reply<ContactConversations>)
    ensures ContactByEmail(env, search).None? && CreateContact(env, email, created).None? ==> r == Failed(NoContact)
    ensures !Configured(env) ==> r == Failed(NoContact)
    ensures ContactByEmail(env, search).Some? ==>
              (r.Ok? ==> r.value.contactId == search.body.value[0].id)
    ensures ContactByEmail(env, search).None? && CreateContact(env, email, created).Some? ==>
              (r.Ok? ==> r.value.contactId == created.body.value.id)
    ensures (ContactByEmail(env, search).Some? || CreateContact(env, email, created).Some?) ==>
              (r.Ok? <==> fetched.Received?)
    ensures r.Ok? ==> r.value.conversations == fetched.body.GetOr([])
  {
    var found := ContactByEmail(env, search);
    var contact := if found.Some? then found else CreateContact(env, email, created);
    if contact.None? then Failed(NoContact)
    else match fetched
      case Thrown(m) => Failed(m)
      case NotOk(_, _) => Failed("Failed to fetch conversations")
      case Received(body) => Ok(ContactConversations(contact.value.id, body.GetOr([])))
  }

  /** A contact the search finds is used as it is: no contact is created. */
  lemma SearchHitSkipsCreation(
    env: Env, email: string, search: Response<Option<seq<ChatContact>>>,
    created1: Response<Option<ChatContact>>, created2: Response<Option<ChatContact>>,
    fetched: Response<Option<seq<RawConversation>>>)
    requires ContactByEmail(env, search).Some?
    ensures GetConversations(env, email, search, created1, fetched) == GetConversations(env, email, search, created2, fetched)
  {
  }

  // ---------------------------------------------------------------------------
  // Messages
  // ---------------------------------------------------------------------------

  /** The reply of `getMessages`: an error, messages, or (for a 404) both. */
  datatype MessagesReply<M> = MessagesReply(error: Option<string>, messages: Option<seq<M>>)

  /** The 404 message, with the accented letter stored as its two-byte mis-decoding, as the file has it. */
  const NotFound404: string := "Conversa nÃ£o encontrada (404)"

  /** `getMessages(conversationId)`; a falsy id is rejected before any request. */
  function GetMessages<M>(conversationId: Option<string>, response: Response<Option<seq<M>>>): (r: MessagesReply<M>)
    ensures !Truthy(conversationId) ==> r == MessagesReply(Some("Invalid conversation ID"), None)
    ensures r.error.None? <==> Truthy(conversationId) && response.Received?
    ensures r.messages.Some? <==> Truthy(conversationId) && (response.Received? || (response.NotOk? && response.status == 404))
    ensures Truthy(conversationId) && response.NotOk? && response.status == 404 ==>
              r == MessagesReply(Some(NotFound404), Some([]))
    ensures Truthy(conversationId) && response.Received? ==> r.messages == Some(response.body.GetOr([]))
    ensures Truthy(conversationId) && response.NotOk? && response.status != 404 ==>
              r.error == Some("Failed to fetch messages: " + NatToString(response.status) + " " + response.statusText)
  {
    if !Truthy(conversationId) then MessagesReply(Some("Invalid conversation ID"), None)
    else match response
      case NotOk(status, text) =>
        if status == 404 then MessagesReply(Some(NotFound404), Some([]))
        else MessagesReply(Some("Failed to fetch messages: " + NatToString(status) + " " + text), None)
      case Thrown(m) => MessagesReply(Some(m), None)
      case Received(body) => MessagesReply(None, Some(body.GetOr([])))
  }

  /** With a falsy id the reply does not depend on any request. */
  lemma EmptyIdMakesNoRequest<M>(conversationId: Option<string>, a: Response<Option<seq<M>>>, b: Response<Option<seq<M>>>)
    requires !Truthy(conversationId)
    ensures GetMessages(conversationId, a) == GetMessages(conversationId, b)
  {
  }

  // ---------------------------------------------------------------------------
  // All conversations
  // ---------------------------------------------------------------------------

  /** A conversation as `getAllConversations` hands it to the pages. */
  datatype Conversation = Conversation(
    id: nat,
    status: string,
    lastActivityAt: int,
    inboxId: nat,
    labels: seq<string>,
    contact: Sender,
    lastMessage: Option<string>)

  const Unknown: Sender := Sender(Some("Desconhecido"), None)

  /** The mapping of one API conversation: labels default to none, the contact to `Desconhecido`. */
  function ToConversation(raw: RawConversation): (c: Conversation)
    ensures c.id == raw.id && c.status == raw.status && c.inboxId == raw.inboxId
    ensures c.lastActivityAt == raw.lastActivityAt && c.lastMessage == raw.lastMessage
    ensures raw.labels.Some? ==> c.labels == raw.labels.value
    ensures raw.labels.None? ==> c.labels == []
    ensures raw.sender.Some? ==> c.contact == raw.sender.value
    ensures raw.sender.None? ==> c.contact.name == Some("Desconhecido")
  {
    Conversation(raw.id, raw.status, raw.lastActivityAt, raw.inboxId,
                 raw.labels.GetOr([]), raw.sender.GetOr(Unknown), raw.lastMessage)
  }

  /** The mapped conversation carries everything the API reported for it. */
  lemma ToConversationFaithful(raw: RawConversation)
    requires raw.labels.Some? && raw.sender.Some?
    ensures var c := ToConversation(raw);
            RawConversation(c.id, c.status, c.lastActivityAt, c.inboxId, Some(c.labels), Some(c.contact), c.lastMessage) == raw
  {
  }

  /** The request path, with `?inbox_id=` only for a truthy inbox. */
  function ConversationsUrl(base: string, account: string, inboxId: Option<nat>): (url: string)
    ensures StartsWith(url, base + "/api/v1/accounts/" + account + "/conversations")
    ensures (inboxId.Some? && inboxId.value != 0) <==> |url| > |base + "/api/v1/accounts/" + account + "/conversations"|
  {
    var path := base + "/api/v1/accounts/" + account + "/conversations";
    if inboxId.Some? && inboxId.value != 0 then path + "?inbox_id=" + NatToString(inboxId.value) else path
  }

  /** `getAllConversations(inboxId)`: one mapped conversation per API conversation, in order. */
  function GetAllConversations(env: Env, response: Response<Option<seq<RawConversation>>>): (r: Reply<seq<Conversation>>)
    ensures !Configured(env) ==> r == Failed(EnvMissing)
    ensures Configured(env) ==> (r.Ok? <==> response.Received?)
    ensures Configured(env) && response.Thrown? ==> r == Failed(response.message)
    ensures Configured(env) && response.NotOk? ==>
              r == Failed("Failed to fetch all conversations: " + NatToString(response.status) + " " + response.statusText)
    ensures r.Ok? ==> |r.value| == |response.body.GetOr([])|
    ensures r.Ok? ==> forall i :: 0 <= i < |r.value| ==> r.value[i] == ToConversation(response.body.GetOr([])[i])
  {
    if !Configured(env) then Failed(EnvMissing)
    else match response
      case Thrown(m) => Failed(m)
      case NotOk(status, text) => Failed("Failed to fetch all conversations: " + NatToString(status) + " " + text)
      case Received(body) => Ok(Seqs.Map(ToConversation, body.GetOr([])))
  }

  // ---------------------------------------------------------------------------
  // The other actions
  // ---------------------------------------------------------------------------

  /** The actions sharing the settings check and a fixed failure message. */
  datatype Action =
    | Inboxes | Send | SendAttachment | Contacts | AllLabels | ConversationLabels | AddLabels | UpdateStatus

  /** The message thrown on a non-2xx response. */
  function FailureText(a: Action): string {
    match a
    case Inboxes => "Failed to fetch inboxes"
    case Send => "Failed to send message"
    case SendAttachment => "Failed to send message with attachment"
    case Contacts => "Failed to fetch contacts"
    case AllLabels => "Failed to fetch labels"
    case ConversationLabels => "Failed to fetch conversation labels"
    case AddLabels => "Failed to add labels"
    case UpdateStatus => "Failed to update status"
  }

  /** The common path of an action: settings, then the request, then its body. */
  function Call<T>(env: Env, a: Action, response: Response<T>): (r: Reply<T>)
    ensures !Configured(env) ==> r == Failed(EnvMissing)
    ensures Configured(env) ==> (r.Ok? <==> response.Received?)
    ensures Configured(env) && response.Thrown? ==> r == Failed(response.message)
    ensures Configured(env) && response.NotOk? ==> r == Failed(FailureText(a))
    ensures r.Ok? ==> r.value == response.body
  {
    if !Configured(env) then Failed(EnvMissing)
    else match response
      case Thrown(m) => Failed(m)
      case NotOk(_, _) => Failed(FailureText(a))
      case Received(body) => Ok(body)
  }

  /**
   * The list actions (`getInboxes`, `getAllLabels`, `getConversationLabels`,
   * `addConversationLabels`): `data.payload || []`.
   */
  function ListCall<X>(env: Env, a: Action, response: Response<Option<seq<X>>>): (r: Reply<seq<X>>)
    ensures r.Failed? <==> Call(env, a, response).Failed?
    ensures r.Failed? ==> r.message == Call(env, a, response).message
    ensures r.Ok? ==> r.value == response.body.GetOr([])
  {
    match Call(env, a, response)
    case Failed(m) => Failed(m)
    case Ok(body) => Ok(body.GetOr([]))
  }

  /** The page of contacts `getContacts` reads, with the account's total when reported. */
  datatype ContactsBody = ContactsBody(payload: Option<seq<ChatContact>>, count: Option<nat>)

  datatype ContactsPage = ContactsPage(contacts: seq<ChatContact>, count: Option<nat>)

  function GetContacts(env: Env, response: Response<ContactsBody>): (r: Reply<ContactsPage>)
    ensures r.Failed? <==> Call(env, Contacts, response).Failed?
    ensures r.Ok? ==> r.value.contacts == response.body.payload.GetOr([]) && r.value.count == response.body.count
  {
    match Call(env, Contacts, response)
    case Failed(m) => Failed(m)
    case Ok(body) => Ok(ContactsPage(body.payload.GetOr([]), body.count))
  }

  const ValidStatuses: seq<string> := ["open", "resolved", "pending", "snoozed"]

  /**
   * `updateConversationStatus(conversationId, status)`: the settings check,
   * then the status whitelist, both before any request; the reply carries
   * the body's `payload`.
   */
  function UpdateConversationStatus<P>(env: Env, status: string, response: Response<Option<P>>): (r: Reply<Option<P>>)
    ensures !Configured(env) ==> r == Failed(EnvMissing)
    ensures Configured(env) && status !in ValidStatuses ==> r == Failed("Invalid status")
    ensures Configured(env) && status in ValidStatuses ==> r == Call(env, UpdateStatus, response)
  {
    if !Configured(env) then Failed(EnvMissing)
    else if status !in ValidStatuses then Failed("Invalid status")
    else Call(env, UpdateStatus, response)
  }

  /** An invalid status is refused the same way whatever the server would have said. */
  lemma InvalidStatusMakesNoRequest<P>(env: Env, status: string, a: Response<Option<P>>, b: Response<Option<P>>)
    requires status !in ValidStatuses
    ensures UpdateConversationStatus(env, status, a) == UpdateConversationStatus(env, status, b)
  {
  }

  // ---------------------------------------------------------------------------
  // Dashboard metrics
  // ---------------------------------------------------------------------------

  datatype ChatMetrics = ChatMetrics(
    totalContacts: nat,
    totalConversations: nat,
    openConversations: nat,
    closedConversations: int,
    recentConversations: seq<Conversation>)

  predicate IsOpen(c: Conversation) { c.status == "open" }

  function OpenOf(): Conversation -> bool { (c: Conversation) => IsOpen(c) }

  function NotOpenOf(): Conversation -> bool { (c: Conversation) => !IsOpen(c) }

  function MinNat(a: nat, b: nat): nat { if a <= b then a else b }

  /**
   * `getDashboardMetrics()` from the first contacts page and all
   * conversations; a failed read counts as zero contacts or no conversations.
   */
  function DashboardMetrics(contacts: Reply<ContactsPage>, conversations: Reply<seq<Conversation>>): (m: ChatMetrics)
    ensures contacts.Failed? ==> m.totalContacts == 0
    ensures contacts.Ok? ==> m.totalContacts == contacts.value.count.GetOr(0)
    ensures conversations.Failed? ==> m.totalConversations == 0 && m.recentConversations == []
    ensures conversations.Ok? ==> m.totalConversations == |conversations.value|
    ensures conversations.Ok? ==> m.recentConversations == conversations.value[..MinNat(5, |conversations.value|)]
    ensures m.openConversations + m.closedConversations == m.totalConversations
    ensures 0 <= m.closedConversations
    ensures forall c :: c in m.recentConversations ==> conversations.Ok? && c in conversations.value
  {
    var all := if conversations.Ok? then conversations.value else [];
    var open := |Seqs.Filter(OpenOf(), all)|;
    var total := if contacts.Ok? then contacts.value.count.GetOr(0) else 0;
    ChatMetrics(total, |all|, open, |all| - open, all[..MinNat(5, |all|)])
  }

  /** The closed count is the number of conversations in any status but `open`. */
  lemma ClosedCountsNonOpen(contacts: Reply<ContactsPage>, conversations: seq<Conversation>)
    ensures DashboardMetrics(contacts, Ok(conversations)).closedConversations
            == |Seqs.Filter(NotOpenOf(), conversations)|
    ensures DashboardMetrics(contacts, Ok(conversations)).openConversations
            == |Seqs.Filter(OpenOf(), conversations)|
  {
    Seqs.FilterComplement(OpenOf(), NotOpenOf(), conversations);
    assert |multiset(Seqs.Filter(OpenOf(), conversations))| + |multiset(Seqs.Filter(NotOpenOf(), conversations))|
           == |multiset(conversations)|;
  }
}

=== FILE: clinicorp.dfy ===
/**
 * The clinic ERP adapter (`ClinicorpService`): it reads rows of the system of
 * record, normalises them to the appointment schema of the dashboard, and
 * keeps an in-memory table standing in for the ERP.
 *
 * The table is a value here: `GetAppointments` reads it and
 * `CreateAppointment` returns the table after the append together with the
 * normalised new row.
 */
module Clinicorp {
  import opened Base
  import opened Text
  import opened LocalTime
  import Seqs

  /**
   * A row as the ERP returns it. `date`, `fromTime` and `toTime` are present
   * on every row of the table; an empty string stands for a missing value,
   * which the source treats alike.
   */
  datatype RawItem = RawItem(
    id: nat,
    patientName: Option<string>,
    mobilePhone: Option<string>,
    date: string,
    fromTime: string,
    toTime: string,
    categoryDescription: Option<string>,
    categoryColor: Option<string>,
    deleted: Option<string>,
    notes: Option<string>,
    dentistPersonId: Option<nat>)

  datatype Status = Scheduled | Cancelled

  /** A row of the dashboard's appointment schema; `raw` keeps the ERP row. */
  datatype Appointment = Appointment(
    id: string,
    externalId: string,
    patientName: Option<string>,
    patientPhone: Option<string>,
    startTime: Option<Instant>,
    endTime: Option<Instant>,
    status: Status,
    procedure: Option<string>,
    procedureColor: Option<string>,
    dentistId: Option<string>,
    notes: string,
    raw: RawItem)

  /**
   * `parseDateTime`: the text of `dateStr` before its first `T`, joined with
   * the hours and minutes of `timeStr` into `date T HH:mm:00` and read as
   * local time. A missing minutes part becomes the text `undefined`, which
   * no date parser accepts.
   */
  function ParseDateTime(dateStr: string, timeStr: string): (r: Option<Instant>)
    ensures dateStr == "" || timeStr == "" ==> r == None
    ensures r.Some? ==> DatePartOf(dateStr).Some? && WithinDate(r.value, DatePartOf(dateStr).value)
  {
    if dateStr == "" || timeStr == "" then None
    else
      var datePart := BeforeFirst(dateStr, 'T');
      var parts := Split(timeStr, ':');
      var mins := if |parts| >= 2 then parts[1] else "undefined";
      var rest := parts[0] + ":" + mins + ":00";
      assert BeforeFirst(datePart + "T" + rest, 'T') == datePart by {
        assert datePart + "T" + rest == datePart + ['T'] + rest;
        BeforeFirstConcat(datePart, 'T', rest);
      }
      ParseLocal(datePart + "T" + rest)
  }

  /**
   * Whatever follows the `T` of the date text is ignored: the ERP's
   * `T00:00:00.000Z` and `T03:00:00.000Z` spellings of a day give the same
   * instant.
   */
  lemma ParseDateTimeIgnoresTimeOfDate(a: string, b: string, timeStr: string)
    requires BeforeFirst(a, 'T') == BeforeFirst(b, 'T')
    ensures ParseDateTime(a, timeStr) == ParseDateTime(b, timeStr)
  {
    if a == "" && b != "" && timeStr != "" {
      // b starts with `T`, so its date part is empty and cannot be read.
      var parts := Split(timeStr, ':');
      var mins := if |parts| >= 2 then parts[1] else "undefined";
      ParseLocalParts("", parts[0] + ":" + mins + ":00");
    } else if b == "" && a != "" && timeStr != "" {
      var parts := Split(timeStr, ':');
      var mins := if |parts| >= 2 then parts[1] else "undefined";
      ParseLocalParts("", parts[0] + ":" + mins + ":00");
    }
  }

  /**
   * On a well-formed date and an `HH:mm` time, the hours and minutes are
   * carried unchanged onto the date, whatever follows the date's `T`.
   */
  lemma ParseDateTimeRoundTrip(d: Date, suffix: string, hour: nat, minute: nat)
    requires 0 <= d.year <= 9999 && ValidDate(d)
    requires hour < 24 && minute < 60
    ensures ParseDateTime(FormatDate(d) + "T" + suffix, FormatTime(hour, minute)) == Some(At(d, hour, minute))
  {
    var date := FormatDate(d);
    assert 'T' !in date by {
      PaddedNoSeparator(d.year, 4, 'T');
      PaddedNoSeparator(d.month, 2, 'T');
      PaddedNoSeparator(d.day, 2, 'T');
    }
    assert date + "T" + suffix == date + ['T'] + suffix;
    BeforeFirstConcat(date, 'T', suffix);
    PaddedNoSeparator(hour, 2, ':');
    PaddedNoSeparator(minute, 2, ':');
    SplitTwo(Padded(hour, 2), ':', Padded(minute, 2));
    assert FormatTime(hour, minute) == Padded(hour, 2) + [':'] + Padded(minute, 2);
    assert date + "T" + (Padded(hour, 2) + ":" + Padded(minute, 2) + ":00")
        == date + "T" + FormatTime(hour, minute) + ":00";
    ParseLocalRoundTrip(d, hour, minute);
  }

  /** `normalize`. */
  function Normalize(item: RawItem): (r: Appointment)
    ensures r.status == Cancelled <==> item.deleted == Some("X")
    ensures r.id == r.externalId == NatToString(item.id)
    ensures r.notes == (if Truthy(item.notes) then item.notes.value else "")
    ensures r.startTime.Some? || r.endTime.Some? ==> DatePartOf(item.date).Some?
    ensures r.startTime.Some? ==> WithinDate(r.startTime.value, DatePartOf(item.date).value)
    ensures r.endTime.Some? ==> WithinDate(r.endTime.value, DatePartOf(item.date).value)
    ensures r.raw == item
  {
    var status := if item.deleted == Some("X") then Cancelled else Scheduled;
    Appointment(
      id := NatToString(item.id),
      externalId := NatToString(item.id),
      patientName := item.patientName,
      patientPhone := item.mobilePhone,
      startTime := ParseDateTime(item.date, item.fromTime),
      endTime := ParseDateTime(item.date, item.toTime),
      status := status,
      procedure := item.categoryDescription,
      procedureColor := item.categoryColor,
      dentistId := if item.dentistPersonId.Some? then Some(NatToString(item.dentistPersonId.value)) else None,
      notes := Or(item.notes, ""),
      raw := item)
  }

  /** Rows whose date text starts with the date part of the query. */
  predicate OnQueryDate(item: RawItem, query: string) {
    StartsWith(item.date, BeforeFirst(query, 'T'))
  }

  function OnQueryDateOf(query: string): RawItem -> bool {
    item => OnQueryDate(item, query)
  }

  /**
   * `getAppointments`: the normalised rows whose date text starts with the
   * text of `query` before its `T`, in table order. Cancelled rows are not
   * dropped.
   */
  function GetAppointments(table: seq<RawItem>, query: string): (r: seq<Appointment>)
    ensures |r| <= |table|
    ensures forall a :: a in r ==> a.raw in table && OnQueryDate(a.raw, query) && a == Normalize(a.raw)
    ensures forall item :: item in table && OnQueryDate(item, query) ==> Normalize(item) in r
    ensures Seqs.IsSubsequence(Seqs.Map(RawOf, r), table)
    ensures forall item :: multiset(Seqs.Map(RawOf, r))[item] == if OnQueryDate(item, query) then multiset(table)[item] else 0
  {
    var r := Seqs.Map(Normalize, Seqs.Filter(OnQueryDateOf(query), table));
    NormalizedMatches(table, query);
    NormalizedCount(table, query);
    r
  }

  lemma NormalizedMatches(table: seq<RawItem>, query: string)
    ensures var r := Seqs.Map(Normalize, Seqs.Filter(OnQueryDateOf(query), table));
            && (forall a :: a in r ==> a.raw in table && OnQueryDate(a.raw, query) && a == Normalize(a.raw))
            && (forall item :: item in table && OnQueryDate(item, query) ==> Normalize(item) in r)
            && Seqs.IsSubsequence(Seqs.Map(RawOf, r), table)
  {
    var matching := Seqs.Filter(OnQueryDateOf(query), table);
    NormalizeKeepsRaw(matching);
    NormalizedFrom(matching);
    NormalizedAll(matching);
  }

  /** Each row on the queried date is read back as often as it is stored. */
  lemma NormalizedCount(table: seq<RawItem>, query: string)
    ensures var raws := Seqs.Map(RawOf, Seqs.Map(Normalize, Seqs.Filter(OnQueryDateOf(query), table)));
            forall item :: multiset(raws)[item] == if OnQueryDate(item, query) then multiset(table)[item] else 0
  {
    var matching := Seqs.Filter(OnQueryDateOf(query), table);
    NormalizeKeepsRaw(matching);
    forall item ensures multiset(matching)[item] == if OnQueryDate(item, query) then multiset(table)[item] else 0 {
      Seqs.FilterMultiset(OnQueryDateOf(query), table, item);
    }
  }

  /** Each normalised appointment is the normal form of its own row. */
  lemma NormalizedFrom(rows: seq<RawItem>)
    ensures forall a :: a in Seqs.Map(Normalize, rows) ==> a.raw in rows && a == Normalize(a.raw)
  {
    var r := Seqs.Map(Normalize, rows);
    forall a | a in r ensures a.raw in rows && a == Normalize(a.raw) {
      var k :| 0 <= k < |r| && r[k] == a;
      assert a.raw == rows[k];
    }
  }

  /** Every row is normalised. */
  lemma NormalizedAll(rows: seq<RawItem>)
    ensures forall item :: item in rows ==> Normalize(item) in Seqs.Map(Normalize, rows)
  {
    var r := Seqs.Map(Normalize, rows);
    forall item | item in rows ensures Normalize(item) in r {
      var k :| 0 <= k < |rows| && rows[k] == item;
      assert r[k] == Normalize(item);
    }
  }

  function RawOf(a: Appointment): RawItem { a.raw }

  /** Normalising keeps the row each appointment was read from. */
  lemma NormalizeKeepsRaw(rows: seq<RawItem>)
    ensures Seqs.Map(RawOf, Seqs.Map(Normalize, rows)) == rows
  {
    var r := Seqs.Map(RawOf, Seqs.Map(Normalize, rows));
    forall i | 0 <= i < |rows| ensures r[i] == rows[i] {
      assert Normalize(rows[i]).raw == rows[i];
    }
  }

  /** A cancelled row on the queried date is still returned, marked cancelled. */
  lemma CancelledRowsAreReturned(table: seq<RawItem>, query: string, item: RawItem)
    requires item in table && OnQueryDate(item, query) && item.deleted == Some("X")
    ensures exists a :: a in GetAppointments(table, query) && a.raw == item && a.status == Cancelled
  {
    assert Normalize(item) in GetAppointments(table, query);
  }

  /** What the caller of `createAppointment` supplies besides the start instant. */
  datatype NewAppointment = NewAppointment(patientName: Option<string>, title: Option<string>)

  /** The time of day the ERP writes after the `T` of a stored date. */
  const UtcMidnight := "00:00:00.000Z"

  /** The row `createAppointment` appends, for a start stored under `day` at `start`'s time of day. */
  function NewRow(data: NewAppointment, newId: nat, day: Date, start: Instant): RawItem
    requires 0 <= day.year <= 9999 && ValidDate(day)
  {
    RawItem(
      id := newId,
      patientName := Some(Or(data.patientName, "Novo Paciente")),
      mobilePhone := None,
      date := FormatDate(day) + "T" + UtcMidnight,
      fromTime := FormatTime(HourOf(start), MinuteOf(start)),
      toTime := "00:00",
      categoryDescription := Some(Or(data.title, "Consulta")),
      categoryColor := None,
      deleted := Some(""),
      notes := None,
      dentistPersonId := None)
  }

  /**
   * `createAppointment` as written: the stored date is the UTC calendar date
   * of the start (`toISOString`), `utcDay`, while the stored time is its
   * local time of day. `zoneOffset` is the local clock minus UTC in minutes;
   * `newId` stands for `Date.now()`.
   */
  function CreateAppointment(table: seq<RawItem>, data: NewAppointment, newId: nat,
                             start: Instant, zoneOffset: int, utcDay: Date): (r: (seq<RawItem>, Appointment))
    requires 0 <= utcDay.year <= 9999 && ValidDate(utcDay)
    requires DayNumber(utcDay) == DayOf(start - zoneOffset)
    ensures |r.0| == |table| + 1 && r.0[..|table|] == table
    ensures r.1 == Normalize(r.0[|table|])
    ensures r.1.status == Scheduled
    ensures r.1.patientName == Some(Or(data.patientName, "Novo Paciente"))
    ensures r.1.procedure == Some(Or(data.title, "Consulta"))
  {
    var item := NewRow(data, newId, utcDay, start);
    (table + [item], Normalize(item))
  }

  /**
   * The appointment `CreateAppointment` stores starts on `day` at `start`'s
   * time of day, and ends at the midnight that opens `day`.
   */
  lemma NewRowTimes(data: NewAppointment, newId: nat, day: Date, start: Instant)
    requires 0 <= day.year <= 9999 && ValidDate(day)
    ensures Normalize(NewRow(data, newId, day, start)).startTime == Some(At(day, HourOf(start), MinuteOf(start)))
    ensures Normalize(NewRow(data, newId, day, start)).endTime == Some(Midnight(day))
  {
    NewRowStart(data, newId, day, start);
    NewRowEnd(data, newId, day, start);
  }

  lemma NewRowStart(data: NewAppointment, newId: nat, day: Date, start: Instant)
    requires 0 <= day.year <= 9999 && ValidDate(day)
    ensures ParseDateTime(NewRow(data, newId, day, start).date, NewRow(data, newId, day, start).fromTime)
         == Some(At(day, HourOf(start), MinuteOf(start)))
  {
    ParseDateTimeRoundTrip(day, UtcMidnight, HourOf(start), MinuteOf(start));
  }

  lemma NewRowEnd(data: NewAppointment, newId: nat, day: Date, start: Instant)
    requires 0 <= day.year <= 9999 && ValidDate(day)
    ensures ParseDateTime(NewRow(data, newId, day, start).date, NewRow(data, newId, day, start).toTime) == Some(Midnight(day))
  {
    assert FormatTime(0, 0) == "00:00" by {
      assert Padded(0, 2) == "00";
    }
    ParseDateTimeRoundTrip(day, UtcMidnight, 0, 0);
  }

  /**
   * In a zone behind UTC (Brazil, three hours behind), an appointment asked
   * for 22:00 on 2 February 2026 is stored at 22:00 on 3 February.
   */
  lemma CreateAppointmentShiftsLateEvening()
    ensures var start := At(Date(2026, 2, 2), 22, 0);
            var r := CreateAppointment([], NewAppointment(None, None), 1, start, -180, Date(2026, 2, 3));
            r.1.startTime == Some(start + MinutesPerDay)
  {
    var start := At(Date(2026, 2, 2), 22, 0);
    assert DayNumber(Date(2026, 2, 2)) == 20486;
    assert DayNumber(Date(2026, 2, 3)) == 20487;
    assert start == 20486 * 1440 + 1320;
    assert HourOf(start) == 22 && MinuteOf(start) == 0;
    assert DayOf(start + 180) == 20487;
    NewRowTimes(NewAppointment(None, None), 1, Date(2026, 2, 3), start);
  }

  /**
   * `createAppointment` with the date taken on the local clock, as the
   * local time of day already is: the stored appointment starts exactly at
   * the requested instant.
   */
  function CreateAppointmentLocalDate(table: seq<RawItem>, data: NewAppointment, newId: nat,
                                      start: Instant, localDay: Date): (r: (seq<RawItem>, Appointment))
    requires 0 <= localDay.year <= 9999 && ValidDate(localDay)
    requires DayNumber(localDay) == DayOf(start)
    ensures |r.0| == |table| + 1 && r.0[..|table|] == table
    ensures r.1 == Normalize(r.0[|table|])
    ensures r.1.status == Scheduled
    ensures r.1.startTime == Some(start)
    ensures r.1.patientName == Some(Or(data.patientName, "Novo Paciente"))
    ensures r.1.procedure == Some(Or(data.title, "Consulta"))
  {
    var item := NewRow(data, newId, localDay, start);
    NewRowTimes(data, newId, localDay, start);
    AtOwnFields(localDay, start);
    (table + [item], Normalize(item))
  }

  /** The rows of the table the adapter starts with. */
  const MockDb: seq<RawItem> := [
    RawItem(5920922672300033, Some("Maria Paula Martins"), Some("37999584147"), "2026-02-02" + "T00:00:00.000Z",
            "17:00", "17:30", Some("Clínico"), Some("#ff0000"), Some(""), None, Some(6348578954149888)),
    RawItem(4578041999130625, Some("Hiandara Goulart Rodarte"), Some("37999254416"), "2026-02-02" + "T03:00:00.000Z",
            "13:30", "14:00", Some("Avaliação"), Some("#aed581"), Some(""), Some(""), Some(5672613848547328)),
    RawItem(5715127926587392, Some("Rozelia Maria Gomes Santos"), Some("37999515146"), "2026-02-03" + "T03:00:00.000Z",
            "15:00", "16:00", Some("Clínico"), Some("#ff0000"), Some("X"), None, Some(5672613848547328))
  ]

  /** The date texts of the three rows start with their calendar dates. */
  lemma MockDbDates()
    ensures MockDb == [MockDb[0], MockDb[1], MockDb[2]]
    ensures OnQueryDate(MockDb[0], "2026-02-02") && OnQueryDate(MockDb[1], "2026-02-02")
    ensures !OnQueryDate(MockDb[2], "2026-02-02")
    ensures !OnQueryDate(MockDb[0], "2026-02-03") && !OnQueryDate(MockDb[1], "2026-02-03")
    ensures OnQueryDate(MockDb[2], "2026-02-03")
  {
    BeforeFirstWhole("2026-02-02", 'T');
    BeforeFirstWhole("2026-02-03", 'T');
    assert OnQueryDate(MockDb[0], "2026-02-02") && !OnQueryDate(MockDb[0], "2026-02-03") by {
      DayOfText(MockDb[0].date, "2026-02-02", "2026-02-03");
    }
    assert OnQueryDate(MockDb[1], "2026-02-02") && !OnQueryDate(MockDb[1], "2026-02-03") by {
      DayOfText(MockDb[1].date, "2026-02-02", "2026-02-03");
    }
    assert OnQueryDate(MockDb[2], "2026-02-03") && !OnQueryDate(MockDb[2], "2026-02-02") by {
      DayOfText(MockDb[2].date, "2026-02-03", "2026-02-02");
    }
  }

  /** A date text that begins with one day's text does not begin with another of the same length. */
  lemma DayOfText(date: string, day: string, other: string)
    requires |day| == |other| == 10 && |date| >= 10 && date[..10] == day && day != other
    ensures StartsWith(date, day) && !StartsWith(date, other)
  {
  }

  /**
   * Querying 2 February returns both rows of that day although their date
   * texts differ after the `T`.
   */
  lemma MockDbSecondOfFebruary()
    ensures |GetAppointments(MockDb, "2026-02-02")| == 2
  {
    MockDbDates();
    var m0, m1, m2 := MockDb[0], MockDb[1], MockDb[2];
    var f := OnQueryDateOf("2026-02-02");
    assert MockDb[1..] == [m1, m2] && MockDb[2..] == [m2];
    assert Seqs.Filter(f, [m2]) == [];
    assert Seqs.Filter(f, [m1, m2]) == [m1];
    assert Seqs.Filter(f, MockDb) == [m0, m1];
    assert |Seqs.Map(Normalize, [m0, m1])| == 2;
  }

  /** Querying 3 February returns its one row, cancelled. */
  lemma MockDbThirdOfFebruary()
    ensures var r := GetAppointments(MockDb, "2026-02-03"); |r| == 1 && r[0].status == Cancelled
  {
    MockDbDates();
    var m0, m1, m2 := MockDb[0], MockDb[1], MockDb[2];
    var f := OnQueryDateOf("2026-02-03");
    assert MockDb[1..] == [m1, m2] && MockDb[2..] == [m2];
    assert Seqs.Filter(f, [m1, m2]) == [m2];
    assert Seqs.Filter(f, MockDb) == [m2];
    assert Normalize(m2).status == Cancelled;
  }
}

=== FILE: crm.dfy ===
/**
 * The CRM server actions (`app/actions/crm.js`) over the pipeline tables
 * `crm_columns` and `crm_deals`. As for the appointments, each action takes
 * the store's outcome (`fault`) and returns what it would read or leave.
 */
module Crm {
  import opened Base
  import Seqs
  import Patients

  /** A pipeline stage. */
  datatype Column = Column(id: nat, title: string, color: Option<string>, position: int)

  /** A row of `crm_deals`. */
  datatype Deal = Deal(
    id: nat,
    title: Option<string>,
    patientId: Option<nat>,
    columnId: Option<nat>,
    position: int)

  function ColumnPosition(c: Column): int { c.position }

  function DealPosition(d: Deal): int { d.position }

  /** A numeric id is falsy when missing or zero. */
  predicate TruthyId(id: Option<nat>) {
    id.Some? && id.value != 0
  }

  // ---------------------------------------------------------------------------
  // getColumns / getDeals
  // ---------------------------------------------------------------------------

  /** `getColumns`: every column once, by ascending position. */
  function GetColumns(table: seq<Column>, fault: Fault): (r: Reply<seq<Column>>)
    ensures fault.Some? <==> r.Failed?
    ensures fault.Some? ==> r.message == fault.value
    ensures r.Ok? ==> multiset(r.value) == multiset(table)
    ensures r.Ok? ==> forall i, j :: 0 <= i < j < |r.value| ==> r.value[i].position <= r.value[j].position
  {
    if fault.Some? then Failed(fault.value)
    else
      var sorted := Seqs.SortBy(table, ColumnPosition);
      assert forall i, j :: 0 <= i < j < |sorted| ==> ColumnPosition(sorted[i]) <= ColumnPosition(sorted[j]);
      Ok(sorted)
  }

  /**
   * `deal.title || deal.patient?.nome || 'Novo Negócio'`, where `patient` is
   * the cache row the deal's `patient_id` names when the deal is read.
   */
  function DealTitle(d: Deal, patient: Option<Patients.PatientRef>): (t: string)
    ensures t != ""
    ensures Truthy(d.title) ==> t == d.title.value
    ensures !Truthy(d.title) && patient.Some? && Truthy(patient.value.nome) ==> t == patient.value.nome.value
    ensures !Truthy(d.title) && (patient.None? || !Truthy(patient.value.nome)) ==> t == "Novo Negócio"
  {
    if Truthy(d.title) then d.title.value
    else if patient.Some? && Truthy(patient.value.nome) then patient.value.nome.value
    else "Novo Negócio"
  }

  /** The deal as `getDeals` hands it out: its display title in place of its own. */
  function WithDisplayTitle(cache: seq<Patients.Contact>): Deal -> Deal {
    (d: Deal) => d.(title := Some(DealTitle(d, Patients.JoinPatient(cache, d.patientId))))
  }

  /**
   * `getDeals`: every deal once, by ascending position, with the title
   * filled in from the deal and its joined patient, and every other field
   * as stored.
   */
  function GetDeals(table: seq<Deal>, cache: seq<Patients.Contact>, fault: Fault): (r: Reply<seq<Deal>>)
    ensures fault.Some? <==> r.Failed?
    ensures fault.Some? ==> r.message == fault.value
    ensures r.Ok? ==> |r.value| == |table|
    ensures r.Ok? ==> multiset(r.value) == multiset(Seqs.Map(WithDisplayTitle(cache), table))
    ensures r.Ok? ==> forall i, j :: 0 <= i < j < |r.value| ==> r.value[i].position <= r.value[j].position
    ensures r.Ok? ==> forall d :: d in r.value ==> Truthy(d.title)
  {
    if fault.Some? then Failed(fault.value)
    else
      var titled := Seqs.Map(WithDisplayTitle(cache), table);
      var sorted := Seqs.SortBy(titled, DealPosition);
      assert forall i, j :: 0 <= i < j < |sorted| ==> DealPosition(sorted[i]) <= DealPosition(sorted[j]);
      TitledDeals(cache, table, sorted);
      Ok(sorted)
  }

  /** Any reordering of the titled deals has a non-empty title on every deal. */
  lemma TitledDeals(cache: seq<Patients.Contact>, table: seq<Deal>, sorted: seq<Deal>)
    requires multiset(sorted) == multiset(Seqs.Map(WithDisplayTitle(cache), table))
    ensures forall d :: d in sorted ==> Truthy(d.title)
  {
    var titled := Seqs.Map(WithDisplayTitle(cache), table);
    forall d | d in sorted ensures Truthy(d.title) {
      assert d in multiset(titled);
      var k :| 0 <= k < |titled| && titled[k] == d;
    }
  }

  /** Every stored deal comes back once, with only its title possibly replaced. */
  lemma GetDealsKeepsDeals(table: seq<Deal>, cache: seq<Patients.Contact>, d: Deal)
    requires d in table
    ensures d.(title := Some(DealTitle(d, Patients.JoinPatient(cache, d.patientId)))) in GetDeals(table, cache, None).value
  {
    var titled := Seqs.Map(WithDisplayTitle(cache), table);
    assert WithDisplayTitle(cache)(d) in multiset(titled) by {
      var k :| 0 <= k < |table| && table[k] == d;
      assert titled[k] == WithDisplayTitle(cache)(d);
    }
    var r := GetDeals(table, cache, None).value;
    assert multiset(r) == multiset(titled);
    assert WithDisplayTitle(cache)(d) in multiset(r);
  }

  /**
   * An untitled deal shows the name of the patient its `patient_id` names
   * when the board is read, so a deal created for a patient is titled by
   * that patient's name.
   */
  lemma UntitledDealShowsPatientName(table: seq<Deal>, cache: seq<Patients.Contact>, d: Deal, c: Patients.Contact)
    requires d in table && !Truthy(d.title)
    requires Patients.UniqueIds(cache) && c in cache && d.patientId == Some(c.id) && Truthy(c.nome)
    ensures d.(title := c.nome) in GetDeals(table, cache, None).value
  {
    Patients.JoinFindsPatient(cache, c);
    GetDealsKeepsDeals(table, cache, d);
  }

  // ---------------------------------------------------------------------------
  // updateDealStage
  // ---------------------------------------------------------------------------

  function MoveDeal(dealId: nat, columnId: nat): Deal -> Deal {
    (d: Deal) => if d.id == dealId then d.(columnId := Some(columnId)) else d
  }

  /** `updateDealStage(dealId, columnId)`: the deals with `dealId` get the column; nothing else changes. */
  function UpdateDealStage(table: seq<Deal>, dealId: nat, columnId: nat, fault: Fault): (r: Reply<seq<Deal>>)
    ensures fault.Some? <==> r.Failed?
    ensures fault.Some? ==> r.message == fault.value
    ensures r.Ok? ==> |r.value| == |table|
    ensures r.Ok? ==> forall i :: 0 <= i < |table| && table[i].id != dealId ==> r.value[i] == table[i]
    ensures r.Ok? ==> forall i :: 0 <= i < |table| && table[i].id == dealId ==> r.value[i] == table[i].(columnId := Some(columnId))
  {
    if fault.Some? then Failed(fault.value) else Ok(Seqs.Map(MoveDeal(dealId, columnId), table))
  }

  /** Moving a deal back to the column it came from restores the table. */
  lemma MoveBackRestores(table: seq<Deal>, dealId: nat, from: nat, to: nat)
    requires forall d :: d in table && d.id == dealId ==> d.columnId == Some(from)
    ensures UpdateDealStage(UpdateDealStage(table, dealId, to, None).value, dealId, from, None).value == table
  {
    var there := UpdateDealStage(table, dealId, to, None).value;
    var back := UpdateDealStage(there, dealId, from, None).value;
    forall i | 0 <= i < |table| ensures back[i] == table[i] {
      if table[i].id == dealId {
        assert table[i] in table;
      }
    }
  }

  // ---------------------------------------------------------------------------
  // createDeal
  // ---------------------------------------------------------------------------

  /** The column with the lowest position; ties go to the one the sort puts first. */
  function FirstColumn(columns: seq<Column>): (c: Column)
    requires columns != []
    ensures c in columns
    ensures forall other :: other in columns ==> c.position <= other.position
  {
    var sorted := Seqs.SortBy(columns, ColumnPosition);
    assert sorted[0] in multiset(columns);
    forall other | other in columns ensures sorted[0].position <= other.position {
      assert other in multiset(sorted);
      var k :| 0 <= k < |sorted| && sorted[k] == other;
      if k > 0 {
        assert ColumnPosition(sorted[0]) <= ColumnPosition(sorted[k]);
      }
    }
    sorted[0]
  }

  /**
   * The column a new deal goes to: a truthy `columnId` as given; otherwise
   * the lowest-position column when the lookup finds one (`lookupFault` is
   * the outcome of that lookup), and else `columnId` unchanged.
   */
  function TargetColumn(columns: seq<Column>, lookupFault: Fault, columnId: Option<nat>): (c: Option<nat>)
    ensures TruthyId(columnId) ==> c == columnId
    ensures !TruthyId(columnId) && (lookupFault.Some? || columns == []) ==> c == columnId
    ensures !TruthyId(columnId) && lookupFault.None? && columns != [] ==>
              (c.Some? && exists col :: col in columns && col.id == c.value
                                       && forall other :: other in columns ==> col.position <= other.position)
  {
    if TruthyId(columnId) then columnId
    else if lookupFault.None? && columns != [] then Some(FirstColumn(columns).id)
    else columnId
  }

  predicate FreshDealId(table: seq<Deal>, id: nat) {
    forall d :: d in table ==> d.id != id
  }

  /**
   * `createDeal({ title, patientId, columnId })`: inserts one deal with the
   * given title and patient in the target column, under the id and position
   * the store assigns, and returns it.
   */
  function CreateDeal(
    table: seq<Deal>, columns: seq<Column>, lookupFault: Fault,
    title: Option<string>, patientId: Option<nat>, columnId: Option<nat>,
    newId: nat, newPosition: int, fault: Fault): (r: Reply<(seq<Deal>, Deal)>)
    requires FreshDealId(table, newId)
    ensures fault.Some? <==> r.Failed?
    ensures fault.Some? ==> r.message == fault.value
    ensures r.Ok? ==> r.value.0 == table + [r.value.1]
    ensures r.Ok? ==> (r.value.1.id == newId && r.value.1.title == title && r.value.1.patientId == patientId
                       && r.value.1.columnId == TargetColumn(columns, lookupFault, columnId))
    ensures r.Ok? && TruthyId(columnId) ==> r.value.1.columnId == columnId
  {
    if fault.Some? then Failed(fault.value)
    else
      var deal := Deal(newId, title, patientId, TargetColumn(columns, lookupFault, columnId), newPosition);
      Ok((table + [deal], deal))
  }

  /** Without a column, a deal lands in the first stage of the board as `getColumns` lists it. */
  lemma CreateDealDefaultsToFirstStage(
    table: seq<Deal>, columns: seq<Column>, title: Option<string>, patientId: Option<nat>, newId: nat, newPosition: int)
    requires FreshDealId(table, newId) && columns != []
    ensures var board := GetColumns(columns, None).value;
            var deal := CreateDeal(table, columns, None, title, patientId, None, newId, newPosition, None).value.1;
            deal.columnId.Some? && exists col :: col in board && col.id == deal.columnId.value && col.position == board[0].position
  {
    var board := GetColumns(columns, None).value;
    var deal := CreateDeal(table, columns, None, title, patientId, None, newId, newPosition, None).value.1;
    var col :| col in columns && col.id == deal.columnId.value
               && forall other :: other in columns ==> col.position <= other.position;
    assert col in multiset(board);
    assert board[0] in multiset(columns);
    var k :| 0 <= k < |board| && board[k] == col;
    if k > 0 {
      assert board[0].position <= board[k].position;
    }
  }
}

=== FILE: crm_page.dfy ===
/**
 * The CRM page (`app/dashboard/crm/page.js`): how it reads its `page` and
 * `view` parameters, which data it fetches, which error it shows, what it
 * renders, and its pagination links.
 */
module CrmPage {
  import opened Base
  import opened Text
  import opened Patients
  import opened Crm

  // ---------------------------------------------------------------------------
  // parseInt
  // ---------------------------------------------------------------------------

  /** A number as `parseInt` yields it: an integer, or `NaN`. */
  datatype Number = Int(value: int) | NaN

  /**
   * The white space `parseInt` skips: the ASCII spaces and line ends, the
   * no-break space, the byte-order mark and the line and paragraph separators.
   */
  predicate IsSpace(c: char) {
    c == ' ' || c == '\t' || c == '\n' || c == '\r' || c == '\U{000B}' || c == '\U{000C}'
    || c == '\U{00A0}' || c == '\U{FEFF}' || c == '\U{2028}' || c == '\U{2029}'
  }

  function SkipSpaces(s: string): (r: string)
    ensures |r| <= |s| && r == s[|s| - |r|..]
    ensures r == [] || !IsSpace(r[0])
    ensures forall i :: 0 <= i < |s| - |r| ==> IsSpace(s[i])
  {
    if s != [] && IsSpace(s[0]) then SkipSpaces(s[1..]) else s
  }

  /** The value of a digit in radix 36 (`0`-`9`, then `a`/`A` as 10 up to `z`/`Z`). */
  function DigitIn(c: char): Option<nat> {
    if '0' <= c <= '9' then Some(c as int - '0' as int)
    else if 'a' <= c <= 'z' then Some(c as int - 'a' as int + 10)
    else if 'A' <= c <= 'Z' then Some(c as int - 'A' as int + 10)
    else None
  }

  predicate IsRadixDigit(c: char, radix: nat) {
    DigitIn(c).Some? && DigitIn(c).value < radix
  }

  /** The longest prefix of `s` made of digits of `radix`. */
  function LeadingDigits(s: string, radix: nat): (r: string)
    ensures StartsWith(s, r)
    ensures forall i :: 0 <= i < |r| ==> IsRadixDigit(r[i], radix)
    ensures |r| < |s| ==> !IsRadixDigit(s[|r|], radix)
  {
    if s != [] && IsRadixDigit(s[0], radix) then [s[0]] + LeadingDigits(s[1..], radix) else []
  }

  /** The value of a string of digits of `radix`. */
  function RadixValue(s: string, radix: nat): nat
    requires forall i :: 0 <= i < |s| ==> IsRadixDigit(s[i], radix)
  {
    if s == [] then 0
    else
      assert IsRadixDigit(s[|s| - 1], radix);
      RadixValue(s[..|s| - 1], radix) * radix + DigitIn(s[|s| - 1]).value
  }

  /** The text after an optional sign. */
  function Unsigned(t: string): (u: string)
    ensures |u| <= |t|
  {
    if t != [] && (t[0] == '-' || t[0] == '+') then t[1..] else t
  }

  /** A `0x` or `0X` prefix, which selects radix 16. */
  predicate HexPrefixed(u: string) {
    |u| >= 2 && u[0] == '0' && (u[1] == 'x' || u[1] == 'X')
  }

  /**
   * `parseInt(s)` without a radix: leading white space is skipped, then an
   * optional sign; a `0x` or `0X` prefix selects radix 16; the longest run
   * of digits that follows is read, and without one the result is `NaN`.
   */
  function ParseInt(s: string): (r: Number)
    ensures SkipSpaces(s) == [] ==> r.NaN?
    ensures r.Int? && r.value < 0 ==> SkipSpaces(s)[0] == '-'
  {
    var t := SkipSpaces(s);
    Signed(t != [] && t[0] == '-', Magnitude(Unsigned(t)))
  }

  /** The number read, negated after a minus sign; `NaN` when no digit was read. */
  function Signed(negative: bool, magnitude: Option<nat>): (r: Number)
    ensures r.NaN? <==> magnitude.None?
    ensures r.Int? && r.value < 0 ==> negative
  {
    match magnitude
    case None => NaN
    case Some(v) => Int(if negative then -(v as int) else v)
  }

  /** The digits after the sign: hexadecimal after `0x`, decimal otherwise; none read gives nothing. */
  function Magnitude(u: string): (v: Option<nat>)
    ensures u == [] ==> v.None?
  {
    var radix := if HexPrefixed(u) then 16 else 10;
    var body := if HexPrefixed(u) then u[2..] else u;
    var digits := LeadingDigits(body, radix);
    if digits == [] then None else Some(RadixValue(digits, radix))
  }

  /**
   * A run of decimal digits after an optional sign is read up to the first
   * character that is not a digit, whatever follows; only a lone `0`
   * followed by `x` or `X` is read otherwise, as a hexadecimal prefix.
   */
  lemma ParseIntDecimal(sign: string, u: string, rest: string)
    requires sign == "" || sign == "-" || sign == "+"
    requires AllDigits(u) && u != []
    requires rest == [] || !IsDigit(rest[0])
    requires u != "0" || rest == [] || (rest[0] != 'x' && rest[0] != 'X')
    ensures ParseInt(sign + u + rest) == Int(if sign == "-" then -(DigitsValue(u) as int) else DigitsValue(u))
  {
    var s := sign + u + rest;
    assert s != [] && !IsSpace(s[0]) && (s[0] == '-' <==> sign == "-") && Unsigned(s) == u + rest by {
      if sign == "" {
        assert s == u + rest && s[0] == u[0];
      } else {
        assert s[0] == sign[0] && s[1..] == u + rest;
      }
    }
    ParseIntAt(s);
    MagnitudeDecimal(u, rest);
  }

  /** Text that starts with something other than white space is read from its first character. */
  lemma ParseIntAt(s: string)
    requires s != [] && !IsSpace(s[0])
    ensures ParseInt(s) == Signed(s[0] == '-', Magnitude(Unsigned(s)))
  {
    assert SkipSpaces(s) == s;
  }

  /** Decimal digits followed by a non-digit read as their decimal value, barring a `0x` prefix. */
  lemma MagnitudeDecimal(u: string, rest: string)
    requires AllDigits(u) && u != []
    requires rest == [] || !IsDigit(rest[0])
    requires u != "0" || rest == [] || (rest[0] != 'x' && rest[0] != 'X')
    ensures Magnitude(u + rest) == Some(DigitsValue(u))
  {
    assert !HexPrefixed(u + rest) by {
      if |u| >= 2 {
        assert IsDigit((u + rest)[1]);
      }
    }
    DecimalValue(u);
    LeadingDigitsPrefix(u, rest, 10);
  }

  /** A run of digits followed by a non-digit is exactly the leading run. */
  lemma {:induction false} LeadingDigitsPrefix(u: string, rest: string, radix: nat)
    requires forall i :: 0 <= i < |u| ==> IsRadixDigit(u[i], radix)
    requires rest == [] || !IsRadixDigit(rest[0], radix)
    ensures LeadingDigits(u + rest, radix) == u
  {
    if u == [] {
      assert u + rest == rest;
    } else {
      assert (u + rest)[1..] == u[1..] + rest;
      LeadingDigitsPrefix(u[1..], rest, radix);
    }
  }

  /** `n.toString()`, with a minus sign for negative numbers. */
  function IntToString(n: int): (r: string)
    ensures n >= 0 ==> r == NatToString(n)
    ensures n < 0 ==> r == "-" + NatToString(-n)
  {
    if n < 0 then "-" + NatToString(-n) else NatToString(n)
  }

  /** How a number appears in a template: `NaN` as the word. */
  function NumberText(p: Number): string {
    if p.Int? then IntToString(p.value) else "NaN"
  }

  /** In radix 10, the value of decimal digits is their decimal value. */
  lemma {:induction false} DecimalValue(s: string)
    requires AllDigits(s)
    ensures forall i :: 0 <= i < |s| ==> IsRadixDigit(s[i], 10)
    ensures RadixValue(s, 10) == DigitsValue(s)
  {
    if s != [] {
      assert AllDigits(s[..|s| - 1]);
      DecimalValue(s[..|s| - 1]);
    }
  }

  /** Reading back the rendering of an integer gives the integer. */
  lemma ParseIntRoundTrip(n: int)
    ensures ParseInt(IntToString(n)) == Int(n)
  {
    var m := if n < 0 then -n else n;
    var u := NatToString(m);
    NatToStringRoundTrip(m);
    var sign := if n < 0 then "-" else "";
    assert IntToString(n) == sign + u + "";
    ParseIntDecimal(sign, u, "");
  }

  /** A `0x` prefix switches to hexadecimal: `?page=0x10` reads as page 16. */
  lemma HexPrefix()
    ensures ParseInt("0x10") == Int(16)
  {
    var s := "0x10";
    ParseIntAt(s);
    assert Unsigned(s) == s;
    assert Magnitude(s) == Some(16) by {
      assert HexPrefixed(s);
      assert LeadingDigits(s[2..], 16) == "10" by {
        assert s[2..] == "10" + "";
        LeadingDigitsPrefix("10", "", 16);
      }
      assert RadixValue("10", 16) == 16 by {
        assert "10"[..1] == "1" && "1"[..0] == "";
        assert RadixValue("1", 16) == 1;
      }
    }
  }

  // ---------------------------------------------------------------------------
  // Parameters and data
  // ---------------------------------------------------------------------------

  /** `searchParams?.page ? parseInt(searchParams.page) : 1`. */
  function PageParam(page: Option<string>): (p: Number)
    ensures !Truthy(page) ==> p == Int(1)
    ensures Truthy(page) ==> p == ParseInt(page.value)
  {
    if Truthy(page) then ParseInt(page.value) else Int(1)
  }

  /** `searchParams?.view || 'kanban'`. */
  function ViewParam(view: Option<string>): (v: string)
    ensures v != ""
    ensures Truthy(view) ==> v == view.value
  {
    Or(view, "kanban")
  }

  /** The fetch branch: the patient list for `list`, the board data for anything else. */
  predicate FetchesList(view: string) {
    view == "list"
  }

  /** The render branch: the board for `kanban`, the table for anything else. */
  predicate RendersBoard(view: string) {
    view == "kanban"
  }

  /**
   * The two branches test different values, so they agree only for the two
   * known views: any other view fetches board data and renders the table.
   */
  lemma BranchesAgreeOnlyForKnownViews(view: string)
    ensures (FetchesList(view) != RendersBoard(view)) <==> (view == "list" || view == "kanban")
  {
  }

  /** `res.error` shown by `{error && ...}`: a failure with a non-empty message. */
  function ErrorText<T>(reply: Reply<T>): (e: Option<string>)
    ensures e.Some? <==> reply.Failed? && reply.message != ""
    ensures e.Some? ==> e.value == reply.message
  {
    if reply.Failed? && reply.message != "" then Some(reply.message) else None
  }

  /** The board fetch's error: the deals error is assigned last, so it wins. */
  function BoardError(columns: Reply<seq<Column>>, deals: Reply<seq<Deal>>): (e: Option<string>)
    ensures ErrorText(deals).Some? ==> e == ErrorText(deals)
    ensures ErrorText(deals).None? ==> e == ErrorText(columns)
  {
    var e := ErrorText(columns);
    if ErrorText(deals).Some? then ErrorText(deals) else e
  }

  function ValueOr<T>(reply: Reply<seq<T>>): (r: seq<T>)
    ensures reply.Ok? ==> r == reply.value
    ensures reply.Failed? ==> r == []
  {
    if reply.Ok? then reply.value else []
  }

  // ---------------------------------------------------------------------------
  // The rendered page
  // ---------------------------------------------------------------------------

  /** The link to page `p` of the list view. */
  function ListLink(p: Number): string {
    "/dashboard/crm?view=list&page=" + NumberText(p)
  }

  /** What the page renders below its header. */
  datatype Body =
    | BoardBody(columns: seq<Column>, deals: seq<Deal>)
    | TableBody(contacts: seq<Contact>, pageLabel: string, previous: Option<string>, next: string)

  datatype Screen = Screen(page: Number, view: string, error: Option<string>, body: Body)

  /**
   * `CRMPage`: the replies of `getPatients(page)`, `getColumns()` and
   * `getDeals()` are parameters; only the ones the view fetches are read.
   */
  function Render(
    pageParam: Option<string>, viewParam: Option<string>,
    patients: Reply<PatientPage>, columns: Reply<seq<Column>>, deals: Reply<seq<Deal>>): (s: Screen)
    ensures s.page == PageParam(pageParam) && s.view == ViewParam(viewParam)
    ensures FetchesList(s.view) ==> s.error == ErrorText(patients)
    ensures !FetchesList(s.view) ==> s.error == BoardError(columns, deals)
    ensures s.body.BoardBody? <==> RendersBoard(s.view)
    ensures s.body.BoardBody? ==> s.body.columns == ValueOr(columns) && s.body.deals == ValueOr(deals)
    ensures s.body.TableBody? && FetchesList(s.view) && patients.Ok? ==> s.body.contacts == patients.value.contacts
    ensures s.body.TableBody? && (!FetchesList(s.view) || patients.Failed?) ==> s.body.contacts == []
    ensures s.body.TableBody? ==>
              (s.body.previous.Some? <==> s.page.Int? && s.page.value > 1)
              && (s.body.previous.Some? ==> s.body.previous.value == ListLink(Int(s.page.value - 1)))
    ensures s.body.TableBody? && s.page.Int? ==> s.body.next == ListLink(Int(s.page.value + 1))
    ensures s.body.TableBody? && s.page.NaN? ==> s.body.next == ListLink(NaN)
  {
    var page := PageParam(pageParam);
    var view := ViewParam(viewParam);
    var error := if FetchesList(view) then ErrorText(patients) else BoardError(columns, deals);
    var body := if RendersBoard(view) then BoardBody(ValueOr(columns), ValueOr(deals))
                else Table(page, FetchesList(view), patients);
    Screen(page, view, error, body)
  }

  /** The list view's table: the fetched patients, and the links to the pages around `page`. */
  function Table(page: Number, fetched: bool, patients: Reply<PatientPage>): (b: Body)
    ensures b.TableBody?
    ensures fetched && patients.Ok? ==> b.contacts == patients.value.contacts
    ensures !fetched || patients.Failed? ==> b.contacts == []
    ensures b.previous.Some? <==> page.Int? && page.value > 1
    ensures b.previous.Some? ==> b.previous.value == ListLink(Int(page.value - 1))
    ensures page.Int? ==> b.next == ListLink(Int(page.value + 1))
    ensures page.NaN? ==> b.next == ListLink(NaN)
  {
    var contacts := if fetched && patients.Ok? then patients.value.contacts else [];
    var previous := if page.Int? && page.value > 1 then Some(ListLink(Int(page.value - 1))) else None;
    var next := if page.Int? then ListLink(Int(page.value + 1)) else ListLink(NaN);
    TableBody(contacts, NumberText(page), previous, next)
  }

  /**
   * Following `Próxima` from page `n` and then `Anterior` leads back to page
   * `n` for every page from 1 on.
   */
  lemma NextThenPreviousReturns(n: int, patients: Reply<PatientPage>, columns: Reply<seq<Column>>, deals: Reply<seq<Deal>>)
    requires n >= 1
    ensures var here := Render(Some(IntToString(n)), Some("list"), patients, columns, deals);
            var there := Render(Some(IntToString(n + 1)), Some("list"), patients, columns, deals);
            here.body.TableBody? && there.body.TableBody?
            && here.body.next == ListLink(there.page)
            && there.body.previous == Some(ListLink(here.page))
  {
    ParseIntRoundTrip(n);
    ParseIntRoundTrip(n + 1);
    assert PageParam(Some(IntToString(n))) == Int(n);
    assert PageParam(Some(IntToString(n + 1))) == Int(n + 1);
  }
}

=== FILE: kanban.dfy ===
/**
 * The pipeline board (`KanbanBoard`): deals grouped into their columns, the
 * optimistic move of a card with its revert, and the move buttons of a card.
 */
module Kanban {
  import opened Base
  import opened Crm
  import Seqs

  /** The board's state: the deals it shows and the card being moved, if any. */
  datatype Board = Board(deals: seq<Deal>, loadingId: Option<nat>)

  // ---------------------------------------------------------------------------
  // Grouping
  // ---------------------------------------------------------------------------

  function InColumn(columnId: nat): Deal -> bool {
    (d: Deal) => d.columnId == Some(columnId)
  }

  /** `deals.filter(d => d.column_id === col.id)`. */
  function Bucket(deals: seq<Deal>, columnId: nat): (r: seq<Deal>)
    ensures forall d :: d in r <==> d in deals && d.columnId == Some(columnId)
    ensures Seqs.IsSubsequence(r, deals)
    ensures forall d :: multiset(r)[d] == if d.columnId == Some(columnId) then multiset(deals)[d] else 0
  {
    var r := Seqs.Filter(InColumn(columnId), deals);
    forall d ensures multiset(r)[d] == if d.columnId == Some(columnId) then multiset(deals)[d] else 0 {
      Seqs.FilterMultiset(InColumn(columnId), deals, d);
    }
    r
  }

  /** `dealsByColumn`: the bucket of each column, in column order. */
  function DealsByColumn(columns: seq<Column>, deals: seq<Deal>): (r: seq<seq<Deal>>)
    ensures |r| == |columns|
    ensures forall i :: 0 <= i < |columns| ==> r[i] == Bucket(deals, columns[i].id)
  {
    seq(|columns|, i requires 0 <= i < |columns| => Bucket(deals, columns[i].id))
  }

  /** A deal whose column is not on the board is shown in no column. */
  lemma UnknownColumnShownNowhere(columns: seq<Column>, deals: seq<Deal>, d: Deal)
    requires forall c :: c in columns ==> d.columnId != Some(c.id)
    ensures forall i :: 0 <= i < |columns| ==> d !in DealsByColumn(columns, deals)[i]
  {
    forall i | 0 <= i < |columns| ensures d !in DealsByColumn(columns, deals)[i] {
      assert columns[i] in columns;
    }
  }

  /** A deal on the board is shown in the column it names. */
  lemma KnownColumnShownThere(columns: seq<Column>, deals: seq<Deal>, d: Deal, i: int)
    requires d in deals && 0 <= i < |columns| && d.columnId == Some(columns[i].id)
    ensures d in DealsByColumn(columns, deals)[i]
  {
  }

  /** With distinct column ids, a deal is shown in at most one column. */
  lemma ShownOnce(columns: seq<Column>, deals: seq<Deal>, d: Deal, i: int, j: int)
    requires forall a, b :: 0 <= a < |columns| && 0 <= b < |columns| && columns[a].id == columns[b].id ==> a == b
    requires 0 <= i < |columns| && 0 <= j < |columns|
    requires d in DealsByColumn(columns, deals)[i] && d in DealsByColumn(columns, deals)[j]
    ensures i == j
  {
  }

  /** What one column renders: the header count, the cards, and whether `Vazio` shows. */
  datatype ColumnView = ColumnView(count: nat, cards: seq<Deal>, empty: bool)

  function RenderColumn(column: Column, deals: seq<Deal>): (v: ColumnView)
    ensures v.count == |v.cards|
    ensures v.empty <==> v.cards == []
    ensures forall d :: d in v.cards <==> d in deals && d.columnId == Some(column.id)
    ensures forall d :: multiset(v.cards)[d] == if d.columnId == Some(column.id) then multiset(deals)[d] else 0
    ensures v.cards == Bucket(deals, column.id)
  {
    var cards := Bucket(deals, column.id);
    ColumnView(|cards|, cards, |cards| == 0)
  }

  /** `deal.title || 'Sem Título'`: a card never shows a blank heading. */
  function CardTitle(d: Deal): (t: string)
    ensures t != ""
    ensures Truthy(d.title) ==> t == d.title.value
    ensures !Truthy(d.title) ==> t == "Sem Título"
  {
    Or(d.title, "Sem Título")
  }

  // ---------------------------------------------------------------------------
  // Moving a card
  // ---------------------------------------------------------------------------

  function OtherColumn(current: Column): Column -> bool {
    (c: Column) => c.id != current.id
  }

  /** The move buttons of a card in column `current`: every other column, in board order. */
  function MoveTargets(columns: seq<Column>, current: Column): (r: seq<Column>)
    ensures forall c :: c in r <==> c in columns && c.id != current.id
    ensures Seqs.IsSubsequence(r, columns)
    ensures forall c :: multiset(r)[c] == if c.id != current.id then multiset(columns)[c] else 0
  {
    var r := Seqs.Filter(OtherColumn(current), columns);
    forall c ensures multiset(r)[c] == if c.id != current.id then multiset(columns)[c] else 0 {
      Seqs.FilterMultiset(OtherColumn(current), columns, c);
    }
    r
  }

  /** With distinct column ids, a card in one of the columns can go to each of the others. */
  lemma {:induction false} MoveTargetsCount(columns: seq<Column>, current: Column)
    requires current in columns
    requires forall a, b :: 0 <= a < b < |columns| ==> columns[a].id != columns[b].id
    ensures |MoveTargets(columns, current)| == |columns| - 1
  {
    var k :| 0 <= k < |columns| && columns[k] == current;
    var p := OtherColumn(current);
    var before, after := columns[..k], columns[k + 1..];
    assert columns == before + [current] + after;
    assert Seqs.Filter(p, before) == before by {
      forall c | c in before ensures p(c) {
        var a :| 0 <= a < k && columns[a] == c;
      }
      Seqs.FilterAll(p, before);
    }
    assert Seqs.Filter(p, after) == after by {
      forall c | c in after ensures p(c) {
        var b :| 0 <= b < |after| && after[b] == c;
        assert columns[k + 1 + b] == c;
      }
      Seqs.FilterAll(p, after);
    }
    assert Seqs.Filter(p, [current]) == [] by {
      assert [current][1..] == [];
    }
    Seqs.FilterConcat(p, before + [current], after);
    Seqs.FilterConcat(p, before, [current]);
  }

  /** `prev.map(d => d.id === dealId ? { ...d, column_id: newColumnId } : d)`. */
  function MoveOptimistic(deals: seq<Deal>, dealId: nat, newColumnId: nat): (r: seq<Deal>)
    ensures |r| == |deals|
    ensures forall i :: 0 <= i < |deals| && deals[i].id != dealId ==> r[i] == deals[i]
    ensures forall i :: 0 <= i < |deals| && deals[i].id == dealId ==> r[i] == deals[i].(columnId := Some(newColumnId))
  {
    Seqs.Map(MoveDeal(dealId, newColumnId), deals)
  }

  /** The optimistic move shows exactly what a successful `updateDealStage` writes. */
  lemma OptimisticMatchesStore(deals: seq<Deal>, dealId: nat, newColumnId: nat)
    ensures MoveOptimistic(deals, dealId, newColumnId) == UpdateDealStage(deals, dealId, newColumnId, None).value
  {
  }

  /** What a move shows: the board while the update runs, the board after, and the alert raised. */
  datatype Move = Move(during: Board, after: Board, alert: Option<string>)

  /**
   * `handleStatusChange(dealId, newColumnId)`. `reply` is the error message
   * `updateDealStage` returns, if any; an empty message is falsy and is taken
   * for success.
   */
  function HandleStatusChange(b: Board, dealId: nat, newColumnId: nat, reply: Fault): (m: Move)
    ensures m.during == Board(MoveOptimistic(b.deals, dealId, newColumnId), Some(dealId))
    ensures m.after.loadingId.None?
    ensures Truthy(reply) ==> m.after.deals == b.deals && m.alert == Some("Falha ao atualizar status")
    ensures !Truthy(reply) ==> m.after.deals == m.during.deals && m.alert.None?
  {
    var snapshot := b.deals;
    var during := Board(MoveOptimistic(b.deals, dealId, newColumnId), Some(dealId));
    if Truthy(reply) then Move(during, Board(snapshot, None), Some("Falha ao atualizar status"))
    else Move(during, during.(loadingId := None), None)
  }

  /** The spinner covers a card while its own move runs. */
  predicate Spinning(b: Board, d: Deal) {
    b.loadingId == Some(d.id)
  }

  /**
   * During a move only the moved card spins and afterwards none does; a
   * failed move leaves the board exactly as it was before the click.
   */
  lemma MoveLifecycle(b: Board, dealId: nat, newColumnId: nat, reply: Fault, d: Deal)
    ensures var m := HandleStatusChange(b, dealId, newColumnId, reply);
            (Spinning(m.during, d) <==> d.id == dealId) && !Spinning(m.after, d)
    ensures Truthy(reply) ==> HandleStatusChange(b, dealId, newColumnId, reply).after == b.(loadingId := None)
  {
  }

  /** A successful move puts the card in its new column and takes it out of every other one. */
  lemma MovedCardChangesColumn(columns: seq<Column>, b: Board, dealId: nat, newColumnId: nat, d: Deal, i: int)
    requires d in b.deals && d.id == dealId && 0 <= i < |columns|
    ensures var after := HandleStatusChange(b, dealId, newColumnId, None).after.deals;
            (d.(columnId := Some(newColumnId)) in DealsByColumn(columns, after)[i] <==> columns[i].id == newColumnId)
  {
    var after := HandleStatusChange(b, dealId, newColumnId, None).after.deals;
    var k :| 0 <= k < |b.deals| && b.deals[k] == d;
    assert after[k] == d.(columnId := Some(newColumnId));
  }
}

=== FILE: left_nav.dfy ===
/**
 * The dashboard's side menu (`LeftNav`): five fixed entries, each
 * highlighted when the current path is its own (`exact`) or lies under it.
 */
module LeftNav {
  import opened Base
  import opened Text

  datatype MenuItem = MenuItem(id: string, title: string, href: string, exact: bool, badge: Option<string>)

  /** `menuItems`, in display order. */
  const Menu: seq<MenuItem> := [
    MenuItem("dashboard", "Visão Geral", "/dashboard", true, None),
    MenuItem("whatsapp", "WhatsApp", "/dashboard/conversations", false, Some("Hoje")),
    MenuItem("kanban", "Kanban", "/dashboard/crm", false, None),
    MenuItem("agenda", "Agenda", "/dashboard/agenda", false, None),
    MenuItem("settings", "Config", "/dashboard/settings", false, None)
  ]

  /** `isActive`: equality for an exact entry, a character prefix for the others. */
  predicate Active(pathname: string, item: MenuItem) {
    if item.exact then pathname == item.href else StartsWith(pathname, item.href)
  }

  /** One rendered entry. */
  datatype NavItem = NavItem(title: string, href: string, active: bool, badge: Option<string>)

  function RenderItem(pathname: string, item: MenuItem): (v: NavItem)
    ensures v.title == item.title && v.href == item.href
    ensures v.active <==> (item.exact && pathname == item.href) || (!item.exact && StartsWith(pathname, item.href))
    ensures v.badge.Some? <==> Truthy(item.badge)
    ensures v.badge.Some? ==> v.badge == item.badge
  {
    NavItem(item.title, item.href, Active(pathname, item), if Truthy(item.badge) then item.badge else None)
  }

  /** The menu as rendered for `pathname`: every entry, in order. */
  function Render(pathname: string): (r: seq<NavItem>)
    ensures |r| == |Menu|
    ensures forall i :: 0 <= i < |Menu| ==> r[i] == RenderItem(pathname, Menu[i])
  {
    seq(|Menu|, i requires 0 <= i < |Menu| => RenderItem(pathname, Menu[i]))
  }

  /** Two texts that differ at index `k` cannot both begin a path. */
  lemma PrefixesApart(pathname: string, a: string, b: string, k: nat)
    requires k < |a| && k < |b| && a[k] != b[k]
    ensures StartsWith(pathname, a) ==> !StartsWith(pathname, b)
  {
    if StartsWith(pathname, a) {
      assert pathname[k] == pathname[..|a|][k] == a[k];
      if |b| <= |pathname| {
        assert pathname[..|b|][k] != b[k];
      }
    }
  }

  /** The exact entry and a longer prefix entry are never active together. */
  lemma ExactApart(pathname: string, item: MenuItem)
    requires !item.exact && |item.href| > |"/dashboard"|
    ensures Active(pathname, Menu[0]) ==> !Active(pathname, item)
  {
  }

  /** For every path, at most one entry of the menu is highlighted. */
  lemma AtMostOneActive(pathname: string, i: int, j: int)
    requires 0 <= i < j < |Menu|
    ensures !(Active(pathname, Menu[i]) && Active(pathname, Menu[j]))
  {
    var conv, crm, agenda, settings := Menu[1].href, Menu[2].href, Menu[3].href, Menu[4].href;
    if i == 0 {
      ExactApart(pathname, Menu[j]);
    } else if i == 1 && j == 2 {
      PrefixesApart(pathname, conv, crm, 12);
    } else if i == 1 && j == 3 {
      PrefixesApart(pathname, conv, agenda, 11);
    } else if i == 1 && j == 4 {
      PrefixesApart(pathname, conv, settings, 11);
    } else if i == 2 && j == 3 {
      PrefixesApart(pathname, crm, agenda, 11);
    } else if i == 2 && j == 4 {
      PrefixesApart(pathname, crm, settings, 11);
    } else {
      PrefixesApart(pathname, agenda, settings, 11);
    }
  }

  /** The dashboard's home path highlights Visão Geral and nothing else. */
  lemma HomeActivatesOverviewOnly()
    ensures Active("/dashboard", Menu[0])
    ensures forall i :: 1 <= i < |Menu| ==> !Active("/dashboard", Menu[i])
  {
  }

  /** The prefix test is on characters, not path segments: `/dashboard/crmX` highlights Kanban. */
  lemma CharacterPrefix()
    ensures Active("/dashboard/crmX", Menu[2])
    ensures Active("/dashboard/crm/42", Menu[2])
    ensures !Active("/dashboard/crmX", Menu[0])
  {
    assert "/dashboard/crmX"[..14] == "/dashboard/crm";
    assert "/dashboard/crm/42"[..14] == "/dashboard/crm";
  }

  /** Only the WhatsApp entry shows a badge, whatever the path. */
  lemma OnlyWhatsAppBadge(pathname: string)
    ensures forall i :: 0 <= i < |Menu| ==> (Render(pathname)[i].badge.Some? <==> i == 1)
    ensures Render(pathname)[1].badge == Some("Hoje")
  {
  }
}

=== FILE: metrics.dfy ===
/**
 * The dashboard's metric kernels (`app/actions/dashboard.js`): ratios with a
 * zero guard, histograms with a default key, the escalation-reason
 * classifier, the name and operation formatters, and the daily history.
 *
 * Ratios are exact reals in percent; the source's rounding to one decimal
 * (`Math.round(x * 10) / 10`) is not modelled.
 */
module DashboardMetrics {
  import opened Base
  import opened Text
  import opened LocalTime
  import opened Tally
  import Seqs

  /** A row of `bot_interactions`, with the columns the kernels read. */
  datatype Interaction = Interaction(
    status: Option<string>,
    operationType: Option<string>,
    errorMessage: Option<string>,
    patientId: Option<string>,
    dentistName: Option<string>,
    appointmentCategory: Option<string>,
    createdAt: string)

  // ---------------------------------------------------------------------------
  // Ratios
  // ---------------------------------------------------------------------------

  /** `den > 0 ? num / den * 100 : 0`. */
  function Percent(num: int, den: int): (r: real)
    ensures den <= 0 ==> r == 0.0
    ensures den > 0 && 0 <= num <= den ==> 0.0 <= r <= 100.0
    ensures den > 0 ==> r * den as real == num as real * 100.0
  {
    if den > 0 then num as real / den as real * 100.0 else 0.0
  }

  predicate Succeeded(i: Interaction) { i.status == Some("success") }

  function SucceededOf(): Interaction -> bool { i => Succeeded(i) }

  /** The counts `getOperationalMetrics` reads; `None` is a failed or empty reply. */
  datatype OperationalInput = OperationalInput(
    createdToday: Option<nat>,
    createdYesterday: Option<nat>,
    todayRows: Option<seq<Interaction>>,
    cancelledToday: Option<nat>)

  datatype OperationalMetrics = OperationalMetrics(
    totalAppointments: nat,
    variation: real,
    confirmationRate: real,
    occupancyRate: real,
    cancellationRate: real)

  /** `getOperationalMetricsDirect`, from the counts its queries return. */
  function Operational(input: OperationalInput): (m: OperationalMetrics)
    ensures m.totalAppointments == input.createdToday.GetOr(0)
    ensures 0.0 <= m.confirmationRate <= 100.0
    ensures input.todayRows.None? || input.todayRows.value == [] ==> m.confirmationRate == 0.0
    ensures 0.0 <= m.cancellationRate <= 100.0
    ensures input.createdToday.GetOr(0) + input.cancelledToday.GetOr(0) == 0 ==> m.cancellationRate == 0.0
    ensures m.occupancyRate >= 0.0
    ensures input.createdYesterday.GetOr(0) == 0 ==> m.variation == 0.0
    ensures input.createdYesterday.GetOr(0) > 0 ==>
              (m.variation > 0.0 <==> input.createdToday.GetOr(0) > input.createdYesterday.GetOr(0))
    ensures m.confirmationRate
         == Percent(|Seqs.Filter(SucceededOf(), input.todayRows.GetOr([]))|, |input.todayRows.GetOr([])|)
    ensures m.occupancyRate * 20.0 == |Seqs.Filter(SucceededOf(), input.todayRows.GetOr([]))| as real * 100.0
    ensures m.variation
         == Percent(input.createdToday.GetOr(0) - input.createdYesterday.GetOr(0), input.createdYesterday.GetOr(0))
    ensures m.cancellationRate
         == Percent(input.cancelledToday.GetOr(0), input.createdToday.GetOr(0) + input.cancelledToday.GetOr(0))
  {
    var rows := input.todayRows.GetOr([]);
    var confirmed := |Seqs.Filter(SucceededOf(), rows)|;
    var today := input.createdToday.GetOr(0);
    var yesterday := input.createdYesterday.GetOr(0);
    var cancelled := input.cancelledToday.GetOr(0);
    OperationalMetrics(
      totalAppointments := today,
      variation := Percent(today - yesterday, yesterday),
      confirmationRate := Percent(confirmed, |rows|),
      occupancyRate := confirmed as real / 20.0 * 100.0,
      cancellationRate := Percent(cancelled, today + cancelled))
  }

  /**
   * Occupancy divides by a fixed capacity of 20 and is not capped: 21
   * confirmed appointments read as 105 percent.
   */
  lemma OccupancyCanExceedHundred()
    ensures var rows := seq(21, _ => Interaction(Some("success"), Some("create_calendar"), None, None, None, None, ""));
            Operational(OperationalInput(Some(21), Some(0), Some(rows), Some(0))).occupancyRate == 105.0
  {
    var rows := seq(21, _ => Interaction(Some("success"), Some("create_calendar"), None, None, None, None, ""));
    Seqs.FilterAll(SucceededOf(), rows);
  }

  /** The cancellation rate is cancellations over creations plus cancellations. */
  lemma CancellationRateShare(input: OperationalInput)
    requires input.createdToday.GetOr(0) + input.cancelledToday.GetOr(0) > 0
    ensures Operational(input).cancellationRate * (input.createdToday.GetOr(0) + input.cancelledToday.GetOr(0)) as real
         == input.cancelledToday.GetOr(0) as real * 100.0
  {
  }

  /** An interaction handled without a human (`automatizados`). */
  predicate Automated(i: Interaction) {
    Succeeded(i) && (!Truthy(i.errorMessage) || !Contains(Lower(i.errorMessage.value), "escalad"))
  }

  /** An interaction counted as a human escalation (`escalacoes`). */
  predicate Escalated(i: Interaction) {
    i.status == Some("error")
    || (Truthy(i.errorMessage)
        && (Contains(Lower(i.errorMessage.value), "escalad") || Contains(Lower(i.errorMessage.value), "humano")))
  }

  function AutomatedOf(): Interaction -> bool { i => Automated(i) }

  function EscalatedOf(): Interaction -> bool { i => Escalated(i) }

  datatype AIPerformance = AIPerformance(automationRate: real, escalations: nat)

  /** `getAIPerformanceMetrics` without its hard-coded placeholders. */
  function AIPerformanceOf(rows: Option<seq<Interaction>>): (m: AIPerformance)
    ensures 0.0 <= m.automationRate <= 100.0
    ensures rows.None? || rows.value == [] ==> m.automationRate == 0.0 && m.escalations == 0
    ensures rows.Some? ==> m.escalations <= |rows.value|
    ensures m.automationRate == Percent(|Seqs.Filter(AutomatedOf(), rows.GetOr([]))|, |rows.GetOr([])|)
    ensures m.escalations == |Seqs.Filter(EscalatedOf(), rows.GetOr([]))|
  {
    var data := rows.GetOr([]);
    var automated := |Seqs.Filter(AutomatedOf(), data)|;
    AIPerformance(Percent(automated, |data|), |Seqs.Filter(EscalatedOf(), data)|)
  }

  /**
   * The two counts overlap: a successful interaction whose message mentions
   * a human but not an escalation is both automated and escalated.
   */
  lemma AutomatedAndEscalatedOverlap()
    ensures var i := Interaction(Some("success"), None, Some("humano"), None, None, None, "");
            Automated(i) && Escalated(i)
  {
    var m := "humano";
    assert Lower(m) == m;
    assert Contains(m, "humano") by {
      assert StartsWith(m, "humano");
    }
    assert !Contains(m, "escalad") by {
      NoLongNeedle(m, "escalad");
    }
  }

  /** A needle longer than the text is never included in it. */
  lemma {:induction false} NoLongNeedle(s: string, t: string)
    requires |t| > |s|
    ensures !Contains(s, t)
    decreases |s|
  {
    if |s| > 0 {
      NoLongNeedle(s[1..], t);
    }
  }

  /** The legacy `getDashboardMetrics` summary. */
  datatype DailySummary = DailySummary(totalInteractions: nat, activeUsers: nat, successRate: real)

  /** The distinct truthy patient ids among `rows`. */
  function ActivePatients(rows: seq<Interaction>): (ids: set<string>)
    ensures forall id :: id in ids <==> exists i :: i in rows && i.patientId == Some(id) && id != ""
  {
    set i | i in rows && i.patientId.Some? && i.patientId.value != "" :: i.patientId.value
  }

  lemma {:induction false} ActivePatientsBound(rows: seq<Interaction>)
    ensures |ActivePatients(rows)| <= |rows|
  {
    if rows != [] {
      ActivePatientsBound(rows[1..]);
      var head := rows[0];
      assert rows == [head] + rows[1..];
      var extra: set<string> := if head.patientId.Some? && head.patientId.value != "" then {head.patientId.value} else {};
      assert ActivePatients(rows) <= ActivePatients(rows[1..]) + extra;
      SubsetCardinality(ActivePatients(rows), ActivePatients(rows[1..]) + extra);
    }
  }

  lemma SubsetCardinality(a: set<string>, b: set<string>)
    requires a <= b
    ensures |a| <= |b|
  {
    assert b == a + (b - a);
  }

  /** `getDashboardMetrics`, given the rows of today or `None` on a store error (`null`). */
  function DailySummaryOf(rows: Option<seq<Interaction>>): (r: Option<DailySummary>)
    ensures rows.None? <==> r.None?
    ensures r.Some? ==> r.value.totalInteractions == |rows.value|
    ensures r.Some? ==> r.value.activeUsers <= r.value.totalInteractions
    ensures r.Some? ==> 0.0 <= r.value.successRate <= 100.0
    ensures r.Some? ==> r.value.activeUsers == |ActivePatients(rows.value)|
    ensures r.Some? ==> r.value.successRate == Percent(|Seqs.Filter(SucceededOf(), rows.value)|, |rows.value|)
  {
    if rows.None? then None
    else
      var data := rows.value;
      ActivePatientsBound(data);
      Some(DailySummary(|data|, |ActivePatients(data)|, Percent(|Seqs.Filter(SucceededOf(), data)|, |data|)))
  }

  // ---------------------------------------------------------------------------
  // Histograms
  // ---------------------------------------------------------------------------

  const Unspecified := "Não especificado"

  /** `value || 'Não especificado'`. */
  function KeyOrDefault(value: Option<string>): (k: string)
    ensures k != ""
  {
    Or(value, Unspecified)
  }

  function DentistKey(i: Interaction): string { KeyOrDefault(i.dentistName) }

  function CategoryKey(i: Interaction): string { KeyOrDefault(i.appointmentCategory) }

  /**
   * `por_tratamento`: one entry per category (missing ones under
   * `Não especificado`), each with its number of rows, by descending total.
   */
  function TreatmentHistogram(rows: Option<seq<Interaction>>): (r: seq<Entry>)
    ensures Count(r) == |rows.GetOr([])|
    ensures forall i, j :: 0 <= i < j < |r| ==> r[i].total >= r[j].total
    ensures forall e :: e in r ==> e.key != "" && e.total == multiset(Seqs.Map(CategoryKey, rows.GetOr([])))[e.key]
    ensures forall i :: i in rows.GetOr([]) ==> exists e :: e in r && e.key == CategoryKey(i)
    ensures forall e :: e in r ==> e.total > 0
    ensures forall i, j :: 0 <= i < j < |r| ==> r[i].key != r[j].key
  {
    var data := rows.GetOr([]);
    var r := Histogram(Seqs.Map(CategoryKey, data));
    CategoryEntries(data, r);
    r
  }

  /** Entries drawn from the category keys of `data` cover every row's category. */
  lemma CategoryEntries(data: seq<Interaction>, r: seq<Entry>)
    requires forall e :: e in r ==> e.key in Seqs.Map(CategoryKey, data)
    requires forall k :: k in Seqs.Map(CategoryKey, data) ==> exists e :: e in r && e.key == k
    ensures forall e :: e in r ==> e.key != ""
    ensures forall i :: i in data ==> exists e :: e in r && e.key == CategoryKey(i)
  {
    var keys := Seqs.Map(CategoryKey, data);
    forall e | e in r ensures e.key != "" {
      var n :| 0 <= n < |keys| && keys[n] == e.key;
    }
    forall i | i in data ensures exists e :: e in r && e.key == CategoryKey(i) {
      var n :| 0 <= n < |data| && data[n] == i;
      assert keys[n] in keys;
    }
  }

  /**
   * `formatProfessionalName`: the three known ids, in any letter case, get
   * their titles; any other id is returned as it is, and a missing or empty
   * one becomes `Não especificado`.
   */
  function FormatProfessionalName(id: Option<string>): (name: string)
    ensures id.Some? && Lower(id.value) == "silvana" ==> name == "Dra. Silvana"
    ensures id.Some? && Lower(id.value) == "petrus" ==> name == "Dr. Petrus"
    ensures id.Some? && Lower(id.value) == "elder" ==> name == "Dr. Elder"
    ensures id.Some? && Lower(id.value) !in {"silvana", "petrus", "elder"} ==> name == Or(id, Unspecified)
    ensures id.None? ==> name == Unspecified
  {
    if id.None? then Unspecified
    else
      var lower := Lower(id.value);
      if lower == "silvana" then "Dra. Silvana"
      else if lower == "petrus" then "Dr. Petrus"
      else if lower == "elder" then "Dr. Elder"
      else Or(id, Unspecified)
  }

  function FormatEntryName(e: Entry): Entry {
    e.(key := FormatProfessionalName(Some(e.key)))
  }

  /**
   * `por_profissional`: the dentist histogram with each key formatted. The
   * formatting happens after the grouping, so ids that differ only in case
   * stay separate entries under the same display name.
   */
  function ProfessionalHistogram(rows: Option<seq<Interaction>>): (r: seq<Entry>)
    ensures Count(r) == |rows.GetOr([])|
    ensures forall i, j :: 0 <= i < j < |r| ==> r[i].total >= r[j].total
    ensures forall e :: e in r ==>
              (exists k :: (k in Seqs.Map(DentistKey, rows.GetOr([])) && e.key == FormatProfessionalName(Some(k))
                            && e.total == multiset(Seqs.Map(DentistKey, rows.GetOr([])))[k]))
    ensures forall k :: k in Seqs.Map(DentistKey, rows.GetOr([])) ==>
              Entry(FormatProfessionalName(Some(k)), multiset(Seqs.Map(DentistKey, rows.GetOr([])))[k]) in r
    ensures |r| == |set k | k in Seqs.Map(DentistKey, rows.GetOr([]))|
    ensures forall e :: e in r ==> e.total > 0
    ensures multiset(r) == multiset(Seqs.Map(FormatEntryName, Histogram(Seqs.Map(DentistKey, rows.GetOr([])))))
  {
    var keys := Seqs.Map(DentistKey, rows.GetOr([]));
    var es := Histogram(keys);
    var r := ByTotalDescending(Renamed(es));
    ProfessionalEntries(keys, es, r);
    r
  }

  /** The renamed tally of `keys`, in any order, as seen through the raw keys. */
  lemma ProfessionalEntries(keys: seq<string>, es: seq<Entry>, r: seq<Entry>)
    requires forall e :: e in es ==> e.key in keys && e.total == multiset(keys)[e.key]
    requires forall k :: k in keys ==> exists e :: e in es && e.key == k
    requires forall e :: e in es ==> e.total > 0
    requires multiset(r) == multiset(Renamed(es))
    ensures forall e :: e in r ==>
              exists k :: k in keys && e.key == FormatProfessionalName(Some(k)) && e.total == multiset(keys)[k]
    ensures forall k :: k in keys ==> Entry(FormatProfessionalName(Some(k)), multiset(keys)[k]) in r
    ensures forall e :: e in r ==> e.total > 0
  {
    var rn := Renamed(es);
    forall k | k in keys ensures Entry(FormatProfessionalName(Some(k)), multiset(keys)[k]) in r {
      var source :| source in es && source.key == k;
      var n :| 0 <= n < |es| && es[n] == source;
      assert rn[n] == FormatEntryName(source);
      assert FormatEntryName(source) in multiset(rn);
    }
    forall e | e in r
      ensures e.total > 0
      ensures exists k :: k in keys && e.key == FormatProfessionalName(Some(k)) && e.total == multiset(keys)[k]
    {
      assert e in multiset(rn);
      var source: Entry :| source in es && e == FormatEntryName(source);
    }
  }

  /** The entries with their keys formatted as professional names. */
  function Renamed(es: seq<Entry>): (r: seq<Entry>)
    ensures Count(r) == Count(es)
    ensures |r| == |es|
    ensures forall n :: 0 <= n < |es| ==> r[n] == FormatEntryName(es[n])
    ensures forall e :: e in r ==> exists source :: source in es && e == FormatEntryName(source)
  {
    SumMapKeys(es);
    Seqs.Map(FormatEntryName, es)
  }

  /** Renaming entries keeps their totals. */
  lemma {:induction false} SumMapKeys(es: seq<Entry>)
    ensures Count(Seqs.Map(FormatEntryName, es)) == Count(es)
  {
    if es != [] {
      SumMapKeys(es[1..]);
      assert Seqs.Map(FormatEntryName, es)[1..] == Seqs.Map(FormatEntryName, es[1..]);
    }
  }

  /**
   * Two raw dentist keys that share a display name stay two entries: with
   * equal counts the same entry is listed twice.
   */
  lemma CaseVariantsListedTwice(rows: seq<Interaction>, k1: string, k2: string)
    requires k1 in Seqs.Map(DentistKey, rows) && k2 in Seqs.Map(DentistKey, rows) && k1 != k2
    requires FormatProfessionalName(Some(k1)) == FormatProfessionalName(Some(k2))
    requires multiset(Seqs.Map(DentistKey, rows))[k1] == multiset(Seqs.Map(DentistKey, rows))[k2]
    ensures multiset(ProfessionalHistogram(Some(rows)))[Entry(FormatProfessionalName(Some(k1)), multiset(Seqs.Map(DentistKey, rows))[k1])] >= 2
  {
    var keys := Seqs.Map(DentistKey, rows);
    var es := Histogram(keys);
    var named := Seqs.Map(FormatEntryName, es);
    var x := Entry(FormatProfessionalName(Some(k1)), multiset(keys)[k1]);
    var e1 :| e1 in es && e1.key == k1;
    var e2 :| e2 in es && e2.key == k2;
    var i :| 0 <= i < |es| && es[i] == e1;
    var j :| 0 <= j < |es| && es[j] == e2;
    assert named[i] == x && named[j] == x;
    if i < j {
      TwiceCounted(named, i, j);
    } else {
      TwiceCounted(named, j, i);
    }
  }

  /** `ELDER` and `elder` are tallied apart and both shown as `Dr. Elder`. */
  lemma CaseVariantsShareDisplayName()
    ensures FormatProfessionalName(Some("ELDER")) == FormatProfessionalName(Some("elder")) == "Dr. Elder"
  {
    assert Lower("ELDER") == "elder";
    assert Lower("elder") == "elder";
  }

  // ---------------------------------------------------------------------------
  // Escalation reasons
  // ---------------------------------------------------------------------------

  datatype Reason = Complex | ElderPatient | SpecialHours | Emergency | Other

  function ReasonName(r: Reason): string {
    match r
    case Complex => "Caso complexo"
    case ElderPatient => "Paciente Dr. Elder"
    case SpecialHours => "Horário especial"
    case Emergency => "Emergência"
    case Other => "Outros"
  }

  /**
   * The reason of one escalation: the first of the tests, in order, that
   * the lower-cased message passes; a missing message reads as empty.
   */
  function Classify(message: Option<string>): (r: Reason)
    ensures var m := if Truthy(message) then Lower(message.value) else "";
      && (r == Complex <==> Contains(m, "complexo"))
      && (r == ElderPatient <==> !Contains(m, "complexo") && Contains(m, "elder"))
      && (r == SpecialHours <==>
            (!Contains(m, "complexo") && !Contains(m, "elder") && (Contains(m, "horário") || Contains(m, "especial"))))
      && (r == Emergency <==>
            (!Contains(m, "complexo") && !Contains(m, "elder") && !Contains(m, "horário") && !Contains(m, "especial")
             && (Contains(m, "emergência") || Contains(m, "urgente"))))
  {
    var m := if Truthy(message) then Lower(message.value) else "";
    if Contains(m, "complexo") then Complex
    else if Contains(m, "elder") then ElderPatient
    else if Contains(m, "horário") || Contains(m, "especial") then SpecialHours
    else if Contains(m, "emergência") || Contains(m, "urgente") then Emergency
    else Other
  }

  /** The number of messages classified under `r`. */
  function ReasonCount(messages: seq<Option<string>>, r: Reason): nat {
    if messages == [] then 0
    else (if Classify(messages[0]) == r then 1 else 0) + ReasonCount(messages[1..], r)
  }

  /** Every message lands in exactly one bucket, so the buckets add up to the messages. */
  lemma {:induction false} ReasonCountsAddUp(messages: seq<Option<string>>)
    ensures ReasonCount(messages, Complex) + ReasonCount(messages, ElderPatient) + ReasonCount(messages, SpecialHours)
          + ReasonCount(messages, Emergency) + ReasonCount(messages, Other) == |messages|
  {
    if messages != [] {
      ReasonCountsAddUp(messages[1..]);
    }
  }

  function ReasonEntry(messages: seq<Option<string>>, r: Reason): Entry {
    Entry(ReasonName(r), ReasonCount(messages, r))
  }

  lemma CountFive(a: Entry, b: Entry, c: Entry, d: Entry, e: Entry)
    ensures Count([a, b, c, d, e]) == a.total + b.total + c.total + d.total + e.total
  {
    CountCons(a, [b, c, d, e]);
    CountCons(b, [c, d, e]);
    CountCons(c, [d, e]);
    CountCons(d, [e]);
    CountCons(e, []);
    assert [a] + [b, c, d, e] == [a, b, c, d, e];
    assert [b] + [c, d, e] == [b, c, d, e];
    assert [c] + [d, e] == [c, d, e];
    assert [d] + [e] == [d, e];
    assert [e] + [] == [e];
  }

  lemma CountCons(e: Entry, rest: seq<Entry>)
    ensures Count([e] + rest) == e.total + Count(rest)
  {
    assert ([e] + rest)[1..] == rest;
  }

  lemma ReasonListed(messages: seq<Option<string>>, reason: Reason, es: seq<Entry>)
    requires es == [ReasonEntry(messages, Complex), ReasonEntry(messages, ElderPatient), ReasonEntry(messages, SpecialHours),
                    ReasonEntry(messages, Emergency), ReasonEntry(messages, Other)]
    ensures ReasonEntry(messages, reason) in multiset(es)
  {
    match reason
    case Complex => assert es[0] == ReasonEntry(messages, reason);
    case ElderPatient => assert es[1] == ReasonEntry(messages, reason);
    case SpecialHours => assert es[2] == ReasonEntry(messages, reason);
    case Emergency => assert es[3] == ReasonEntry(messages, reason);
    case Other => assert es[4] == ReasonEntry(messages, reason);
  }

  /** The five buckets in the order the source lists them. */
  function Buckets(messages: seq<Option<string>>): (es: seq<Entry>)
    ensures |es| == 5
    ensures Count(es) == |messages|
  {
    var es := [ReasonEntry(messages, Complex), ReasonEntry(messages, ElderPatient), ReasonEntry(messages, SpecialHours),
               ReasonEntry(messages, Emergency), ReasonEntry(messages, Other)];
    ReasonCountsAddUp(messages);
    CountFive(es[0], es[1], es[2], es[3], es[4]);
    es
  }

  /**
   * `motivos_escalacao`: the five buckets, by descending total; their totals
   * add up to the number of escalations.
   */
  function EscalationReasons(messages: seq<Option<string>>): (r: seq<Entry>)
    ensures |r| == 5
    ensures Count(r) == |messages|
    ensures forall i, j :: 0 <= i < j < |r| ==> r[i].total >= r[j].total
    ensures multiset(r) == multiset(Buckets(messages))
  {
    var es := Buckets(messages);
    SortedBuckets(es, |messages|);
    ByTotalDescending(es)
  }

  lemma SortedBuckets(es: seq<Entry>, n: nat)
    requires |es| == 5 && Count(es) == n
    ensures var r := ByTotalDescending(es);
            |r| == 5 && Count(r) == n && multiset(r) == multiset(es)
            && forall i, j :: 0 <= i < j < |r| ==> r[i].total >= r[j].total
  {
  }

  /** Every reason has its bucket, holding the number of messages classified under it. */
  lemma EveryReasonListed(messages: seq<Option<string>>, reason: Reason)
    ensures ReasonEntry(messages, reason) in EscalationReasons(messages)
  {
    var es := Buckets(messages);
    ReasonListed(messages, reason, es);
    assert ReasonEntry(messages, reason) in multiset(EscalationReasons(messages));
  }

  // ---------------------------------------------------------------------------
  // Formatting operation types
  // ---------------------------------------------------------------------------

  /** `word.charAt(0).toUpperCase() + word.slice(1)`. */
  function Capitalize(w: string): (r: string)
    ensures |r| == |w|
    ensures |w| > 0 ==> r[0] == UpperChar(w[0]) && r[1..] == w[1..]
  {
    if w == [] then [] else [UpperChar(w[0])] + w[1..]
  }

  function Words(t: string): string {
    Join(Seqs.Map(Capitalize, Split(t, '_')), " ")
  }

  /** `formatOperationType`. */
  function FormatOperationType(t: Option<string>): (r: string)
    ensures !Truthy(t) ==> r == "Interação Genérica"
    ensures Truthy(t) ==> |r| == |t.value|
  {
    if !Truthy(t) then "Interação Genérica"
    else
      WordsPointwise(t.value);
      Words(t.value)
  }

  /**
   * What `formatOperationType` makes of the character at `i`: an underscore
   * becomes a space, a character opening a word is upper-cased, the rest
   * are kept.
   */
  function FormattedChar(t: string, i: nat): char
    requires i < |t|
  {
    if t[i] == '_' then ' '
    else if i == 0 || t[i - 1] == '_' then UpperChar(t[i])
    else t[i]
  }

  /** The formatted text is the input with each character rewritten on its own. */
  lemma {:induction false} WordsPointwise(t: string)
    ensures |Words(t)| == |t|
    ensures forall i :: 0 <= i < |t| ==> Words(t)[i] == FormattedChar(t, i)
    decreases |t|
  {
    var head := BeforeFirst(t, '_');
    if |head| == |t| {
      assert head == t;
      WordsOneWord(t);
      forall i | 0 <= i < |t| ensures Words(t)[i] == FormattedChar(t, i) {
        CapitalizeAt(t, i);
        if i > 0 {
          assert t[i - 1] != '_';
        }
      }
    } else {
      var rest := t[|head| + 1..];
      assert t == head + ['_'] + rest by {
        assert t[..|head|] == head;
      }
      WordsPointwise(rest);
      WordsFirstWord(t, head, rest);
      forall i | 0 <= i < |t| ensures Words(t)[i] == FormattedChar(t, i) {
        if i < |head| {
          CapitalizeAt(head, i);
          assert t[i] == head[i];
          if i > 0 {
            assert t[i - 1] == head[i - 1];
          }
        } else if i > |head| {
          var j := i - |head| - 1;
          assert Words(t)[i] == Words(rest)[j];
          assert t[i] == rest[j];
          if j > 0 {
            assert t[i - 1] == rest[j - 1];
          }
        }
      }
    }
  }

  lemma CapitalizeAt(w: string, i: int)
    requires 0 <= i < |w|
    ensures Capitalize(w)[i] == if i == 0 then UpperChar(w[0]) else w[i]
  {
    if i > 0 {
      assert Capitalize(w)[i] == Capitalize(w)[1..][i - 1];
    }
  }

  /** A text without underscores is one word. */
  lemma WordsOneWord(t: string)
    requires BeforeFirst(t, '_') == t
    ensures Words(t) == Capitalize(t)
  {
    assert Split(t, '_') == [t];
    assert Seqs.Map(Capitalize, [t]) == [Capitalize(t)];
  }

  /** The first word, a space, then the words of the rest. */
  lemma WordsFirstWord(t: string, head: string, rest: string)
    requires head == BeforeFirst(t, '_') && |head| < |t| && rest == t[|head| + 1..]
    ensures Words(t) == Capitalize(head) + " " + Words(rest)
  {
    var parts := Split(rest, '_');
    assert Split(t, '_') == [head] + parts;
    var tail := Seqs.Map(Capitalize, parts);
    Seqs.MapCons(Capitalize, head, parts);
    JoinCons(Capitalize(head), tail, " ");
  }

  lemma JoinCons(x: string, xs: seq<string>, sep: string)
    requires |xs| >= 1
    ensures Join([x] + xs, sep) == x + sep + Join(xs, sep)
  {
    assert ([x] + xs)[1..] == xs;
  }

  // ---------------------------------------------------------------------------
  // Daily history
  // ---------------------------------------------------------------------------

  /** The day text of a row: its `created_at` before the `T`. */
  function DayKey(i: Interaction): string {
    BeforeFirst(i.createdAt, 'T')
  }

  /** The sort key of a day text; unreadable texts all get the same key. */
  function DayOrder(e: Entry): int {
    match ParseDate(e.key)
    case Some(d) => DayNumber(d)
    case None => 0
  }

  datatype HistoryPoint = HistoryPoint(date: string, totalInteractions: nat, activeUsers: nat)

  function ToPoint(e: Entry): HistoryPoint {
    HistoryPoint(e.key, e.total, 0)
  }

  /**
   * `getMetricsHistory`: one point per day text, with the number of rows of
   * that day and no active-user count, by ascending date; `[]` on a store
   * error.
   */
  function History(rows: Option<seq<Interaction>>): (r: seq<HistoryPoint>)
    ensures rows.None? ==> r == []
    ensures Seqs.Sum(r, (p: HistoryPoint) => p.totalInteractions as int) == |rows.GetOr([])|
    ensures forall p :: p in r ==> p.activeUsers == 0 && p.totalInteractions > 0
    ensures forall p :: p in r ==> p.totalInteractions == multiset(Seqs.Map(DayKey, rows.GetOr([])))[p.date]
    ensures forall i, j :: 0 <= i < j < |r| && ParseDate(r[i].date).Some? && ParseDate(r[j].date).Some?
              ==> DayNumber(ParseDate(r[i].date).value) <= DayNumber(ParseDate(r[j].date).value)
    ensures forall i :: i in rows.GetOr([]) ==> exists p :: p in r && p.date == DayKey(i)
    ensures forall a, b :: 0 <= a < b < |r| ==> r[a].date != r[b].date
  {
    if rows.None? then []
    else
      var keys := Seqs.Map(DayKey, rows.value);
      var es := Tally.Tally(keys);
      var sorted := Seqs.SortBy(es, DayOrder);
      Seqs.SumPermutation(sorted, es, TotalOf);
      var r := Seqs.Map(ToPoint, sorted);
      HistorySum(sorted);
      forall p | p in r ensures p.activeUsers == 0 && p.totalInteractions > 0 && p.totalInteractions == multiset(keys)[p.date] {
        var n :| 0 <= n < |r| && r[n] == p;
        assert sorted[n] in multiset(es);
        EntryTotal(keys, sorted[n]);
      }
      forall i, j | 0 <= i < j < |r| && ParseDate(r[i].date).Some? && ParseDate(r[j].date).Some?
        ensures DayNumber(ParseDate(r[i].date).value) <= DayNumber(ParseDate(r[j].date).value)
      {
        assert DayOrder(sorted[i]) <= DayOrder(sorted[j]);
      }
      HistoryDistinct(es, sorted);
      HistoryCovers(rows.value, es, sorted);
      r
  }

  /** Reordered entries with distinct keys give points with distinct dates. */
  lemma HistoryDistinct(es: seq<Entry>, sorted: seq<Entry>)
    requires DistinctKeys(es) && multiset(sorted) == multiset(es)
    ensures var r := Seqs.Map(ToPoint, sorted); forall a, b :: 0 <= a < b < |r| ==> r[a].date != r[b].date
  {
    PermutedDistinct(es, sorted);
  }

  /** Reordered entries for every day key give a point for every row's day. */
  lemma HistoryCovers(data: seq<Interaction>, es: seq<Entry>, sorted: seq<Entry>)
    requires Keys(es) == set k | k in Seqs.Map(DayKey, data)
    requires multiset(sorted) == multiset(es)
    ensures var r := Seqs.Map(ToPoint, sorted); forall i :: i in data ==> exists p :: p in r && p.date == DayKey(i)
  {
    var keys := Seqs.Map(DayKey, data);
    var r := Seqs.Map(ToPoint, sorted);
    forall i | i in data ensures exists p :: p in r && p.date == DayKey(i) {
      var n :| 0 <= n < |data| && data[n] == i;
      assert keys[n] == DayKey(i);
      assert DayKey(i) in Keys(es);
      var e :| e in es && e.key == DayKey(i);
      assert e in multiset(sorted);
      var m :| 0 <= m < |sorted| && sorted[m] == e;
      assert r[m] == ToPoint(e);
    }
  }

  lemma {:induction false} HistorySum(es: seq<Entry>)
    ensures Seqs.Sum(Seqs.Map(ToPoint, es), (p: HistoryPoint) => p.totalInteractions as int) == Count(es)
  {
    if es != [] {
      HistorySum(es[1..]);
      assert Seqs.Map(ToPoint, es)[1..] == Seqs.Map(ToPoint, es[1..]);
    }
  }
}

=== FILE: mirror.dfy ===
/**
 * The server actions over the dashboard's own appointment table
 * (`crm_appointments`). The table is a sequence of rows; each action takes
 * the store's outcome (`fault`) and returns the table it leaves behind.
 */
module Mirror {
  import opened Base
  import opened LocalTime
  import Seqs
  import Patients

  /** A row of `crm_appointments`; `None` is SQL `NULL`. */
  datatype Row = Row(
    id: nat,
    patientId: Option<nat>,
    title: Option<string>,
    startTime: Option<Instant>,
    endTime: Option<Instant>,
    notes: Option<string>)

  /**
   * An appointment as `getAppointments` reads it: the row's columns and the
   * patient joined from `cache_pacientes` by `patient_id` at read time.
   */
  datatype Appointment = Appointment(
    id: nat,
    patientId: Option<nat>,
    title: Option<string>,
    startTime: Option<Instant>,
    endTime: Option<Instant>,
    notes: Option<string>,
    patient: Option<Patients.PatientRef>)

  /** `select('*, patient:cache_pacientes(nome, telefone)')` for one row. */
  function Joined(cache: seq<Patients.Contact>, row: Row): Appointment {
    Appointment(row.id, row.patientId, row.title, row.startTime, row.endTime, row.notes,
                Patients.JoinPatient(cache, row.patientId))
  }

  function JoinedOf(cache: seq<Patients.Contact>): Row -> Appointment {
    row => Joined(cache, row)
  }

  // ---------------------------------------------------------------------------
  // getAppointments
  // ---------------------------------------------------------------------------

  /**
   * The range filter: `.gte('start_time', start)` and `.lte('end_time', end)`,
   * each applied only when its bound is given. A comparison with `NULL` is
   * never true, so a row without the compared time fails a given bound.
   */
  predicate InRange(row: Appointment, start: Option<Instant>, end: Option<Instant>) {
    (start.None? || (row.startTime.Some? && row.startTime.value >= start.value))
    && (end.None? || (row.endTime.Some? && row.endTime.value <= end.value))
  }

  function InRangeOf(start: Option<Instant>, end: Option<Instant>): Appointment -> bool {
    row => InRange(row, start, end)
  }

  function HasStart(row: Appointment): bool { row.startTime.Some? }

  function LacksStart(row: Appointment): bool { row.startTime.None? }

  function StartKey(row: Appointment): int { if row.startTime.Some? then row.startTime.value else 0 }

  /** Appointments with a start, by ascending start, and then those without one. */
  ghost predicate StartOrdered(r: seq<Appointment>) {
    (forall i, j :: 0 <= i < j < |r| && r[i].startTime.Some? && r[j].startTime.Some?
       ==> r[i].startTime.value <= r[j].startTime.value)
    && (forall i, j :: 0 <= i < j < |r| && r[i].startTime.None? ==> r[j].startTime.None?)
  }

  /**
   * `ORDER BY start_time ASC`: rows with a start by ascending start, then the
   * rows whose start is `NULL` (PostgreSQL puts nulls last in ascending
   * order). The store does not order ties; this picks one such order.
   */
  function OrderByStart(rows: seq<Appointment>): (r: seq<Appointment>)
    ensures multiset(r) == multiset(rows)
    ensures StartOrdered(r)
  {
    var dated := Seqs.Filter(HasStart, rows);
    var undated := Seqs.Filter(LacksStart, rows);
    var sorted := Seqs.SortBy(dated, StartKey);
    Seqs.FilterComplement(HasStart, LacksStart, rows);
    assert forall x :: x in multiset(sorted) ==> x.startTime.Some? by {
      forall x | x in multiset(sorted) ensures x.startTime.Some? {
        assert x in multiset(dated);
        assert x in dated;
      }
    }
    SortedThenUndated(sorted, undated);
    assert multiset(sorted + undated) == multiset(sorted) + multiset(undated);
    sorted + undated
  }

  lemma SortedThenUndated(sorted: seq<Appointment>, undated: seq<Appointment>)
    requires Seqs.SortedBy(sorted, StartKey)
    requires forall x :: x in multiset(sorted) ==> x.startTime.Some?
    requires forall x :: x in undated ==> x.startTime.None?
    ensures StartOrdered(sorted + undated)
  {
    var r := sorted + undated;
    forall k | 0 <= k < |sorted| ensures r[k].startTime.Some? {
      assert sorted[k] in multiset(sorted);
    }
    forall k | |sorted| <= k < |r| ensures r[k].startTime.None? {
      assert r[k] == undated[k - |sorted|];
    }
    forall i, j | 0 <= i < j < |r| && r[i].startTime.Some? && r[j].startTime.Some?
      ensures r[i].startTime.value <= r[j].startTime.value
    {
      assert StartKey(sorted[i]) <= StartKey(sorted[j]);
    }
  }

  /**
   * `getAppointments(start, end)`: on success, the rows in range, each once
   * and each with the patient its `patient_id` names in `cache` now,
   * ordered by start with undated rows last; on a store error, its message.
   */
  function GetAppointments(
    table: seq<Row>, cache: seq<Patients.Contact>, start: Option<Instant>, end: Option<Instant>, fault: Fault
  ): (r: Reply<seq<Appointment>>)
    ensures fault.Some? <==> r.Failed?
    ensures fault.Some? ==> r.message == fault.value
    ensures r.Ok? ==> multiset(r.value) == multiset(Seqs.Filter(InRangeOf(start, end), Seqs.Map(JoinedOf(cache), table)))
    ensures r.Ok? ==> forall a :: a in r.value <==> a in Seqs.Map(JoinedOf(cache), table) && InRange(a, start, end)
    ensures r.Ok? ==> forall a :: a in r.value ==> a.patient == Patients.JoinPatient(cache, a.patientId)
    ensures r.Ok? ==> StartOrdered(r.value)
  {
    if fault.Some? then Failed(fault.value)
    else
      var joined := Seqs.Map(JoinedOf(cache), table);
      var selected := Seqs.Filter(InRangeOf(start, end), joined);
      var ordered := OrderByStart(selected);
      assert forall row :: row in ordered <==> row in selected by {
        forall row ensures row in ordered <==> row in selected {
          assert row in ordered <==> row in multiset(ordered);
          assert row in selected <==> row in multiset(selected);
        }
      }
      assert forall a :: a in joined ==> a.patient == Patients.JoinPatient(cache, a.patientId);
      Ok(ordered)
  }

  /** Without bounds every row of the table is returned. */
  lemma NoBoundsReturnsAll(table: seq<Row>, cache: seq<Patients.Contact>)
    ensures GetAppointments(table, cache, None, None, None).Ok?
    ensures multiset(GetAppointments(table, cache, None, None, None).value) == multiset(Seqs.Map(JoinedOf(cache), table))
  {
    Seqs.FilterAll(InRangeOf(None, None), Seqs.Map(JoinedOf(cache), table));
  }

  /**
   * The upper bound is compared with the end, not the start: a row that
   * starts before the bound but ends after it is not returned.
   */
  lemma EndBoundTestsEndTime(table: seq<Row>, cache: seq<Patients.Contact>, row: Row, end: Instant)
    requires row in table
    requires row.startTime.Some? && row.startTime.value <= end
    requires row.endTime.Some? && row.endTime.value > end
    ensures Joined(cache, row) !in GetAppointments(table, cache, None, Some(end), None).value
  {
  }

  /** The row read back: its columns and the joined patient. */
  lemma JoinedRow(cache: seq<Patients.Contact>, row: Row, table: seq<Row>)
    requires row in table
    ensures Joined(cache, row) in Seqs.Map(JoinedOf(cache), table)
  {
    var i :| 0 <= i < |table| && table[i] == row;
    assert Seqs.Map(JoinedOf(cache), table)[i] == Joined(cache, row);
  }

  // ---------------------------------------------------------------------------
  // createAppointment / updateAppointment / deleteAppointment
  // ---------------------------------------------------------------------------

  /** The fields `createAppointment` receives. */
  datatype NewAppointment = NewAppointment(
    patientId: Option<nat>,
    title: Option<string>,
    startTime: Option<Instant>,
    endTime: Option<Instant>,
    notes: Option<string>)

  predicate FreshId(table: seq<Row>, id: nat) {
    forall row :: row in table ==> row.id != id
  }

  /**
   * `createAppointment`: inserts one row holding the given fields as they
   * are, under the id the store assigns (`newId`), and returns it.
   */
  function Create(table: seq<Row>, fields: NewAppointment, newId: nat, fault: Fault): (r: Reply<(seq<Row>, Row)>)
    requires FreshId(table, newId)
    ensures fault.Some? <==> r.Failed?
    ensures fault.Some? ==> r.message == fault.value
    ensures r.Ok? ==> r.value.0 == table + [r.value.1]
    ensures r.Ok? ==> (r.value.1.id == newId && r.value.1.patientId == fields.patientId
                       && r.value.1.title == fields.title && r.value.1.startTime == fields.startTime
                       && r.value.1.endTime == fields.endTime && r.value.1.notes == fields.notes)
    ensures r.Ok? ==> forall row :: row in r.value.0 && row.id == newId ==> row == r.value.1
  {
    if fault.Some? then Failed(fault.value)
    else
      var row := Row(newId, fields.patientId, fields.title, fields.startTime, fields.endTime, fields.notes);
      Ok((table + [row], row))
  }

  /**
   * The columns an `updates` object names. `Some(v)` sets the column to `v`
   * (which may itself be `NULL`); `None` leaves it alone.
   */
  datatype Patch = Patch(
    patientId: Option<Option<nat>>,
    title: Option<Option<string>>,
    startTime: Option<Option<Instant>>,
    endTime: Option<Option<Instant>>,
    notes: Option<Option<string>>)

  const EmptyPatch := Patch(None, None, None, None, None)

  function Apply(row: Row, p: Patch): (r: Row)
    ensures r.id == row.id
  {
    row.(patientId := p.patientId.GetOr(row.patientId),
         title := p.title.GetOr(row.title),
         startTime := p.startTime.GetOr(row.startTime),
         endTime := p.endTime.GetOr(row.endTime),
         notes := p.notes.GetOr(row.notes))
  }

  /** `updateAppointment(id, updates)`: the rows with `id` get the patch, the others stay. */
  function Update(table: seq<Row>, id: nat, p: Patch, fault: Fault): (r: Reply<seq<Row>>)
    ensures fault.Some? <==> r.Failed?
    ensures fault.Some? ==> r.message == fault.value
    ensures r.Ok? ==> |r.value| == |table|
    ensures r.Ok? ==> forall i :: 0 <= i < |table| && table[i].id != id ==> r.value[i] == table[i]
    ensures r.Ok? ==> forall i :: 0 <= i < |table| && table[i].id == id ==> r.value[i] == Apply(table[i], p)
  {
    if fault.Some? then Failed(fault.value)
    else Ok(Seqs.Map((row: Row) => if row.id == id then Apply(row, p) else row, table))
  }

  /**
   * The patient is looked up when the appointment is read, not stored with
   * it: an appointment created for a cache patient is read back with that
   * patient's name and phone.
   */
  lemma CreatedAppointmentShowsPatient(
    table: seq<Row>, cache: seq<Patients.Contact>, fields: NewAppointment, newId: nat, c: Patients.Contact)
    requires FreshId(table, newId)
    requires Patients.UniqueIds(cache) && c in cache && fields.patientId == Some(c.id)
    ensures exists a :: a in GetAppointments(Create(table, fields, newId, None).value.0, cache, None, None, None).value
                        && a.id == newId && a.patient == Some(Patients.PatientRef(c.nome, c.telefone))
  {
    var (table', row) := Create(table, fields, newId, None).value;
    assert row in table';
    JoinedRow(cache, row, table');
    Patients.JoinFindsPatient(cache, c);
    assert Joined(cache, row) in GetAppointments(table', cache, None, None, None).value;
  }

  /** Re-pointing `patient_id` changes the patient the next read shows. */
  lemma UpdatedPatientIsRejoined(
    table: seq<Row>, cache: seq<Patients.Contact>, id: nat, p: Patch, c: Patients.Contact, row: Row)
    requires Patients.UniqueIds(cache) && c in cache && p.patientId == Some(Some(c.id))
    requires row in table && row.id == id
    ensures exists a :: a in GetAppointments(Update(table, id, p, None).value, cache, None, None, None).value
                        && a.id == id && a.patient == Some(Patients.PatientRef(c.nome, c.telefone))
  {
    var table' := Update(table, id, p, None).value;
    var i :| 0 <= i < |table| && table[i] == row;
    var moved := table'[i];
    assert moved == Apply(row, p) && moved.patientId == Some(c.id);
    assert moved in table';
    JoinedRow(cache, moved, table');
    Patients.JoinFindsPatient(cache, c);
    assert Joined(cache, moved) in GetAppointments(table', cache, None, None, None).value;
  }

  /** An update that names no column leaves the table as it was. */
  lemma EmptyPatchKeepsTable(table: seq<Row>, id: nat)
    ensures Update(table, id, EmptyPatch, None) == Ok(table)
  {
    var r := Update(table, id, EmptyPatch, None).value;
    forall i | 0 <= i < |table| ensures r[i] == table[i] {
      assert Apply(table[i], EmptyPatch) == table[i];
    }
    assert r == table;
  }

  function OtherThan(id: nat): Row -> bool {
    (row: Row) => row.id != id
  }

  /** `deleteAppointment(id)`: the rows with `id` go, the others stay in order. */
  function Delete(table: seq<Row>, id: nat, fault: Fault): (r: Reply<seq<Row>>)
    ensures fault.Some? <==> r.Failed?
    ensures fault.Some? ==> r.message == fault.value
    ensures r.Ok? ==> forall row :: row in r.value <==> row in table && row.id != id
    ensures r.Ok? ==> Seqs.IsSubsequence(r.value, table)
    ensures r.Ok? ==> forall row :: multiset(r.value)[row] == if row.id != id then multiset(table)[row] else 0
  {
    if fault.Some? then Failed(fault.value)
    else
      var kept := Seqs.Filter(OtherThan(id), table);
      forall row ensures multiset(kept)[row] == if row.id != id then multiset(table)[row] else 0 {
        Seqs.FilterMultiset(OtherThan(id), table, row);
      }
      Ok(kept)
  }

  /** Deleting right after creating gives back the table it started from. */
  lemma DeleteUndoesCreate(table: seq<Row>, fields: NewAppointment, newId: nat)
    requires FreshId(table, newId)
    ensures Delete(Create(table, fields, newId, None).value.0, newId, None) == Ok(table)
  {
    var f := OtherThan(newId);
    var row := Create(table, fields, newId, None).value.1;
    assert Create(table, fields, newId, None).value.0 == table + [row];
    Seqs.FilterConcat(f, table, [row]);
    assert !f(row);
    assert Seqs.Filter(f, [row]) == [] by {
      assert [row][1..] == [];
    }
    assert forall x :: x in table ==> f(x);
    Seqs.FilterAll(f, table);
    assert Seqs.Filter(f, table + [row]) == table;
  }
}

=== FILE: patients.dfy ===
/**
 * The patient listing (`getPatients` in `app/actions/patients.js`): pages of
 * twenty rows of `cache_pacientes`, most recently updated first, optionally
 * narrowed by a name or phone search, with the page arithmetic echoed back.
 */
module Patients {
  import opened Base
  import opened Text
  import opened LocalTime
  import Seqs

  /** A row of `cache_pacientes`; `None` is SQL `NULL`. */
  datatype Contact = Contact(
    id: nat,
    nome: Option<string>,
    telefone: Option<string>,
    lastMessage: Option<string>,
    updatedAt: Option<Instant>)

  const PageSize: nat := 20

  // ---------------------------------------------------------------------------
  // The patient join
  // ---------------------------------------------------------------------------

  /** The columns the embedded join `patient:cache_pacientes(nome, telefone)` selects. */
  datatype PatientRef = PatientRef(nome: Option<string>, telefone: Option<string>)

  /** `id` is the primary key of `cache_pacientes`. */
  predicate UniqueIds(cache: seq<Contact>) {
    forall i, j :: 0 <= i < |cache| && 0 <= j < |cache| && cache[i].id == cache[j].id ==> i == j
  }

  /**
   * The to-one join on `patient_id`, done when a row is read: the cache row
   * with that id, or `NULL` when the id is `NULL` or names no cache row.
   */
  function JoinPatient(cache: seq<Contact>, patientId: Option<nat>): (p: Option<PatientRef>)
    ensures p.Some? <==> patientId.Some? && exists c :: c in cache && c.id == patientId.value
    ensures p.Some? ==> exists c :: c in cache && c.id == patientId.value && p.value == PatientRef(c.nome, c.telefone)
  {
    if patientId.None? || cache == [] then None
    else if cache[0].id == patientId.value then Some(PatientRef(cache[0].nome, cache[0].telefone))
    else JoinPatient(cache[1..], patientId)
  }

  /** With the primary key unique, the join finds exactly the cache row of the id. */
  lemma JoinFindsPatient(cache: seq<Contact>, c: Contact)
    requires UniqueIds(cache) && c in cache
    ensures JoinPatient(cache, Some(c.id)) == Some(PatientRef(c.nome, c.telefone))
  {
    var p := JoinPatient(cache, Some(c.id));
    var d :| d in cache && d.id == c.id && p.value == PatientRef(d.nome, d.telefone);
    var i :| 0 <= i < |cache| && cache[i] == c;
    var j :| 0 <= j < |cache| && cache[j] == d;
  }

  // ---------------------------------------------------------------------------
  // Page arithmetic
  // ---------------------------------------------------------------------------

  /** `from`: the index of the first row of `page`. */
  function FirstRow(page: int): int {
    (page - 1) * PageSize
  }

  /** `to`: the index of the last row of `page` (inclusive). */
  function LastRow(page: int): (to: int)
    ensures to - FirstRow(page) + 1 == PageSize
    ensures to + 1 == FirstRow(page + 1)
  {
    FirstRow(page) + PageSize - 1
  }

  /** Every row index lies on exactly one page, the one counted from page 1 at index 0. */
  lemma RowOnOnePage(n: nat, page: int)
    ensures FirstRow(n / PageSize + 1) <= n <= LastRow(n / PageSize + 1)
    ensures FirstRow(page) <= n <= LastRow(page) ==> page == n / PageSize + 1
  {
    var p := n / PageSize + 1;
    assert n == (p - 1) * PageSize + n % PageSize;
    if FirstRow(page) <= n <= LastRow(page) {
      var rest := n - (page - 1) * PageSize;
      assert 0 <= rest < PageSize;
      DivisionUnique(n, page - 1, rest);
    }
  }

  lemma DivisionUnique(n: int, q: int, rest: int)
    requires n == q * PageSize + rest && 0 <= rest < PageSize
    ensures n / PageSize == q
  {
  }

  /**
   * `Math.ceil(count / PAGE_size)`: the fewest pages holding `count` rows.
   * A missing count reads as 0.
   */
  function TotalPages(count: Option<nat>): (n: nat)
    ensures PageSize * n >= count.GetOr(0)
    ensures n > 0 ==> PageSize * (n - 1) < count.GetOr(0)
    ensures count.GetOr(0) == 0 <==> n == 0
  {
    (count.GetOr(0) + PageSize - 1) / PageSize
  }

  lemma DivisionMonotone(a: nat, b: nat)
    requires a <= b
    ensures a / PageSize <= b / PageSize
  {
  }

  /** No fewer pages can hold the rows. */
  lemma TotalPagesFewest(count: nat, m: nat)
    requires PageSize * m >= count
    ensures TotalPages(Some(count)) <= m
  {
    var n := TotalPages(Some(count));
    assert PageSize * m + PageSize - 1 == m * PageSize + (PageSize - 1);
    DivisionUnique(PageSize * m + PageSize - 1, m, PageSize - 1);
    DivisionMonotone(count + PageSize - 1, PageSize * m + PageSize - 1);
  }

  // ---------------------------------------------------------------------------
  // Search and order
  // ---------------------------------------------------------------------------

  /** `column.ilike.%q%`: the column holds `q`, ignoring letter case; `NULL` never matches. */
  predicate Ilike(column: Option<string>, q: string) {
    column.Some? && Contains(Lower(column.value), Lower(q))
  }

  /** The search filter, added only for a non-empty query. */
  predicate Matches(c: Contact, query: string) {
    query == "" || Ilike(c.nome, query) || Ilike(c.telefone, query)
  }

  function MatchesOf(query: string): Contact -> bool {
    c => Matches(c, query)
  }

  function HasUpdate(c: Contact): bool { c.updatedAt.Some? }

  function LacksUpdate(c: Contact): bool { c.updatedAt.None? }

  function NegUpdated(c: Contact): int { if c.updatedAt.Some? then -c.updatedAt.value else 0 }

  /** Rows without `atualizado_em` first, then the others by descending `atualizado_em`. */
  ghost predicate RecentFirst(r: seq<Contact>) {
    (forall i, j :: 0 <= i < j < |r| && r[i].updatedAt.Some? && r[j].updatedAt.Some?
       ==> r[i].updatedAt.value >= r[j].updatedAt.value)
    && (forall i, j :: 0 <= i < j < |r| && r[j].updatedAt.None? ==> r[i].updatedAt.None?)
  }

  /**
   * `ORDER BY atualizado_em DESC`: PostgreSQL puts nulls first in descending
   * order. Ties are not ordered by the store; this picks one order.
   */
  function OrderByRecent(rows: seq<Contact>): (r: seq<Contact>)
    ensures multiset(r) == multiset(rows)
    ensures RecentFirst(r)
  {
    var dated := Seqs.Filter(HasUpdate, rows);
    var undated := Seqs.Filter(LacksUpdate, rows);
    var sorted := Seqs.SortBy(dated, NegUpdated);
    Seqs.FilterComplement(LacksUpdate, HasUpdate, rows);
    assert forall x :: x in multiset(sorted) ==> x.updatedAt.Some? by {
      forall x | x in multiset(sorted) ensures x.updatedAt.Some? {
        assert x in multiset(dated);
        assert x in dated;
      }
    }
    UndatedThenSorted(undated, sorted);
    assert multiset(undated + sorted) == multiset(undated) + multiset(sorted);
    undated + sorted
  }

  lemma UndatedThenSorted(undated: seq<Contact>, sorted: seq<Contact>)
    requires forall x :: x in undated ==> x.updatedAt.None?
    requires Seqs.SortedBy(sorted, NegUpdated)
    requires forall x :: x in multiset(sorted) ==> x.updatedAt.Some?
    ensures RecentFirst(undated + sorted)
  {
    var r := undated + sorted;
    forall k | 0 <= k < |undated| ensures r[k].updatedAt.None? {
      assert r[k] in undated;
    }
    forall k | |undated| <= k < |r| ensures r[k].updatedAt.Some? {
      assert r[k] == sorted[k - |undated|];
      assert sorted[k - |undated|] in multiset(sorted);
    }
    forall i, j | 0 <= i < j < |r| && r[i].updatedAt.Some? && r[j].updatedAt.Some?
      ensures r[i].updatedAt.value >= r[j].updatedAt.value
    {
      assert NegUpdated(sorted[i - |undated|]) <= NegUpdated(sorted[j - |undated|]);
    }
  }

  /** The matching rows in the order the pages cut them from. */
  function Listing(table: seq<Contact>, query: string): (l: seq<Contact>)
    ensures multiset(l) == multiset(Seqs.Filter(MatchesOf(query), table))
    ensures forall c :: c in l <==> c in table && Matches(c, query)
    ensures RecentFirst(l)
  {
    var matching := Seqs.Filter(MatchesOf(query), table);
    var l := OrderByRecent(matching);
    assert forall c :: c in l <==> c in matching by {
      forall c ensures c in l <==> c in matching {
        assert c in l <==> c in multiset(l);
        assert c in matching <==> c in multiset(matching);
      }
    }
    l
  }

  /** An empty query filters nothing out. */
  lemma EmptyQueryListsAll(table: seq<Contact>)
    ensures |Listing(table, "")| == |table|
  {
    Seqs.FilterAll(MatchesOf(""), table);
    assert |multiset(Listing(table, ""))| == |multiset(table)|;
  }

  // ---------------------------------------------------------------------------
  // Pages
  // ---------------------------------------------------------------------------

  function Min(a: int, b: int): int { if a <= b then a else b }

  /**
   * `.range(from, to)` over the listing: the rows from `from` to `to` that
   * exist. Pages below 1 have a negative range and are taken as empty.
   */
  function PageOf(l: seq<Contact>, page: int): (r: seq<Contact>)
    ensures |r| <= PageSize
    ensures page >= 1 ==> |r| == Min(FirstRow(page) + PageSize, |l|) - Min(FirstRow(page), |l|)
    ensures page >= 1 ==> forall i :: 0 <= i < |r| ==> FirstRow(page) + i < |l| && r[i] == l[FirstRow(page) + i]
  {
    if page < 1 then []
    else l[Min(FirstRow(page), |l|)..Min(LastRow(page) + 1, |l|)]
  }

  /** The first `k` pages one after another. */
  function Pages(l: seq<Contact>, k: nat): seq<Contact> {
    if k == 0 then [] else Pages(l, k - 1) + PageOf(l, k)
  }

  /** The first `k` pages are the first `20 k` rows of the listing, with no gap and no repeat. */
  lemma {:induction false} PagesArePrefix(l: seq<Contact>, k: nat)
    ensures Pages(l, k) == l[..Min(PageSize * k, |l|)]
  {
    if k > 0 {
      PagesArePrefix(l, k - 1);
      assert FirstRow(k) == PageSize * (k - 1);
      var a, b := Min(PageSize * (k - 1), |l|), Min(PageSize * k, |l|);
      assert PageOf(l, k) == l[a..b];
      assert l[..a] + l[a..b] == l[..b];
    }
  }

  /** Paging through `total_pages` pages shows every row of the listing exactly once, in order. */
  lemma AllPagesCoverListing(l: seq<Contact>)
    ensures Pages(l, TotalPages(Some(|l|))) == l
  {
    var n := TotalPages(Some(|l|));
    PagesArePrefix(l, n);
    assert Min(PageSize * n, |l|) == |l|;
  }

  lemma ListingCount(table: seq<Contact>, query: string)
    ensures |Listing(table, query)| == |Seqs.Filter(MatchesOf(query), table)|
  {
    assert |multiset(Listing(table, query))| == |multiset(Seqs.Filter(MatchesOf(query), table))|;
  }

  lemma PageFromListing(l: seq<Contact>, page: int)
    ensures forall c :: c in PageOf(l, page) ==> c in l
  {
    var contacts := PageOf(l, page);
    forall c | c in contacts ensures c in l {
      var i :| 0 <= i < |contacts| && contacts[i] == c;
    }
  }

  datatype Meta = Meta(count: nat, page: int, totalPages: nat)

  datatype PatientPage = PatientPage(contacts: seq<Contact>, meta: Meta)

  /**
   * `getPatients(page, searchQuery)`: the page of the listing, the number of
   * matching rows (`count: 'exact'` counts the whole filtered table, not the
   * page), the page asked for, and the page count.
   */
  function GetPatients(table: seq<Contact>, page: int, query: string, fault: Fault): (r: Reply<PatientPage>)
    ensures fault.Some? <==> r.Failed?
    ensures fault.Some? ==> r.message == fault.value
    ensures r.Ok? ==> r.value.meta.page == page
    ensures r.Ok? ==> r.value.meta.count == |Seqs.Filter(MatchesOf(query), table)|
    ensures r.Ok? ==> r.value.meta.totalPages == TotalPages(Some(r.value.meta.count))
    ensures r.Ok? ==> r.value.contacts == PageOf(Listing(table, query), page)
    ensures r.Ok? ==> |r.value.contacts| <= PageSize
    ensures r.Ok? ==> forall c :: c in r.value.contacts ==> c in table && Matches(c, query)
    ensures r.Ok? && page >= 1 ==>
              forall i :: 0 <= i < |r.value.contacts| ==>
                (FirstRow(page) + i < |Listing(table, query)| && r.value.contacts[i] == Listing(table, query)[FirstRow(page) + i])
  {
    if fault.Some? then Failed(fault.value)
    else
      var l := Listing(table, query);
      ListingCount(table, query);
      var contacts := PageOf(l, page);
      PageFromListing(l, page);
      Ok(PatientPage(contacts, Meta(|l|, page, TotalPages(Some(|l|)))))
  }
}

=== FILE: seqs.dfy ===
/**
 * Sequence operations shared by the model: `Array.prototype.filter`, sums,
 * and the ordering the data store applies to query results.
 */
module Seqs {

  // ---------------------------------------------------------------------------
  // Order-preserving selection
  // ---------------------------------------------------------------------------

  /** `r` can be obtained from `s` by deleting elements, keeping the order. */
  ghost predicate IsSubsequence<T>(r: seq<T>, s: seq<T>)
    decreases |s|
  {
    r == [] || (s != [] && ((r[0] == s[0] && IsSubsequence(r[1..], s[1..])) || IsSubsequence(r, s[1..])))
  }

  /** `s.filter(p)`. */
  function Filter<T>(p: T -> bool, s: seq<T>): (r: seq<T>)
    ensures |r| <= |s|
    ensures forall x :: x in r ==> x in s && p(x)
    ensures forall x :: x in s && p(x) ==> x in r
    ensures IsSubsequence(r, s)
  {
    if s == [] then []
    else if p(s[0]) then [s[0]] + Filter(p, s[1..])
    else Filter(p, s[1..])
  }

  /** Filtering keeps every occurrence of a selected element and none of the others. */
  lemma {:induction false} FilterMultiset<T>(p: T -> bool, s: seq<T>, x: T)
    ensures multiset(Filter(p, s))[x] == if p(x) then multiset(s)[x] else 0
  {
    if s != [] {
      FilterMultiset(p, s[1..], x);
      assert s == [s[0]] + s[1..];
    }
  }

  /** Filtering with a predicate that holds everywhere keeps the sequence. */
  lemma {:induction false} FilterAll<T>(p: T -> bool, s: seq<T>)
    requires forall x :: x in s ==> p(x)
    ensures Filter(p, s) == s
  {
    if s != [] {
      FilterAll(p, s[1..]);
    }
  }

  /** Filtering distributes over concatenation. */
  lemma {:induction false} FilterConcat<T>(p: T -> bool, a: seq<T>, b: seq<T>)
    ensures Filter(p, a + b) == Filter(p, a) + Filter(p, b)
  {
    if a == [] {
      assert a + b == b;
    } else {
      assert (a + b)[1..] == a[1..] + b;
      FilterConcat(p, a[1..], b);
    }
  }

  /**
   * Splitting by a predicate and its negation loses and duplicates nothing.
   */
  lemma {:induction false} FilterComplement<T>(p: T -> bool, q: T -> bool, s: seq<T>)
    requires forall x :: q(x) == !p(x)
    ensures multiset(Filter(p, s)) + multiset(Filter(q, s)) == multiset(s)
  {
    if s != [] {
      var x, rest := s[0], s[1..];
      FilterComplement(p, q, rest);
      assert multiset(s) == multiset{x} + multiset(rest) by {
        assert s == [x] + rest;
      }
      if p(x) {
        assert Filter(p, s) == [x] + Filter(p, rest);
        assert multiset(Filter(p, s)) == multiset{x} + multiset(Filter(p, rest));
        assert Filter(q, s) == Filter(q, rest);
      } else {
        assert Filter(q, s) == [x] + Filter(q, rest);
        assert multiset(Filter(q, s)) == multiset{x} + multiset(Filter(q, rest));
        assert Filter(p, s) == Filter(p, rest);
      }
    }
  }

  /** `s.map(f)`. */
  function Map<T, U>(f: T -> U, s: seq<T>): (r: seq<U>)
    ensures |r| == |s|
    ensures forall i :: 0 <= i < |s| ==> r[i] == f(s[i])
  {
    seq(|s|, i requires 0 <= i < |s| => f(s[i]))
  }

  /** Mapping a sequence with a first element maps that element first. */
  lemma MapCons<T, U>(f: T -> U, x: T, xs: seq<T>)
    ensures Map(f, [x] + xs) == [f(x)] + Map(f, xs)
  {
    var l, r := Map(f, [x] + xs), [f(x)] + Map(f, xs);
    forall i | 0 <= i < |l| ensures l[i] == r[i] {
      if i > 0 {
        assert ([x] + xs)[i] == xs[i - 1];
      }
    }
  }

  // ---------------------------------------------------------------------------
  // Sums
  // ---------------------------------------------------------------------------

  function Sum<T>(s: seq<T>, f: T -> int): int {
    if s == [] then 0 else f(s[0]) + Sum(s[1..], f)
  }

  lemma {:induction false} SumConcat<T>(a: seq<T>, b: seq<T>, f: T -> int)
    ensures Sum(a + b, f) == Sum(a, f) + Sum(b, f)
  {
    if a == [] {
      assert a + b == b;
    } else {
      assert (a + b)[1..] == a[1..] + b;
      SumConcat(a[1..], b, f);
    }
  }

  /** A sum does not depend on the order of the summands. */
  lemma {:induction false} SumPermutation<T>(a: seq<T>, b: seq<T>, f: T -> int)
    requires multiset(a) == multiset(b)
    ensures Sum(a, f) == Sum(b, f)
    decreases |a|
  {
    if a == [] {
      assert |b| == |multiset(b)| == 0;
    } else {
      var x := a[0];
      assert x in multiset(b);
      var i :| 0 <= i < |b| && b[i] == x;
      var rest := b[..i] + b[i + 1..];
      assert b == b[..i] + [x] + b[i + 1..];
      assert a == [x] + a[1..];
      assert multiset(a[1..]) == multiset(rest) by {
        calc {
          multiset(rest);
          multiset(b[..i]) + multiset(b[i + 1..]);
          multiset(b[..i]) + multiset{x} + multiset(b[i + 1..]) - multiset{x};
          multiset(b) - multiset{x};
          multiset(a) - multiset{x};
          multiset{x} + multiset(a[1..]) - multiset{x};
          multiset(a[1..]);
        }
      }
      SumPermutation(a[1..], rest, f);
      assert b == b[..i] + ([x] + b[i + 1..]);
      SumConcat(b[..i], [x] + b[i + 1..], f);
      assert ([x] + b[i + 1..])[1..] == b[i + 1..];
      SumConcat(b[..i], b[i + 1..], f);
    }
  }

  // ---------------------------------------------------------------------------
  // Ordering
  // ---------------------------------------------------------------------------

  ghost predicate SortedBy<T>(s: seq<T>, key: T -> int) {
    forall i, j :: 0 <= i < j < |s| ==> key(s[i]) <= key(s[j])
  }

  /** Inserts `x` before the first element whose key is not smaller. */
  function Insert<T>(x: T, s: seq<T>, key: T -> int): (r: seq<T>)
    requires SortedBy(s, key)
    ensures SortedBy(r, key)
    ensures multiset(r) == multiset(s) + multiset{x}
    ensures forall y :: y in r ==> y == x || y in s
  {
    if s == [] then [x]
    else if key(x) <= key(s[0]) then
      SortedCons(x, s, key);
      [x] + s
    else
      var head, rest := s[0], s[1..];
      assert SortedBy(rest, key);
      var tail := Insert(x, rest, key);
      assert forall y :: y in tail ==> key(head) <= key(y) by {
        forall y | y in tail ensures key(head) <= key(y) {
          if y != x {
            var k :| 0 <= k < |rest| && rest[k] == y;
            assert s[k + 1] == y;
          }
        }
      }
      SortedCons(head, tail, key);
      assert multiset([head] + tail) == multiset{head} + multiset(tail);
      assert s == [head] + rest;
      [head] + tail
  }

  /** An element no larger than a sorted sequence goes in front of it. */
  lemma SortedCons<T>(x: T, s: seq<T>, key: T -> int)
    requires SortedBy(s, key)
    requires forall y :: y in s ==> key(x) <= key(y)
    ensures SortedBy([x] + s, key)
  {
    var r := [x] + s;
    forall i, j | 0 <= i < j < |r| ensures key(r[i]) <= key(r[j]) {
      assert r[j] == s[j - 1];
      if i > 0 {
        assert r[i] == s[i - 1];
      } else {
        assert s[j - 1] in s;
      }
    }
  }

  /**
   * Orders `s` by ascending key; among equal keys the earlier element stays
   * first.
   */
  function SortBy<T>(s: seq<T>, key: T -> int): (r: seq<T>)
    ensures SortedBy(r, key)
    ensures multiset(r) == multiset(s)
    ensures |r| == |s|
  {
    if s == [] then []
    else
      assert s == [s[0]] + s[1..];
      Insert(s[0], SortBy(s[1..], key), key)
  }
}

=== FILE: sidebar.dfy ===
/**
 * The conversation list of the inbox (`Sidebar`): the search box's filter,
 * the one-line summary and status badge of each conversation, and which
 * item the current page highlights.
 */
module Sidebar {
  import opened Base
  import opened Text
  import Seqs
  import opened Chatwoot

  // ---------------------------------------------------------------------------
  // Summary and badge
  // ---------------------------------------------------------------------------

  /** `statusMap[status]`: the phrase of a known status. */
  function StatusPhrase(status: string): (p: Option<string>)
    ensures p.Some? <==> status in ["open", "snoozed", "resolved"]
  {
    if status == "open" then Some("Aguardando resposta")
    else if status == "snoozed" then Some("Em espera")
    else if status == "resolved" then Some("Resolvido")
    else None
  }

  /**
   * `getAISummary(conv)`: the first of the labels `agendamento`, `financeiro`
   * and `urgente` the conversation carries decides the phrase; without any
   * of them the status does, and an unknown status gives `Sem resumo`.
   */
  function Summary(c: Conversation): (s: string)
    ensures "agendamento" in c.labels ==> s == "Interesse em agendar"
    ensures "agendamento" !in c.labels && "financeiro" in c.labels ==> s == "Dúvida pagamento"
    ensures "agendamento" !in c.labels && "financeiro" !in c.labels && "urgente" in c.labels ==> s == "Dor pós-proc."
    ensures NoSummaryLabel(c) && c.status == "open" ==> s == "Aguardando resposta"
    ensures NoSummaryLabel(c) && c.status == "snoozed" ==> s == "Em espera"
    ensures NoSummaryLabel(c) && c.status == "resolved" ==> s == "Resolvido"
    ensures NoSummaryLabel(c) && c.status !in ["open", "snoozed", "resolved"] ==> s == "Sem resumo"
  {
    if "agendamento" in c.labels then "Interesse em agendar"
    else if "financeiro" in c.labels then "Dúvida pagamento"
    else if "urgente" in c.labels then "Dor pós-proc."
    else Or(StatusPhrase(c.status), "Sem resumo")
  }

  predicate NoSummaryLabel(c: Conversation) {
    "agendamento" !in c.labels && "financeiro" !in c.labels && "urgente" !in c.labels
  }

  /** A summary label hides the status: two conversations differing only in status read the same. */
  lemma LabelsOutrankStatus(c: Conversation, status: string)
    requires !NoSummaryLabel(c)
    ensures Summary(c.(status := status)) == Summary(c)
  {
  }

  /** The status text only speaks when no summary label is present. */
  lemma StatusSpeaksOnlyWithoutLabels(c: Conversation)
    requires Summary(c) in ["Aguardando resposta", "Em espera", "Resolvido", "Sem resumo"]
    ensures NoSummaryLabel(c)
  {
  }

  /** The badge text: `Aberto` for an open conversation, otherwise the raw status. */
  function BadgeText(c: Conversation): (t: string)
    ensures t == "Aberto" <==> c.status == "open" || c.status == "Aberto"
    ensures c.status != "open" ==> t == c.status
  {
    if c.status == "open" then "Aberto" else c.status
  }

  datatype Tone = Green | Red | Gray

  /** The badge colour: open beats an `urgente` label, which beats the neutral grey. */
  function BadgeTone(c: Conversation): (t: Tone)
    ensures t == Green <==> c.status == "open"
    ensures t == Red <==> c.status != "open" && "urgente" in c.labels
  {
    if c.status == "open" then Green
    else if "urgente" in c.labels then Red
    else Gray
  }

  /** `conv.contact.name?.[0] || 'U'`: the avatar letter. */
  function Initial(c: Conversation): (s: string)
    ensures |s| == 1
    ensures Truthy(c.contact.name) ==> s[0] == c.contact.name.value[0]
    ensures !Truthy(c.contact.name) ==> s == "U"
  {
    if Truthy(c.contact.name) then c.contact.name.value[..1] else "U"
  }

  /** `conv.contact.name || 'Sem nome'`. */
  function DisplayName(c: Conversation): (s: string)
    ensures s != ""
    ensures Truthy(c.contact.name) ==> s == c.contact.name.value
  {
    Or(c.contact.name, "Sem nome")
  }

  // ---------------------------------------------------------------------------
  // Search and selection
  // ---------------------------------------------------------------------------

  /** The search: the contact's name holds the term ignoring case, or the id's digits hold it. */
  predicate Kept(c: Conversation, term: string) {
    (c.contact.name.Some? && Contains(Lower(c.contact.name.value), Lower(term)))
    || Contains(NatToString(c.id), term)
  }

  function KeptOf(term: string): Conversation -> bool {
    (c: Conversation) => Kept(c, term)
  }

  /** `filteredConversations`: the kept conversations, in the order received. */
  function Filtered(conversations: seq<Conversation>, term: string): (r: seq<Conversation>)
    ensures forall c :: c in r <==> c in conversations && Kept(c, term)
    ensures Seqs.IsSubsequence(r, conversations)
    ensures forall c :: multiset(r)[c] == if Kept(c, term) then multiset(conversations)[c] else 0
  {
    var r := Seqs.Filter(KeptOf(term), conversations);
    forall c ensures multiset(r)[c] == if Kept(c, term) then multiset(conversations)[c] else 0 {
      Seqs.FilterMultiset(KeptOf(term), conversations, c);
    }
    r
  }

  /** An empty search keeps the list as it is. */
  lemma EmptyTermKeepsAll(conversations: seq<Conversation>)
    ensures Filtered(conversations, "") == conversations
  {
    forall c | c in conversations ensures KeptOf("")(c) {
      ContainsEmpty(NatToString(c.id));
    }
    Seqs.FilterAll(KeptOf(""), conversations);
  }

  /** A conversation is found by its own id. */
  lemma FoundById(conversations: seq<Conversation>, c: Conversation)
    requires c in conversations
    ensures c in Filtered(conversations, NatToString(c.id))
  {
    var s := NatToString(c.id);
    assert StartsWith(s, s);
  }

  /** The link of a conversation. */
  function Href(id: nat): string {
    "/dashboard/conversations/" + NatToString(id)
  }

  /** `isActive`: the current path is the conversation's own link. */
  predicate IsActive(pathname: string, c: Conversation) {
    pathname == Href(c.id)
  }

  /** A path highlights the conversations of one id only. */
  lemma ActiveIdUnique(pathname: string, a: Conversation, b: Conversation)
    requires IsActive(pathname, a) && IsActive(pathname, b)
    ensures a.id == b.id
  {
    HrefInjective(a.id, b.id);
  }

  /** One rendered item. */
  datatype Item = Item(
    id: nat, active: bool, name: string, initial: string,
    summary: string, badge: string, tone: Tone, onlineDot: bool)

  function RenderItem(pathname: string, c: Conversation): Item {
    Item(c.id, IsActive(pathname, c), DisplayName(c), Initial(c),
         Summary(c), BadgeText(c), BadgeTone(c), c.status == "open")
  }

  function RenderItemOf(pathname: string): Conversation -> Item {
    (c: Conversation) => RenderItem(pathname, c)
  }

  /** The list: one item per kept conversation, and `Nenhuma conversa encontrada` when none is kept. */
  datatype ListView = ListView(items: seq<Item>, noneFound: bool)

  function RenderList(conversations: seq<Conversation>, term: string, pathname: string): (v: ListView)
    ensures |v.items| == |Filtered(conversations, term)|
    ensures v.noneFound <==> v.items == []
    ensures forall i :: 0 <= i < |v.items| ==> v.items[i].id == Filtered(conversations, term)[i].id
    ensures forall i :: 0 <= i < |v.items| ==> (v.items[i].active <==> pathname == Href(v.items[i].id))
  {
    var kept := Filtered(conversations, term);
    var items := Seqs.Map(RenderItemOf(pathname), kept);
    ListView(items, |items| == 0)
  }

  /** All highlighted items of the list show one and the same conversation id. */
  lemma AtMostOneActive(conversations: seq<Conversation>, term: string, pathname: string, i: int, j: int)
    requires 0 <= i < |RenderList(conversations, term, pathname).items|
    requires 0 <= j < |RenderList(conversations, term, pathname).items|
    requires RenderList(conversations, term, pathname).items[i].active
    requires RenderList(conversations, term, pathname).items[j].active
    ensures RenderList(conversations, term, pathname).items[i].id == RenderList(conversations, term, pathname).items[j].id
  {
    var items := RenderList(conversations, term, pathname).items;
    HrefInjective(items[i].id, items[j].id);
  }

  /** Distinct ids have distinct links. */
  lemma HrefInjective(a: nat, b: nat)
    requires Href(a) == Href(b)
    ensures a == b
  {
    var prefix := "/dashboard/conversations/";
    assert Href(a)[|prefix|..] == NatToString(a);
    assert Href(b)[|prefix|..] == NatToString(b);
    NatToStringInjective(a, b);
  }
}

=== FILE: tally.dfy ===
/**
 * Counting rows by a text key, as the dashboard does with a plain object
 * (`counts[key] = (counts[key] || 0) + 1`) followed by `Object.entries`:
 * one entry per distinct key, in order of first appearance.
 */
module Tally {
  import Seqs

  datatype Entry = Entry(key: string, total: nat)

  function TotalOf(e: Entry): int { e.total }

  function NegTotalOf(e: Entry): int { -(e.total as int) }

  ghost predicate DistinctKeys(es: seq<Entry>) {
    forall i, j :: 0 <= i < j < |es| ==> es[i].key != es[j].key
  }

  /** The total recorded under `k`, or 0 when there is no entry for it. */
  function TotalFor(es: seq<Entry>, k: string): nat {
    if es == [] then 0 else if es[0].key == k then es[0].total else TotalFor(es[1..], k)
  }

  function Keys(es: seq<Entry>): set<string> {
    set e | e in es :: e.key
  }

  /** The sum of the totals. */
  function Count(es: seq<Entry>): int {
    Seqs.Sum(es, TotalOf)
  }

  /** One more row under `k`: bump its entry, or append `(k, 1)`. */
  function Bump(es: seq<Entry>, k: string): (r: seq<Entry>)
    requires DistinctKeys(es)
    ensures BumpedFrom(r, es, k)
  {
    if es == [] then
      assert [Entry(k, 1)][1..] == [];
      [Entry(k, 1)]
    else if es[0].key == k then
      var r := [es[0].(total := es[0].total + 1)] + es[1..];
      BumpHere(es, k, r);
      r
    else
      var tail := Bump(es[1..], k);
      BumpFurther(es, k, tail);
      [es[0]] + tail
  }

  /** `r` is `es` with one more row under `k`. */
  ghost predicate BumpedFrom(r: seq<Entry>, es: seq<Entry>, k: string) {
    && DistinctKeys(r)
    && Keys(r) == Keys(es) + {k}
    && (forall x :: TotalFor(r, x) == TotalFor(es, x) + (if x == k then 1 else 0))
    && Count(r) == Count(es) + 1
    && (forall e :: e in r ==> e.total > 0 || e in es)
  }

  lemma KeysCons(e: Entry, es: seq<Entry>)
    ensures Keys([e] + es) == {e.key} + Keys(es)
  {
    var r := [e] + es;
    assert forall x :: x in r <==> x == e || x in es;
  }

  lemma BumpHere(es: seq<Entry>, k: string, r: seq<Entry>)
    requires DistinctKeys(es) && es != [] && es[0].key == k
    requires r == [es[0].(total := es[0].total + 1)] + es[1..]
    ensures BumpedFrom(r, es, k)
  {
    var head, rest := es[0], es[1..];
    assert es == [head] + rest;
    assert r[1..] == rest;
    KeysCons(head, rest);
    KeysCons(r[0], rest);
    assert forall i :: 0 <= i < |rest| ==> rest[i].key != k by {
      forall i | 0 <= i < |rest| ensures rest[i].key != k {
        assert es[i + 1] == rest[i];
      }
    }
    NotInKeys(rest, k);
    assert DistinctKeys(r) by {
      KeysDistinct(r[0], rest);
    }
    assert Count(r) == Count(es) + 1;
  }

  lemma BumpFurther(es: seq<Entry>, k: string, tail: seq<Entry>)
    requires DistinctKeys(es) && es != [] && es[0].key != k
    requires BumpedFrom(tail, es[1..], k)
    ensures BumpedFrom([es[0]] + tail, es, k)
  {
    var head, rest, r := es[0], es[1..], [es[0]] + tail;
    assert es == [head] + rest;
    assert r[1..] == tail;
    KeysCons(head, rest);
    KeysCons(head, tail);
    assert forall i :: 0 <= i < |rest| ==> rest[i].key != head.key by {
      forall i | 0 <= i < |rest| ensures rest[i].key != head.key {
        assert es[i + 1] == rest[i];
      }
    }
    NotInKeys(rest, head.key);
    assert DistinctKeys(r) by {
      KeysDistinct(head, tail);
    }
    assert Count(r) == Count(es) + 1;
  }

  lemma NotInKeys(es: seq<Entry>, k: string)
    requires forall i :: 0 <= i < |es| ==> es[i].key != k
    ensures k !in Keys(es)
    ensures TotalFor(es, k) == 0
  {
    if es != [] {
      NotInKeys(es[1..], k);
    }
  }

  lemma KeysDistinct(head: Entry, tail: seq<Entry>)
    requires DistinctKeys(tail) && head.key !in Keys(tail)
    ensures DistinctKeys([head] + tail)
  {
    var r := [head] + tail;
    forall i, j | 0 <= i < j < |r| ensures r[i].key != r[j].key {
      if i == 0 {
        assert r[j] in tail;
      } else {
        assert r[i] == tail[i - 1] && r[j] == tail[j - 1];
      }
    }
  }

  /**
   * The entries for `keys`: one per distinct key, in order of first
   * appearance, each with the number of rows under it.
   */
  function Tally(keys: seq<string>): (r: seq<Entry>)
    ensures DistinctKeys(r)
    ensures Keys(r) == set k | k in keys
    ensures forall x :: TotalFor(r, x) == multiset(keys)[x]
    ensures forall e :: e in r ==> e.total > 0
    ensures Count(r) == |keys|
  {
    if keys == [] then []
    else
      var init := keys[..|keys| - 1];
      var k := keys[|keys| - 1];
      assert keys == init + [k];
      var es := Tally(init);
      Bump(es, k)
  }

  /** In a tally, an entry's total is the number of rows under its key. */
  lemma EntryTotal(keys: seq<string>, e: Entry)
    requires e in Tally(keys)
    ensures e.total == multiset(keys)[e.key]
  {
    var es := Tally(keys);
    var i :| 0 <= i < |es| && es[i] == e;
    TotalForAt(es, i);
  }

  lemma TotalForAt(es: seq<Entry>, i: int)
    requires DistinctKeys(es) && 0 <= i < |es|
    ensures TotalFor(es, es[i].key) == es[i].total
  {
    if i > 0 {
      TotalForAt(es[1..], i - 1);
    }
  }

  /** Entries with distinct keys hold no entry twice. */
  lemma {:induction false} AtMostOnce(es: seq<Entry>, x: Entry)
    requires DistinctKeys(es)
    ensures multiset(es)[x] <= 1
  {
    if es != [] {
      assert es == [es[0]] + es[1..];
      assert DistinctKeys(es[1..]) by {
        forall i, j | 0 <= i < j < |es[1..]| ensures es[1..][i].key != es[1..][j].key {
          assert es[1..][i] == es[i + 1] && es[1..][j] == es[j + 1];
        }
      }
      AtMostOnce(es[1..], x);
      if x == es[0] {
        assert x !in es[1..] by {
          forall i | 0 <= i < |es[1..]| ensures es[1..][i] != x {
            assert es[1..][i] == es[i + 1];
          }
        }
      }
    }
  }

  /** An entry at two positions is counted at least twice. */
  lemma TwiceCounted(r: seq<Entry>, i: int, j: int)
    requires 0 <= i < j < |r| && r[i] == r[j]
    ensures multiset(r)[r[i]] >= 2
  {
    assert r == r[..j] + [r[j]] + r[j + 1..];
    assert r[i] == r[..j][i];
    assert r[i] in multiset(r[..j]);
  }

  /** Reordering entries keeps their keys distinct. */
  lemma PermutedDistinct(es: seq<Entry>, r: seq<Entry>)
    requires DistinctKeys(es) && multiset(r) == multiset(es)
    ensures DistinctKeys(r)
  {
    forall i, j | 0 <= i < j < |r| ensures r[i].key != r[j].key {
      if r[i] == r[j] {
        TwiceCounted(r, i, j);
        AtMostOnce(es, r[i]);
      } else {
        assert r[i] in multiset(es) && r[j] in multiset(es);
        var p :| 0 <= p < |es| && es[p] == r[i];
        var q :| 0 <= q < |es| && es[q] == r[j];
        assert p != q;
      }
    }
  }

  /** With distinct keys there are as many entries as keys. */
  lemma {:induction false} DistinctKeyCount(es: seq<Entry>)
    requires DistinctKeys(es)
    ensures |Keys(es)| == |es|
  {
    if es != [] {
      var tail := es[1..];
      assert es == [es[0]] + tail;
      assert DistinctKeys(tail) by {
        forall i, j | 0 <= i < j < |tail| ensures tail[i].key != tail[j].key {
          assert tail[i] == es[i + 1] && tail[j] == es[j + 1];
        }
      }
      DistinctKeyCount(tail);
      KeysCons(es[0], tail);
      assert es[0].key !in Keys(tail) by {
        forall e | e in tail ensures e.key != es[0].key {
          var n :| 0 <= n < |tail| && tail[n] == e;
          assert e == es[n + 1];
        }
      }
    }
  }

  /** Entries by descending total (`sort((a, b) => b.total - a.total)`). */
  function ByTotalDescending(es: seq<Entry>): (r: seq<Entry>)
    ensures multiset(r) == multiset(es)
    ensures |r| == |es|
    ensures Count(r) == Count(es)
    ensures forall i, j :: 0 <= i < j < |r| ==> r[i].total >= r[j].total
  {
    var r := Seqs.SortBy(es, NegTotalOf);
    Seqs.SumPermutation(r, es, TotalOf);
    assert |r| == |es| by {
      assert |multiset(r)| == |multiset(es)|;
    }
    assert forall i, j :: 0 <= i < j < |r| ==> NegTotalOf(r[i]) <= NegTotalOf(r[j]);
    r
  }

  /**
   * A tally by descending total: each key of `keys` once, with the number
   * of its occurrences, the entries adding up to `|keys|`.
   */
  function Histogram(keys: seq<string>): (r: seq<Entry>)
    ensures Count(r) == |keys|
    ensures forall i, j :: 0 <= i < j < |r| ==> r[i].total >= r[j].total
    ensures forall e :: e in r ==> e.key in keys && e.total == multiset(keys)[e.key]
    ensures forall k :: k in keys ==> exists e :: e in r && e.key == k
    ensures forall i, j :: 0 <= i < j < |r| ==> r[i].key != r[j].key
    ensures forall e :: e in r ==> e.total > 0
    ensures |r| == |set k | k in keys|
  {
    var es := Tally(keys);
    var r := ByTotalDescending(es);
    PermutedDistinct(es, r);
    DistinctKeyCount(es);
    forall e | e in r ensures e.total > 0 {
      assert e in multiset(es);
    }
    forall e | e in r ensures e.key in keys && e.total == multiset(keys)[e.key] {
      assert e in multiset(es);
      EntryTotal(keys, e);
      assert e.key in Keys(es);
    }
    forall k | k in keys ensures exists e :: e in r && e.key == k {
      assert k in Keys(es);
      var e :| e in es && e.key == k;
      assert e in multiset(r);
    }
    r
  }
}

=== FILE: text.dfy ===
/**
 * String operations of the JavaScript standard library, as the source uses
 * them: ASCII case mapping, `startsWith`, `includes`, `split`, `join`, and
 * decimal rendering of non-negative integers.
 */
module Text {

  // ---------------------------------------------------------------------------
  // Characters
  // ---------------------------------------------------------------------------

  predicate IsDigit(c: char) {
    '0' <= c <= '9'
  }

  predicate AllDigits(s: string) {
    forall i :: 0 <= i < |s| ==> IsDigit(s[i])
  }

  function DigitChar(d: nat): (c: char)
    requires d < 10
    ensures IsDigit(c)
  {
    ('0' as int + d) as char
  }

  function DigitValue(c: char): (d: nat)
    requires IsDigit(c)
    ensures d < 10
  {
    c as int - '0' as int
  }

  /** `toLowerCase` restricted to ASCII letters. */
  function LowerChar(c: char): char {
    if 'A' <= c <= 'Z' then (c as int + 32) as char else c
  }

  /** `toUpperCase` restricted to ASCII letters. */
  function UpperChar(c: char): char {
    if 'a' <= c <= 'z' then (c as int - 32) as char else c
  }

  function Lower(s: string): (r: string)
    ensures |r| == |s|
    ensures forall i :: 0 <= i < |s| ==> r[i] == LowerChar(s[i])
  {
    seq(|s|, i requires 0 <= i < |s| => LowerChar(s[i]))
  }

  // ---------------------------------------------------------------------------
  // Prefixes and substrings
  // ---------------------------------------------------------------------------

  /** `s.startsWith(prefix)`. */
  predicate StartsWith(s: string, prefix: string) {
    |prefix| <= |s| && s[..|prefix|] == prefix
  }

  /** `t` occurs in `s` starting at index `i`. */
  ghost predicate OccursAt(s: string, t: string, i: int) {
    0 <= i && i + |t| <= |s| && s[i..i + |t|] == t
  }

  /** `s.includes(t)`, computed by trying every start position in turn. */
  predicate Contains(s: string, t: string)
    decreases |s|
  {
    StartsWith(s, t) || (|s| > 0 && Contains(s[1..], t))
  }

  /** An occurrence at any index makes `includes` hold. */
  lemma {:induction false} ContainsFromOccurrence(s: string, t: string, i: int)
    requires OccursAt(s, t, i)
    ensures Contains(s, t)
    decreases i
  {
    if i == 0 {
      assert s[..|t|] == t;
    } else {
      assert s[1..][i - 1..i - 1 + |t|] == s[i..i + |t|];
      ContainsFromOccurrence(s[1..], t, i - 1);
    }
  }

  /** When `includes` holds, the needle occurs at some index. */
  lemma {:induction false} OccurrenceFromContains(s: string, t: string) returns (i: int)
    requires Contains(s, t)
    ensures OccursAt(s, t, i)
    decreases |s|
  {
    if StartsWith(s, t) {
      i := 0;
    } else {
      var j := OccurrenceFromContains(s[1..], t);
      assert s[1..][j..j + |t|] == s[j + 1..j + 1 + |t|];
      i := j + 1;
    }
  }

  /** `includes` holds exactly when the needle occurs at some index. */
  lemma ContainsIff(s: string, t: string)
    ensures Contains(s, t) <==> exists i :: OccursAt(s, t, i)
  {
    if Contains(s, t) {
      var i := OccurrenceFromContains(s, t);
    }
    forall i | OccursAt(s, t, i) {
      ContainsFromOccurrence(s, t, i);
    }
  }

  /** Every string includes the empty string. */
  lemma ContainsEmpty(s: string)
    ensures Contains(s, "")
  {
    assert s[..0] == "";
  }

  // ---------------------------------------------------------------------------
  // split / join
  // ---------------------------------------------------------------------------

  /**
   * `s.split(c)[0]`: the text before the first `c`, or all of `s` when it has
   * no `c`.
   */
  function BeforeFirst(s: string, c: char): (r: string)
    ensures c !in r
    ensures StartsWith(s, r)
    ensures |r| < |s| ==> s[|r|] == c
  {
    if s == [] then []
    else if s[0] == c then []
    else [s[0]] + BeforeFirst(s[1..], c)
  }

  /** A text with no `c` followed by `c` splits back to that text. */
  lemma {:induction false} BeforeFirstConcat(a: string, c: char, b: string)
    requires c !in a
    ensures BeforeFirst(a + [c] + b, c) == a
  {
    if a == [] {
      assert (a + [c] + b)[0] == c;
    } else {
      assert (a + [c] + b)[1..] == a[1..] + [c] + b;
      BeforeFirstConcat(a[1..], c, b);
    }
  }

  /** Whatever follows a `c` does not change the text before the first `c`. */
  lemma {:induction false} BeforeFirstPrefix(a: string, c: char, b: string)
    ensures BeforeFirst(a + [c] + b, c) == BeforeFirst(a, c)
  {
    if a == [] {
      assert (a + [c] + b)[0] == c;
    } else if a[0] != c {
      assert (a + [c] + b)[1..] == a[1..] + [c] + b;
      BeforeFirstPrefix(a[1..], c, b);
    }
  }

  /** A text with no `c` is its own first part. */
  lemma BeforeFirstWhole(a: string, c: char)
    requires c !in a
    ensures BeforeFirst(a, c) == a
  {
  }

  /** `s.split(c)` for a one-character separator. */
  function Split(s: string, c: char): (parts: seq<string>)
    ensures |parts| >= 1
    ensures parts[0] == BeforeFirst(s, c)
    ensures forall i :: 0 <= i < |parts| ==> c !in parts[i]
    decreases |s|
  {
    var head := BeforeFirst(s, c);
    if |head| == |s| then [s]
    else [head] + Split(s[|head| + 1..], c)
  }

  /** `parts.join(sep)`. */
  function Join(parts: seq<string>, sep: string): string
    decreases |parts|
  {
    if |parts| == 0 then ""
    else if |parts| == 1 then parts[0]
    else parts[0] + sep + Join(parts[1..], sep)
  }

  /** Joining the pieces of a split with the separator gives back the text. */
  lemma {:induction false} SplitJoin(s: string, c: char)
    ensures Join(Split(s, c), [c]) == s
    decreases |s|
  {
    var head := BeforeFirst(s, c);
    if |head| == |s| {
      assert s[..|head|] == head;
    } else {
      var rest := s[|head| + 1..];
      var tail := Split(rest, c);
      assert Split(s, c) == [head] + tail;
      SplitJoin(rest, c);
      assert Join([head] + tail, [c]) == head + [c] + Join(tail, [c]) by {
        var parts := [head] + tail;
        assert |parts| >= 2;
        assert parts[1..] == tail;
      }
      assert s == s[..|head|] + [c] + rest;
    }
  }

  /** A text without the separator splits into just itself. */
  lemma SplitNoSeparator(s: string, c: char)
    requires c !in s
    ensures Split(s, c) == [s]
  {
  }

  /** Splitting `a + c + b` where `a` and `b` have no `c` gives exactly `[a, b]`. */
  lemma SplitTwo(a: string, c: char, b: string)
    requires c !in a && c !in b
    ensures Split(a + [c] + b, c) == [a, b]
  {
    var s := a + [c] + b;
    BeforeFirstConcat(a, c, b);
    assert s[|a| + 1..] == b;
  }

  // ---------------------------------------------------------------------------
  // Decimal numbers
  // ---------------------------------------------------------------------------

  /** The value of a string of decimal digits (the empty string reads as 0). */
  function DigitsValue(s: string): (n: nat)
    requires AllDigits(s)
    ensures n < Pow10(|s|)
  {
    if s == [] then 0 else DigitsValue(s[..|s| - 1]) * 10 + DigitValue(s[|s| - 1])
  }

  /** `n.toString()` for a non-negative integer. */
  function NatToString(n: nat): (r: string)
    ensures |r| >= 1
    ensures AllDigits(r)
    ensures |r| > 1 ==> r[0] != '0'
  {
    if n < 10 then [DigitChar(n)] else NatToString(n / 10) + [DigitChar(n % 10)]
  }

  /** Reading back the decimal rendering gives the number. */
  lemma {:induction false} NatToStringRoundTrip(n: nat)
    ensures DigitsValue(NatToString(n)) == n
  {
    if n >= 10 {
      var s := NatToString(n);
      assert s[..|s| - 1] == NatToString(n / 10);
      NatToStringRoundTrip(n / 10);
    }
  }

  /** Distinct numbers have distinct decimal renderings. */
  lemma NatToStringInjective(a: nat, b: nat)
    requires NatToString(a) == NatToString(b)
    ensures a == b
  {
    NatToStringRoundTrip(a);
    NatToStringRoundTrip(b);
  }

  function Pow10(w: nat): (r: nat)
    ensures r >= 1
  {
    if w == 0 then 1 else 10 * Pow10(w - 1)
  }

  /** The fixed-width, zero-padded decimal rendering of `n`. */
  function Padded(n: nat, width: nat): (r: string)
    ensures |r| == width
    ensures AllDigits(r)
  {
    if width == 0 then [] else Padded(n / 10, width - 1) + [DigitChar(n % 10)]
  }

  /** A padded rendering wide enough for `n` reads back as `n`. */
  lemma {:induction false} PaddedRoundTrip(n: nat, width: nat)
    requires n < Pow10(width)
    ensures DigitsValue(Padded(n, width)) == n
  {
    if width > 0 {
      var s := Padded(n, width);
      assert s[..|s| - 1] == Padded(n / 10, width - 1);
      assert n / 10 < Pow10(width - 1);
      PaddedRoundTrip(n / 10, width - 1);
    }
  }
}

=== FILE: time.dfy ===
/**
 * Local wall-clock time.
 *
 * The source turns text into JavaScript `Date` objects, sends them through
 * `toISOString` and reads them back with local getters. Within one time zone
 * that round trip keeps the local wall-clock reading, so the model never
 * leaves it: an instant is a number of minutes since 1970-01-01 00:00 on the
 * clinic's local clock. Texts are read with the ECMAScript date-time string
 * format (section 21.4.1.32 of ECMA-262, "Date Time String Format").
 */
module LocalTime {
  import opened Base
  import opened Text

  /** Minutes since 1970-01-01 00:00, local wall clock. */
  type Instant = int

  const MinutesPerDay: int := 1440

  /** The local calendar day of an instant, as a day number. */
  function DayOf(t: Instant): int {
    t / MinutesPerDay
  }

  /** `getHours()`. */
  function HourOf(t: Instant): (h: nat)
    ensures h < 24
  {
    (t % MinutesPerDay) / 60
  }

  /** `getMinutes()`. */
  function MinuteOf(t: Instant): (m: nat)
    ensures m < 60
  {
    t % 60
  }

  /** An instant is its day's midnight plus its hours and minutes. */
  lemma InstantFields(t: Instant)
    ensures t == DayOf(t) * MinutesPerDay + HourOf(t) * 60 + MinuteOf(t)
  {
    var r := t % MinutesPerDay;
    assert t == DayOf(t) * MinutesPerDay + r;
    assert r == (r / 60) * 60 + r % 60;
    assert t - r == (t / MinutesPerDay) * 24 * 60;
    assert r % 60 == t % 60 by {
      var q := t / MinutesPerDay * 24;
      assert t == q * 60 + r;
      assert r == (r / 60) * 60 + r % 60;
      assert t == (q + r / 60) * 60 + r % 60;
    }
  }

  // ---------------------------------------------------------------------------
  // Calendar dates
  // ---------------------------------------------------------------------------

  datatype Date = Date(year: int, month: int, day: int)

  predicate LeapYear(y: int) {
    (y % 4 == 0 && y % 100 != 0) || y % 400 == 0
  }

  function DaysInMonth(y: int, m: int): int
    requires 1 <= m <= 12
  {
    if m == 2 then (if LeapYear(y) then 29 else 28)
    else if m == 4 || m == 6 || m == 9 || m == 11 then 30
    else 31
  }

  predicate ValidDate(d: Date) {
    1 <= d.month <= 12 && 1 <= d.day <= DaysInMonth(d.year, d.month)
  }

  /** Days from 1970-01-01 to `d` in the proleptic Gregorian calendar. */
  function DayNumber(d: Date): int {
    YearStart(ShiftedYear(d)) + MonthOffset(MonthIndex(d.month)) + d.day - 1
  }

  /** The year counted from March, so that a leap day closes it. */
  function ShiftedYear(d: Date): int {
    if d.month <= 2 then d.year - 1 else d.year
  }

  /** Months counted from March: 0 for March up to 11 for February. */
  function MonthIndex(month: int): int {
    if month > 2 then month - 3 else month + 9
  }

  /** Days from March 1 to the first of the month with index `k`. */
  function MonthOffset(k: int): int {
    (153 * k + 2) / 5
  }

  /** The day number of March 1 of year `y`. */
  function YearStart(y: int): int {
    var era := y / 400;
    var yoe := y - era * 400;
    era * 146097 + yoe * 365 + yoe / 4 - yoe / 100 - 719468
  }

  /** The calendar day after `d`. */
  function NextDay(d: Date): (r: Date)
    requires ValidDate(d)
    ensures ValidDate(r)
  {
    if d.day < DaysInMonth(d.year, d.month) then d.(day := d.day + 1)
    else if d.month < 12 then Date(d.year, d.month + 1, 1)
    else Date(d.year + 1, 1, 1)
  }

  /** Remainders by `n` agree for numbers a multiple of `n` apart. */
  lemma ModShift4(a: int, b: int, q: int)
    requires a == b + q * 4
    ensures a % 4 == b % 4
  {
    var m := b / 4;
    assert b == 4 * m + b % 4;
    assert a == 4 * (m + q) + b % 4;
  }

  lemma ModShift100(a: int, b: int, q: int)
    requires a == b + q * 100
    ensures a % 100 == b % 100
  {
    var m := b / 100;
    assert b == 100 * m + b % 100;
    assert a == 100 * (m + q) + b % 100;
  }

  lemma ModShift400(a: int, b: int, q: int)
    requires a == b + q * 400
    ensures a % 400 == b % 400
  {
    var m := b / 400;
    assert b == 400 * m + b % 400;
    assert a == 400 * (m + q) + b % 400;
  }

  /** Days in the year that runs from March of `y` to February of `y + 1`. */
  lemma ShiftedYearLength(y: int)
    ensures YearStart(y + 1) - YearStart(y) == if LeapYear(y + 1) then 366 else 365
  {
    var era := y / 400;
    var yoe := y - era * 400;
    assert 0 <= yoe < 400;
    var k := yoe + 1;
    ModShift4(y + 1, k, era * 100);
    ModShift100(y + 1, k, era * 4);
    ModShift400(y + 1, k, era);
    if yoe == 399 {
      assert (y + 1) / 400 == era + 1;
      assert (y + 1) - (era + 1) * 400 == 0;
    } else {
      assert (y + 1) / 400 == era;
      assert (y + 1) - era * 400 == k;
      assert k / 4 - yoe / 4 == if k % 4 == 0 then 1 else 0;
      assert k / 100 - yoe / 100 == if k % 100 == 0 then 1 else 0;
    }
  }

  /** Consecutive calendar days have consecutive day numbers. */
  lemma {:induction false} NextDayNumber(d: Date)
    requires ValidDate(d)
    ensures DayNumber(NextDay(d)) == DayNumber(d) + 1
  {
    if d.day == DaysInMonth(d.year, d.month) {
      if d.month == 2 {
        ShiftedYearLength(d.year - 1);
        assert MonthOffset(11) == 337;
      } else {
        ShiftedMonthLength(MonthIndex(d.month));
      }
    }
  }

  /** The offsets of consecutive months, from March to January, differ by the earlier month's length. */
  lemma ShiftedMonthLength(k: int)
    requires 0 <= k < 11
    ensures MonthOffset(k + 1) - MonthOffset(k) == DaysInMonth(0, if k < 10 then k + 3 else 1)
  {
    if k == 0 { assert MonthOffset(1) == 31; }
    else if k == 1 { assert MonthOffset(2) == 61; }
    else if k == 2 { assert MonthOffset(3) == 92; }
    else if k == 3 { assert MonthOffset(4) == 122; }
    else if k == 4 { assert MonthOffset(5) == 153; }
    else if k == 5 { assert MonthOffset(6) == 184; }
    else if k == 6 { assert MonthOffset(7) == 214; }
    else if k == 7 { assert MonthOffset(8) == 245; }
    else if k == 8 { assert MonthOffset(9) == 275; }
    else if k == 9 { assert MonthOffset(10) == 306; }
    else { assert MonthOffset(11) == 337; }
  }

  /** 0 for Sunday up to 6 for Saturday; day 0 (1970-01-01) was a Thursday. */
  function Weekday(day: int): (w: nat)
    ensures w < 7
  {
    (day + 4) % 7
  }

  /** The instant at `hour:minute` on date `d`; hour 24 is the next midnight. */
  function At(d: Date, hour: nat, minute: nat): Instant {
    DayNumber(d) * MinutesPerDay + hour * 60 + minute
  }

  /** An instant built from a date and a time of day reads back the same fields. */
  lemma AtFields(d: Date, hour: nat, minute: nat)
    requires hour < 24 && minute < 60
    ensures DayOf(At(d, hour, minute)) == DayNumber(d)
    ensures HourOf(At(d, hour, minute)) == hour
    ensures MinuteOf(At(d, hour, minute)) == minute
  {
    var t, n := At(d, hour, minute), DayNumber(d);
    var x := hour * 60 + minute;
    DivModDay(t, n, x);
    DivModHour(x, hour, minute);
    assert t == (n * 24 + hour) * 60 + minute;
    DivModHour(t, n * 24 + hour, minute);
  }

  lemma DivModDay(t: int, q: int, r: int)
    requires t == q * MinutesPerDay + r && 0 <= r < MinutesPerDay
    ensures t / MinutesPerDay == q && t % MinutesPerDay == r
  {
  }

  lemma DivModHour(t: int, q: int, r: int)
    requires t == q * 60 + r && 0 <= r < 60
    ensures t / 60 == q && t % 60 == r
  {
  }

  /** An instant is rebuilt from its own date and time of day. */
  lemma AtOwnFields(day: Date, t: Instant)
    requires DayNumber(day) == DayOf(t)
    ensures At(day, HourOf(t), MinuteOf(t)) == t
  {
    InstantFields(t);
  }

  // ---------------------------------------------------------------------------
  // Reading and writing date-time text
  // ---------------------------------------------------------------------------

  /** The date part of the date-time format: `YYYY`, `YYYY-MM` or `YYYY-MM-DD`. */
  function ParseDate(s: string): (r: Option<Date>)
    ensures r.Some? ==> ValidDate(r.value) && 0 <= r.value.year <= 9999
  {
    if |s| == 4 && AllDigits(s) then
      Some(Date(DigitsValue(s), 1, 1))
    else if |s| == 7 && AllDigits(s[..4]) && s[4] == '-' && AllDigits(s[5..7]) then
      var d := Date(DigitsValue(s[..4]), DigitsValue(s[5..7]), 1);
      if ValidDate(d) then Some(d) else None
    else if |s| == 10 && AllDigits(s[..4]) && s[4] == '-' && AllDigits(s[5..7]) && s[7] == '-' && AllDigits(s[8..10]) then
      var d := Date(DigitsValue(s[..4]), DigitsValue(s[5..7]), DigitsValue(s[8..10]));
      if ValidDate(d) then Some(d) else None
    else
      None
  }

  /**
   * The time part: `HH:mm` or `HH:mm:ss`, hours up to 24 and minutes and
   * seconds up to 59; `24:00` (with zero seconds) is the end of the day.
   * Seconds are dropped, the model counts minutes.
   */
  function ParseTime(s: string): (r: Option<(nat, nat)>)
    ensures r.Some? ==> (r.value.0 < 24 && r.value.1 < 60) || r.value == (24, 0)
  {
    if (|s| == 5 || (|s| == 8 && s[5] == ':' && AllDigits(s[6..8]) && DigitsValue(s[6..8]) < 60))
       && AllDigits(s[..2]) && s[2] == ':' && AllDigits(s[3..5])
    then
      var h := DigitsValue(s[..2]);
      var m := DigitsValue(s[3..5]);
      var sec := if |s| == 8 then DigitsValue(s[6..8]) else 0;
      if h < 24 && m < 60 then Some((h, m))
      else if h == 24 && m == 0 && sec == 0 then Some((24, 0))
      else None
    else
      None
  }

  /** The date that the text before the first `T` names, if any. */
  function DatePartOf(text: string): Option<Date> {
    ParseDate(BeforeFirst(text, 'T'))
  }

  /** Minute at which date `d` starts. */
  function Midnight(d: Date): Instant {
    DayNumber(d) * MinutesPerDay
  }

  /** `t` lies on date `d`, counting the closing midnight (`24:00`) as part of it. */
  ghost predicate WithinDate(t: Instant, d: Date) {
    Midnight(d) <= t <= Midnight(d) + MinutesPerDay
  }

  /**
   * `new Date(text)` for a text of the form date `T` time without a zone
   * designator, which ECMAScript reads as local time. `None` stands for an
   * Invalid Date.
   */
  function ParseLocal(text: string): (r: Option<Instant>)
    ensures r.Some? ==> DatePartOf(text).Some?
    ensures r.Some? ==> WithinDate(r.value, DatePartOf(text).value)
  {
    var datePart := BeforeFirst(text, 'T');
    if |datePart| == |text| then None
    else
      match (ParseDate(datePart), ParseTime(text[|datePart| + 1..]))
      case (Some(d), Some(hm)) => Some(At(d, hm.0, hm.1))
      case _ => None
  }

  /** `YYYY-MM-DD`, as an `<input type="date">` yields it. */
  function FormatDate(d: Date): string
    requires 0 <= d.year <= 9999 && ValidDate(d)
  {
    Padded(d.year, 4) + "-" + Padded(d.month, 2) + "-" + Padded(d.day, 2)
  }

  /** `HH:mm`, as an `<input type="time">` yields it. */
  function FormatTime(hour: nat, minute: nat): string
    requires hour < 24 && minute < 60
  {
    Padded(hour, 2) + ":" + Padded(minute, 2)
  }

  lemma PaddedNoSeparator(n: nat, width: nat, c: char)
    requires !IsDigit(c)
    ensures c !in Padded(n, width)
  {
  }

  /** Formatting a date and reading it back gives the date. */
  lemma ParseDateRoundTrip(d: Date)
    requires 0 <= d.year <= 9999 && ValidDate(d)
    ensures ParseDate(FormatDate(d)) == Some(d)
  {
    var s := FormatDate(d);
    assert s[..4] == Padded(d.year, 4);
    assert s[5..7] == Padded(d.month, 2);
    assert s[8..10] == Padded(d.day, 2);
    PaddedRoundTrip(d.year, 4);
    PaddedRoundTrip(d.month, 2);
    PaddedRoundTrip(d.day, 2);
  }

  /** Formatting a time as `HH:mm:ss` and reading it back gives the time. */
  lemma ParseTimeRoundTrip(hour: nat, minute: nat)
    requires hour < 24 && minute < 60
    ensures ParseTime(FormatTime(hour, minute) + ":00") == Some((hour, minute))
  {
    var s := FormatTime(hour, minute) + ":00";
    assert |s| == 8 && s[2] == ':' && s[5] == ':';
    assert s[..2] == Padded(hour, 2);
    assert s[3..5] == Padded(minute, 2);
    assert s[6..8] == "00";
    assert AllDigits(s[6..8]) && DigitsValue(s[6..8]) == 0;
    PaddedRoundTrip(hour, 2);
    PaddedRoundTrip(minute, 2);
  }

  /** A text `date T time` with no `T` in `date` reads as that date at that time. */
  lemma ParseLocalParts(date: string, time: string)
    requires 'T' !in date
    ensures ParseLocal(date + "T" + time) ==
      match (ParseDate(date), ParseTime(time))
      case (Some(d), Some(hm)) => Some(At(d, hm.0, hm.1))
      case _ => None
  {
    var text := date + "T" + time;
    assert text == date + ['T'] + time;
    BeforeFirstConcat(date, 'T', time);
    assert text[|date| + 1..] == time;
  }

  /**
   * The text `YYYY-MM-DDTHH:mm:00` that both appointment forms build reads
   * back as exactly that date and time.
   */
  lemma ParseLocalRoundTrip(d: Date, hour: nat, minute: nat)
    requires 0 <= d.year <= 9999 && ValidDate(d)
    requires hour < 24 && minute < 60
    ensures ParseLocal(FormatDate(d) + "T" + FormatTime(hour, minute) + ":00") == Some(At(d, hour, minute))
  {
    var date := FormatDate(d);
    var time := FormatTime(hour, minute) + ":00";
    assert date + "T" + FormatTime(hour, minute) + ":00" == date + "T" + time;
    assert 'T' !in date by {
      PaddedNoSeparator(d.year, 4, 'T');
      PaddedNoSeparator(d.month, 2, 'T');
      PaddedNoSeparator(d.day, 2, 'T');
    }
    ParseLocalParts(date, time);
    ParseDateRoundTrip(d);
    ParseTimeRoundTrip(hour, minute);
  }
}
